=== FILE: README.md ===
# RubyChess rules engine in Dafny

This project models the rules core of RubyChess, a console chess game written in Ruby. The model has three layers.

- **Move trees** (`lib/chess_pieces/move_tree_node.rb` and `lib/chess_pieces/move_tree.rb`). An ordered rose tree of board locations. Node operations: `add_child`, `remove_child` and node equality. Tree operations: the breadth-first `each`, `to_a` and `trim_branch!`.
- **Pieces** (`lib/chess_pieces/*.rb`). One closed `Kind` datatype covers pawn, knight, bishop, rook, queen and king. Each kind has a move-tree template: the king and knight have flat fans of offsets; rook, bishop and queen have chains of seven squares per direction; the pawn has a forward step, a double step and two diagonals. Possible squares are the template translated to the piece's square with off-board squares pruned. The model also covers the pawn capture rule, promotion, and the pawn and king "has moved" state.
- **Rules engine** (`lib/chess_game.rb`). It covers:
  - the occupancy-aware `legal_moves` walk, `pawn_legal_moves` and `get_en_passant_moves`;
  - `can_castle?` and `validate_move`;
  - `make_move` with its self-check rejection and its partial rollback;
  - `check_check`, `forecast_move`, `available_moves`, `check_game_over` and `random_move`;
  - `change_turn` and the starting position;
  - square-name conversion, `parse_move` and `player_input_type`.

The Ruby methods mutate the game. Here each one is a pure function from a `GameState` record to a result. The record holds the board, the colour to move, the king cache, the castle flag and the check flag. A rejected `make_move` returns the error together with the state that its incomplete rollback leaves behind.

Files, one module each:

| file | module | models |
|---|---|---|
| util.dfy | Util | `Option`, `Result`, subsequences, first match, tabulation |
| move_tree_node.dfy | MoveTreeNodes | `MoveTreeNode` |
| move_tree.dfy | MoveTrees | `MoveTree` |
| pieces.dfy | Pieces | colours, kinds, points, `move`, `moves_in_bounds` |
| templates.dfy | Templates | the `build_*_move_tree` templates |
| movement.dfy | Movement | `possible_moves`, rays from a square, `can_capture?` |
| board.dfy | Boards | the 8×8 board, setup, `board_pieces_by_color` |
| legality.dfy | Legality | non-pawn `legal_moves` |
| pawn_legality.dfy | PawnLegality | `pawn_legal_moves`, `get_en_passant_moves` |
| game.dfy | Game | validation, `make_move`, check, forecasting, game over |
| notation.dfy | Notation | coordinates, `parse_move`, `player_input_type` |

How the source's revisions are reconciled:

- The piece files are an older revision than `lib/chess_game.rb`. The game reads and adjusts a pawn move counter (`lib/chess_game.rb:260`, `:310`, `:705`), while `lib/chess_pieces/pawn.rb` keeps a `has_moved` flag. The model gives the pawn a counter; "has moved" means the counter is positive, and the double step is in the template only while the counter is 0.
- The `move`, `possible_moves` and ray-building methods that the pieces call are missing from `lib/chess_pieces/chess_piece.rb`. Possible squares follow `lib/chess_pieces/pawn.rb:40-49`: translate the template, then keep the on-board squares. Rays are chains of seven nodes, as `spec/chess_piece_spec.rb:56-183` asserts.
- `Pawn#can_capture?` raises on a blank square, but `pawn_legal_moves` passes it blank squares. In the model a blank square is never capturable.
- Under `Pawn#can_capture?` as written in `lib/chess_pieces/pawn.rb:56-67`, `get_en_passant_moves` could never find anything. En passant is therefore a separate predicate, following `spec/pawn_spec.rb:132-159`: an enemy pawn beside the capturer, on its row, whose counter is 1.
- The base class's `can_capture?` raises. For the other kinds, the model uses the rule the game needs: the target is an enemy piece on one of the capturer's possible squares.
- Promotion takes the chosen kind as a parameter, defaulting to a queen.

## Model

| member | source | states |
|---|---|---|
| MoveTreeNodes.NewNode | lib/chess_pieces/move_tree_node.rb:15-18 | A new node holds the given location and has no children. |
| MoveTreeNodes.AddChild | lib/chess_pieces/move_tree_node.rb:25-32 | ArgumentError exactly when the argument is neither a location nor a node. Otherwise the old children stay, in order, as a prefix and exactly one child is appended: a fresh leaf at the given location, or the given node itself with its subtree. |
| MoveTreeNodes.NodeEqualityIgnoresChildren | lib/chess_pieces/move_tree_node.rb:59-63 | Two nodes are equal exactly when their locations are equal, whatever their children. A node never equals a bare location or any other value. |
| MoveTreeNodes.WithoutSpec | lib/chess_pieces/move_tree_node.rb:40 | Deleting the children equal to a probe keeps every other child, in order and with every duplicate (each occurs as often as before), and drops every equal one. The length is unchanged exactly when nothing matched. |
| MoveTreeNodes.LastEqual | lib/chess_pieces/move_tree_node.rb:40-42 | The value `Array#delete` returns is nothing exactly when no child matches. Otherwise it is the last matching child. |
| MoveTreeNodes.RemoveChild | lib/chess_pieces/move_tree_node.rb:39-46 | ArgumentError exactly for an argument that is neither a location nor a node. Otherwise the children become an order-preserving subsequence with no child at the location and every other child kept as often as it occurred. It returns a removed child at that location, or nothing with the node unchanged when no child was there. |
| MoveTreeNodes.WithoutUnique | lib/chess_pieces/move_tree_node.rb:40 | Deleting a location that exactly one child holds removes exactly that child and keeps the others in order. |
| MoveTrees.NewTree | lib/chess_pieces/move_tree.rb:16-18 | A new tree is a single root at the given position. |
| MoveTrees.BfsIsLevelOrder | lib/chess_pieces/move_tree.rb:22-30 | The queue walk of `each` equals the recursive level-order definition. |
| MoveTrees.BfsVisitsEachNodeOnce | lib/chess_pieces/move_tree.rb:22-30 | The queue walk visits every node of the forest exactly once: same multiset as a preorder walk, length equal to the node count. |
| MoveTrees.Each | lib/chess_pieces/move_tree.rb:22-30 | The loop of `each` visits the root first, then the nodes in level order, each exactly once. |
| MoveTrees.WalkIsLevelOrder | lib/chess_pieces/move_tree.rb:22-30 | The walk is the root followed by the level order of its children. |
| MoveTrees.ToA | lib/chess_pieces/move_tree.rb:70-77 | `to_a` lists the locations in level order without the root, so its length is the node count less one. |
| MoveTrees.ToAHasParent | lib/chess_pieces/move_tree.rb:70-77 | A location is listed exactly when some node of the tree has a child there. |
| MoveTrees.ToATwoLevels | lib/chess_pieces/move_tree.rb:70-77 | For a tree of depth at most two, `to_a` lists the root's children, then the grandchildren. |
| MoveTrees.ChainLevelOrder | lib/chess_pieces/move_tree.rb:70-77 | A chain is listed in order from its head to its tail. |
| MoveTrees.TaggedBfsSound | lib/chess_pieces/move_tree.rb:55-61 | The walk that carries each node's path visits the same nodes in the same order as `each`, and every path addresses its node. |
| MoveTrees.TrimBranch | lib/chess_pieces/move_tree.rb:45-65 | ArgumentError exactly for an argument that is neither a location nor a node. A location not listed by `to_a` returns nil and leaves the tree unchanged; the root can never be trimmed. Otherwise it returns the location, keeps the root and leaves strictly fewer nodes. |
| MoveTrees.TrimBranchEditsFirstMatch | lib/chess_pieces/move_tree.rb:55-61 | The first node in level order that has a child at the location loses that child with its whole subtree. Every node off that node's path is left in place. |
| MoveTrees.TrimBranchByNode | lib/chess_pieces/move_tree.rb:47-53 | Trimming by a node is trimming by that node's location. |
| MoveTrees.TrimRootChild | lib/chess_pieces/move_tree.rb:55-61 | A location held by a child of the root is cut from the root. |
| MoveTrees.TrimFirstGrandchild | lib/chess_pieces/move_tree.rb:55-61 | A location held by a child of the first child, and not by the root, is cut from that first child. |
| Pieces.OpponentInvolution | lib/chess_game.rb:657-659 | Switching colour twice gives the colour back. |
| Pieces.PointsOrder | lib/chess_pieces/chess_piece.rb:15-20 | Point values: pawn 1, knight 3, bishop 3, rook 5, queen 9, king 10000. They order pawn < knight = bishop < rook < queen < king. |
| Pieces.NewPawn | lib/chess_pieces/pawn.rb:16-22 | A new pawn is of the given colour and has not moved. |
| Pieces.NewKing | lib/chess_pieces/king.rb:14-18 | A new king is of the given colour and reports that it has not moved. |
| Pieces.Direction | lib/chess_pieces/pawn.rb:18 | White pawns advance by +1 row, black pawns by −1. |
| Pieces.BackRow | lib/chess_pieces/pawn.rb:19 | A white pawn promotes on row 7, a black pawn on row 0. |
| Pieces.BackRowIsSixStepsAway | lib/chess_pieces/pawn.rb:18-19 | The promotion row is six steps, in the pawn's direction, from its starting row. |
| Pieces.MovesInBoundsSpec | lib/chess_pieces/chess_piece.rb:43-45 | `moves_in_bounds` keeps exactly the positions with both coordinates in 0..7, as a subsequence of its input. |
| Pieces.MovesInBoundsIdempotent | lib/chess_pieces/chess_piece.rb:43-45 | Filtering twice gives what filtering once gives. |
| Pieces.MovesInBoundsAppend | lib/chess_pieces/chess_piece.rb:44 | Filtering distributes over concatenation. |
| Pieces.MovePiece | lib/chess_pieces/pawn.rb:28-35 | `move` keeps the colour. A pawn reaching its promotion row becomes the chosen kind; any other pawn move adds one to its counter. A king is marked as moved. Every other kind is unchanged. |
| Pieces.PromotionDefaultsToQueen | lib/chess_pieces/pawn.rb:32 | Without a choice, a pawn reaching its promotion row becomes a queen of its colour. |
| Pieces.KingStaysMoved | lib/chess_pieces/king.rb:22-25 | After any move a king reports that it has moved, and a second move keeps it so. |
| Templates.AddChildren | lib/chess_pieces/move_tree_node.rb:25-32 | Repeated `add_child` keeps the old children and appends one child per argument, in order. |
| Templates.FanIsAddChildren | lib/chess_pieces/knight.rb:29 | A fan of leaves is what adding each offset to a fresh root by `add_child` builds. |
| Templates.FanListing | lib/chess_pieces/move_tree.rb:70-77 | `to_a` of a fan is its offsets in order. |
| Templates.KingOffsetsDerivation | lib/chess_pieces/king.rb:47-52 | The source's construction, repeated permutations of {−1, 0, 1} with [0, 0] deleted, yields exactly the king's offset list. |
| Templates.KingOffsetsAreTheNeighbours | lib/chess_pieces/king.rb:43-55 | The king's eight offsets are exactly the unit steps, each once, in strictly lexicographic order. |
| Templates.KingTemplateShape | lib/chess_pieces/king.rb:43-55 | The king template is a root at [0, 0] with eight leaf children, listed exactly as the unit steps. |
| Templates.KnightPermutations | lib/chess_pieces/knight.rb:28 | Ruby's `permutation(2)` of [1, −1, 2, −2], in Ruby's order. |
| Templates.KnightOffsetsDerivation | lib/chess_pieces/knight.rb:28 | Rejecting the zero-sum pairs yields exactly the knight's offset list, in the source's order. |
| Templates.KnightOffsetsAreTheJumps | lib/chess_pieces/knight.rb:28 | The knight's eight offsets are distinct and are exactly the L-shaped jumps {\|dr\|, \|dc\|} = {1, 2}. |
| Templates.KnightTemplateShape | lib/chess_pieces/knight.rb:25-32 | The knight template is a root at [0, 0] with eight leaf children, listed exactly as the L-shaped jumps. |
| Templates.RayNodeChain | spec/chess_piece_spec.rb:56-183 | A ray is a chain whose head is one step from the start and which lists the successive steps. |
| Templates.RayFromMultiples | spec/chess_piece_spec.rb:56-183 | The i-th square of a ray is the start plus (i+1) times the direction. |
| Templates.RayTemplateIsAddChildren | lib/chess_pieces/rook.rb:28-31 | A slider template is a fresh root given one ray child per direction by `add_child`. |
| Templates.RookDirections | lib/chess_pieces/rook.rb:28-31 | Every rook direction is a unit step with exactly one non-zero component. |
| Templates.BishopDirections | lib/chess_pieces/bishop.rb:27-30 | Every bishop direction has both components equal to ±1. |
| Templates.QueenIsRookAndBishop | lib/chess_pieces/queen.rb:23-28 | The queen's directions are exactly the union of the rook's and the bishop's, and none is [0, 0]. |
| Templates.RayTemplateShape | lib/chess_pieces/queen.rb:20-31 | A slider template's root children lie one step along each direction, in order, and each is a chain of the seven squares along it. |
| Templates.SliderTemplateShapes | lib/chess_pieces/rook.rb:28-31 | The rook's rays go [1,0], [−1,0], [0,1], [0,−1]. The bishop's go [1,1], [−1,1], [1,−1], [−1,−1]. The queen's go in the king's lexicographic offset order. |
| Templates.PawnTemplateShape | lib/chess_pieces/pawn.rb:81-88 | The pawn template's children are forward [dir, 0], then [dir, 1], then [dir, −1]. The forward node's only child is [2·dir, 0] exactly while the pawn has not moved. |
| Templates.PawnTemplateAfterMoves | lib/chess_pieces/pawn.rb:72-75 | The first move removes the double step and later moves remove nothing more: four template squares before, three after. |
| Movement.PossibleMoves | lib/chess_pieces/pawn.rb:40-49 | The possible-squares tree is rooted at the piece's square, and every square it lists is on the board. |
| Movement.PossibleIsBoundedShift | lib/chess_pieces/pawn.rb:40-49 | Translating a template and pruning off-board nodes lists exactly `moves_in_bounds` of the template's squares shifted by the position, provided no on-board square hangs below an off-board one. |
| Movement.TranslateLevelOrder | lib/chess_pieces/pawn.rb:44-46 | Translating every node shifts the level-order listing by the same offset. |
| Movement.PruneLevelOrder | lib/chess_pieces/pawn.rb:44-46 | Pruning off-board nodes lists `moves_in_bounds` of the unpruned listing, provided no on-board square hangs below an off-board one. |
| Movement.TemplateClosed | lib/chess_pieces/pawn.rb:40-49 | From a square on the board, no template of any kind has an on-board square below an off-board one. |
| Movement.PossibleMovesAreBoundedTemplate | lib/chess_pieces/pawn.rb:40-49 | For every kind, from a square on the board, the possible squares are `moves_in_bounds` of the template's squares shifted by the position. |
| Movement.WhitePawnExample | spec/pawn_spec.rb:13-17 | An unmoved white pawn at [1, 0] can go to [2, 0], [2, 1] and [3, 0]. |
| Movement.BlackPawnExample | spec/pawn_spec.rb:18-21 | An unmoved black pawn at [6, 1] can go to [5, 1], [5, 2], [5, 0] and [4, 1]. |
| Movement.RayTreeMoves | spec/chess_piece_spec.rb:56-183 | A ray from a square lists the in-bounds part of the seven steps along its direction. |
| Movement.RayStopsAtEdge | spec/chess_piece_spec.rb:56-183 | The in-bounds part of a ray from a square on the board is a prefix of the ray: a ray never re-enters the board. |
| Movement.FullRay | spec/chess_piece_spec.rb:56-183 | A ray whose seventh square is on the board keeps all seven squares. |
| Movement.EmptyRay | spec/chess_piece_spec.rb:56-183 | A ray whose first square is off the board lists nothing. |
| Movement.UpFromCorner | spec/chess_piece_spec.rb:58-65 | From [0, 0] the [1, 0] ray is [1, 0] … [7, 0]. |
| Movement.RightFromCorner | spec/chess_piece_spec.rb:79-86 | From [0, 0] the [0, 1] ray is [0, 1] … [0, 7]. |
| Movement.DownFromFarCorner | spec/chess_piece_spec.rb:67-75 | From [7, 7] the [−1, 0] ray is [6, 7] … [0, 7]. |
| Movement.LeftFromFarCorner | spec/chess_piece_spec.rb:88-96 | From [7, 7] the [0, −1] ray is [7, 6] … [7, 0]. |
| Movement.DiagonalFromCorner | spec/chess_piece_spec.rb:99-118 | From [0, 0] the [1, 1] ray is [1, 1] … [7, 7]. |
| Movement.DiagonalFromFarCorner | spec/chess_piece_spec.rb:120-139 | From [7, 7] the [−1, −1] ray is [6, 6] … [0, 0]. |
| Movement.AntiDiagonalFromSideCorner | spec/chess_piece_spec.rb:141-150 | From [7, 0] the [−1, 1] ray is [6, 1] … [0, 7]. |
| Movement.RaysOffTheCorners | spec/chess_piece_spec.rb:99-139 | A diagonal pointing off a corner is empty, e.g. [1, 1] from [7, 7] and [−1, −1] from [0, 0]. |
| Movement.PawnCaptureRule | lib/chess_pieces/pawn.rb:57-68 | A pawn can capture exactly an enemy piece one row ahead in its direction and one column to either side. |
| Movement.NoSelfCapture | lib/chess_pieces/pawn.rb:62 | No piece can capture a piece of its own colour. |
| Movement.FanCaptureRule | lib/chess_game.rb:417-422 | For the capture test `legal_moves` applies to an occupied square, a king or a knight captures exactly an enemy on a board square one king step (both offsets in −1..1, not both 0), or one knight jump (offsets ±1 and ±2 in either order), away. |
| Boards.PlacePawns | lib/chess_game.rb:627-632 | `place_pawns` gives eight unmoved pawns of the colour. |
| Boards.PlaceBackRow | lib/chess_game.rb:640-650 | `place_back_row` gives R N B Q K B N R of the colour, from file a to file h. |
| Boards.SetupBoardLayout | lib/chess_game.rb:596-650 | The starting board: white's back row on row 0 and pawns on row 1, rows 2 to 5 blank, black's pawns on row 6 and back row on row 7, both unmoved kings on file e. |
| Boards.PiecesByColorSpec | lib/chess_game.rb:556-561 | `board_pieces_by_color` lists each piece of the colour with its square exactly once and nothing else, in row-major order. |
| Legality.LegalMovesLoop | lib/chess_game.rb:407-430 | The queue loop of non-pawn `legal_moves` computes the breadth-first filter. |
| Legality.FilterBlankStep | lib/chess_game.rb:422-427 | A blank square is kept and its children join the queue. |
| Legality.FilterOccupiedStep | lib/chess_game.rb:418-421 | An occupied square is kept exactly when its occupant is capturable, and its children never join the queue. |
| Legality.FilterBfsIsFilterPre | lib/chess_game.rb:413-428 | The queue walk keeps the same squares, as a multiset, as a depth-first filter that descends only through blank squares. |
| Legality.SlidingMovesSound | lib/chess_game.rb:407-430 | Every non-pawn legal move is one of the piece's possible squares, and it is blank or holds a capturable piece. |
| Legality.RayWalkShape | lib/chess_game.rb:413-428 | Along one ray, the legal squares are the run of blank squares, then the first occupied square if its occupant is capturable; nothing beyond it. |
| Legality.ChainFilter | lib/chess_game.rb:413-428 | Both the queue walk and the depth-first filter of a chain give the ray walk of its squares. |
| Legality.RayTemplateMoves | lib/chess_game.rb:407-430 | For a slider template placed on a square, the legal moves are, as a multiset, the ray walks of its directions. |
| Legality.SliderLegalMoves | lib/chess_game.rb:407-430 | A rook's, bishop's or queen's legal moves are, as a multiset, the ray walks of its directions. |
| Legality.LeavesFilter | lib/chess_game.rb:413-428 | Over leaves the queue walk keeps the squares, in order, that are blank or capturable. |
| Legality.KeepReachableSpec | lib/chess_game.rb:418-427 | A square is kept exactly when it is blank or holds a capturable piece. |
| Legality.FanLegalMoves | lib/chess_game.rb:407-430 | A king's or knight's legal moves are exactly its possible squares that are blank or hold an enemy piece, in order. |
| PawnLegality.PawnPossibleShape | lib/chess_pieces/pawn.rb:40-49 | A placed pawn's tree has the forward node and the diagonals that are on the board. The forward node carries the double step while unmoved and on the board. |
| PawnLegality.EnPassantMovesSpec | lib/chess_game.rb:480-495 | A square is an en passant move exactly when it is on the board, one row ahead, one column to either side, and beside the pawn stands an enemy pawn that has moved exactly once. |
| PawnLegality.ChildAt | lib/chess_game.rb:443-444 | Reading a child by index gives nothing exactly when the index is past the end. |
| PawnLegality.TrimUniqueRootChild | lib/chess_pieces/move_tree.rb:55-61 | Trimming the location of a root child that no other root child shares removes just that child. |
| PawnLegality.TrimTwoDiagonals | lib/chess_game.rb:443-457 | Each diagonal stays exactly when its occupant is capturable, and the forward node is untouched. |
| PawnLegality.TrimDoubleStepKeeps | lib/chess_game.rb:459-464 | The double step is cut exactly when it exists and its square is occupied. |
| PawnLegality.TrimForwardKeeps | lib/chess_game.rb:466-469 | The forward node, with the double step under it, is cut exactly when the square ahead is occupied. |
| PawnLegality.PawnTrimmedListing | lib/chess_game.rb:443-471 | After the trims, `to_a` lists the forward square if empty, then the capturable diagonals, then the double step if both squares ahead are empty and the pawn is unmoved. |
| PawnLegality.PawnRuleGrouped | lib/chess_game.rb:439-472 | The pawn's legal moves: the free forward square, the capturable diagonals, the free double step, then the en passant squares. |
| PawnLegality.PawnRuleOffBoard | lib/chess_game.rb:467-471 | A pawn whose forward square is off the board has only its en passant squares. |
| PawnLegality.PawnLegalMovesRule | lib/chess_game.rb:439-472 | The trimming procedure of `pawn_legal_moves` computes exactly that rule. |
| PawnLegality.PawnRuleMembers | lib/chess_game.rb:439-472 | Every pawn legal move is the forward square, an on-board diagonal, or the on-board double step of an unmoved pawn. |
| PawnLegality.PawnMovesWithinReach | lib/chess_game.rb:439-472 | Every pawn legal move is a possible square of the pawn. It is an en passant square, blank, or holds a capturable piece. |
| Game.LegalMovesWithinReach | lib/chess_game.rb:407-472 | Every legal move of any piece is a possible square on the board. Outside en passant it is blank or holds a capturable piece, never one of the mover's colour. |
| Game.WithKingLoc | lib/chess_game.rb:277 | Updating one colour's king cache sets it and leaves the other cache, the board and the flags alone. |
| Game.InitialKingsCached | lib/chess_game.rb:28-37 | At the start the king cache points at the two kings, white is to move, and both flags are down. |
| Game.ChangeTurn | lib/chess_game.rb:657-659 | `change_turn` hands the move to the other colour. |
| Game.ChangeTurnInvolution | lib/chess_game.rb:657-659 | Changing the turn twice restores the state, and nothing else ever changes. |
| Game.FirstAttackerOfSpec | lib/chess_game.rb:506-512 | The first attacker of a colour exists exactly when some piece of that colour has the target among its legal moves. It is the piece on the earliest such square in row-major order: no piece of that colour on an earlier square reaches the target. |
| Game.CheckCheckSpec | lib/chess_game.rb:503-515 | `check_check` returns nothing exactly when neither king is attacked. A white attacker of the black king is reported before a black attacker of the white king. The reported piece stands on the first square, in row-major order, from which a piece of its colour reaches the other colour's cached king. |
| Game.SelfCheckRule | lib/chess_game.rb:298-301 | What the rejection test amounts to. A white move is rejected exactly when the white king is attacked, provided the black king is not. A black move is always rejected while the black king is attacked. While the black king is attacked, a white move is rejected exactly when the first white attacker is the king, whether or not the white king is attacked. Nothing is rejected without an attack. |
| Game.CanCastleSpec | lib/chess_game.rb:365-379 | `can_castle?` holds exactly for a target on the same row two columns away. Toward column 0 it needs a rook in column 0 and columns 1–3 blank; toward column 7 it needs a rook in column 7 and columns 5–6 blank. |
| Game.ValidateMove | lib/chess_game.rb:332-355 | A move that validates moves a piece of the mover's colour. |
| Game.ValidateMoveSound | lib/chess_game.rb:332-355 | Checks come in order. No piece fails first, then an opponent's piece. For the mover's piece, the move is ordinary exactly when the target is a legal move, a castle exactly when it is not but an unmoved king can castle there, and illegal otherwise. An ordinary move goes to a possible square and, outside en passant, never onto the mover's own piece. A castle is an unmoved king going two columns along its row toward a rook, tried only when the target is not a legal move. |
| Game.MoveSquare | lib/chess_game.rb:284-287 | Moving a square's content yields a blank exactly when the square was blank. |
| Game.RestoredPiece | lib/chess_game.rb:303-311 | The rollback writes back the piece with its counter or flag restored. Only a pawn standing on its own promotion row would come back promoted. |
| Game.MakeMoveInvalid | lib/chess_game.rb:246-248 | A move that fails validation raises that error and changes nothing. |
| Game.MakeMoveOutcome | lib/chess_game.rb:293-317 | `make_move` succeeds exactly when validation passes and the position after the commit does not fail the self-check test. Any other rejection after validation is "leaves your king in check". |
| Game.CommitOrdinary | lib/chess_game.rb:250-277 | Without castling, the commit blanks `from`, puts the moved or promoted piece on `to`, and blanks the en passant victim. No other square changes. A king's cache follows it; the turn and check flag stay. |
| Game.CastleBoard | lib/chess_game.rb:283-289 | The castle moves the corner rook to the square the king crossed and blanks the corner; other squares keep their pieces. |
| Game.CommitCastle | lib/chess_game.rb:276-290 | A castle moves the king two squares and brings the corner rook to the square it crossed, blanks `from` and the corner, and lowers the castle flag. The cache follows the king. |
| Game.MakeMoveCommitted | lib/chess_game.rb:246-321 | A successful move is the commit with the turn passed to the opponent. The check flag records whether anything gives check, and the self-check test (`SelfCheck` on `check_check`'s result) does not fire on the position. |
| Game.MakeMoveRolledBack | lib/chess_game.rb:298-312 | A rejected move restores only `from` and `to`. The turn stays and the check flag is raised. Every other square, the king cache and the castle flag keep the committed values. |
| Game.RejectedOrdinaryRestores | lib/chess_game.rb:298-312 | For an ordinary non-king move without en passant or promotion, the rollback restores the whole state except the check flag. |
| Game.RejectedKingMoveKeepsCache | lib/chess_game.rb:277-312 | After a rejected king move, the king cache still points at the square the king was refused. |
| Game.RejectedEnPassantLosesVictim | lib/chess_game.rb:264-312 | After a rejected en passant capture, the captured pawn's square stays blank. |
| Game.ForecastMove | lib/chess_game.rb:670-715 | A forecast fails with the validation error when validation fails. When it succeeds, it returns the target of a move that validates. |
| Game.CommitIsForecastState | lib/chess_game.rb:682-690 | Without a castle flag or an en passant capture, `make_move`'s commit produces the position the forecast tests. |
| Game.ForecastAgreesWithMakeMove | lib/chess_game.rb:670-715 | For an ordinary move without castle flag or en passant, the forecast succeeds exactly when `make_move` would go through. |
| Game.SurvivingMoves | lib/chess_game.rb:527-531 | A piece keeps exactly its moves that survive a forecast, in order. |
| Game.PieceMoves | lib/chess_game.rb:525-532 | A piece's row holds exactly its legal moves that survive a forecast. |
| Game.AvailableMovesSpec | lib/chess_game.rb:522-537 | `available_moves` is nil exactly when no piece of the side to move has a legal move that survives a forecast. Otherwise every row is such a piece with a non-empty list of such moves, and every surviving move of every piece of the side to move appears in that piece's row. |
| Game.CheckGameOverSpec | lib/chess_game.rb:386-396 | 'Checkmate' exactly when the check flag is up and the side to move has no surviving move. 'Stalemate' exactly when the flag is down and it has none. 'continue' exactly when it has one. |
| Game.RandomMoveSpec | lib/chess_game.rb:543-548 | A move is drawn exactly when one exists. The drawn pair is a legal, forecast-surviving move of a piece of the side to move. |
| Notation.FileColumn | lib/chess_game.rb:21-22 | Files a to h, and only they, name columns 0 to 7. |
| Notation.ConvertCoordinates | lib/chess_game.rb:157-159 | The row lies in −1..8, from the rank digit less one. There is a column exactly when the first character is a file letter. |
| Notation.ConvertAlgebraicOnBoard | lib/chess_game.rb:171-173 | A square on the board is named by its file letter and its rank digit. |
| Notation.CoordinatesOfName | lib/chess_game.rb:157-173 | Naming a square and reading the name back gives the square. |
| Notation.NameOfCoordinates | lib/chess_game.rb:157-173 | Reading a square name and naming the square gives the name back. |
| Notation.ConvertCoordinatesInjective | lib/chess_game.rb:157-159 | Distinct square names read as distinct coordinates. |
| Notation.ParseMove | lib/chess_game.rb:134-145 | Input parses to a move exactly when it is 4 or 8 characters long. |
| Notation.ParseMoveRoundTrip | lib/chess_game.rb:134-145 | A move between two squares, typed as "a2a4" or "a2 to a4", parses back to those squares. |
| Notation.ParseMoveExamples | spec/chess_game_spec.rb:51-71 | 'a2a4' and 'a2 to a4' give [[1,0],[3,0]]; 'h8e2' and 'h8 to e2' give [[7,7],[1,4]]. Five characters give nothing. |
| Notation.ContainsSpec | lib/chess_game.rb:183 | `include?` finds a word exactly when the word occurs at some position of the input. |
| Notation.PlayerInputType | lib/chess_game.rb:182-188 | An input with a save word anywhere is 'save'. Otherwise one with a help word is 'help'. Otherwise it is 'move'. |
| Notation.SendIsSave | lib/chess_game.rb:183 | A save word inside a longer word counts: "send" saves. |
| Notation.QuestionIsHelp | lib/chess_game.rb:185 | "?" anywhere in an input without a save word asks for help. |
| Notation.TypedMoveIsMove | spec/chess_game_spec.rb:90-96 | A typed move such as "e2e4" holds none of the words and is a move. |

## Left out

- lib/main.rb, lib/colors.rb and lib/board.rb are not part of this model. They hold the menu loop, console I/O, YAML loading, ANSI colouring and an older board superseded by `setup_board`.
- `play`, `player_input`, `save_game`, `print_help_menu`, `print_out_of_check_moves` and `to_s` (lib/chess_game.rb:48-119, 192-236, 568-587) are left out: they are console I/O, file writes and display.
- The move history is left out: only `play` appends to it.
- The "Check!" messages in `make_move` are left out.
- Glyph names, `to_s` of pieces and `ChessPiece#<=>` are left out. `<=>` is tested in spec/chess_piece_spec.rb:16-54 and defined nowhere in lib/chess_pieces/chess_piece.rb.
- Pieces do not store their square. The square that holds a piece is its position, so `position` can never disagree with the board. Name and points are derived from the kind.
- `MoveTree#clone`'s Marshal round trip is a value copy here. Datatype values cannot be shared, so the independence of the copy holds by construction, and `legal_moves`' aliasing of its queue to the clone's children (lib/chess_game.rb:412) cannot arise. The breadth-first walk is functional.
- `MoveTree#each` yields to a block. The model returns the visited sequence, and the `Each` method computes it with the source's queue loop.
- The base `legal_moves` and `can_capture?` of `ChessPiece` always raise. The model has no abstract piece, so every kind supplies its own rules.
- `Pawn#can_capture?` raising ArgumentError on a non-piece is not modelled. The callers give it blank squares, and a blank is never capturable.
- The interactive promotion prompt and the random computer choice (spec/pawn_spec.rb:55-104) are left out. The promoted kind is a parameter that defaults to a queen.
- `random_move`'s `Array#sample` is replaced by two index parameters, each taken modulo the length it draws from.
- Game.RandomMove: returns None when the side to move has no move. Ruby's `random_move` (lib/chess_game.rb:543-548) then calls `keys` on the nil from `available_moves` and raises NoMethodError. The model returns None in place of that raise.
- `Game.MakeMove`, `Game.ValidateMove` and `Game.ForecastMove` require `from` and `to` on the board, so the model excludes the off-board squares a player can type. `convert_coordinates` (lib/chess_game.rb:157-159) gives row −1 for rank '0' or a non-digit, row 8 for rank '9', and a nil column for an unknown file. In `validate_move` and `make_move`, Ruby reads `@board[-1]` as row 7: "h0h6" moves the h8 piece as "h8h6" would, and "e0g0" can castle the black king while caching its square as row −1. Row 8 or a nil column raises a NoMethodError or TypeError, which the `StandardError` rescue of `play` (lib/chess_game.rb:82-83) reports. `Notation.ConvertCoordinates` models the out-of-range results; the game operations do not model Ruby's negative indexing.
- `get_en_passant_moves` indexes `col - 1`, which Ruby wraps to column 7 when the pawn is on column 0 (lib/chess_game.rb:484-487). The model checks the bounds explicitly instead.
- A pawn whose forward square is off the board makes Ruby index a missing child (lib/chess_game.rb:467). The model gives it only its en passant squares; a pawn on its promotion row never stays a pawn, so no reachable game meets this case.
- `can_castle?` accepts a rook of either colour in the corner, and so does the model.
- `make_move`'s rollback (lib/chess_game.rb:298-312) does not restore the king cache set at lib/chess_game.rb:277, the en passant victim removed at :264, the rook moved by a castle at :283-289, or `@check_in_play` set at :296. The model keeps these gaps as written. `Game.RejectedKingMoveKeepsCache`, `Game.RejectedEnPassantLosesVictim` and `Game.MakeMoveRolledBack` state them.
- Game.ForecastMove: does not carry the castle flag that `validate_move` raises inside `forecast_move` (lib/chess_game.rb:346). In Ruby that flag would leak into the next `make_move` of a king, but that cannot happen: the only caller of `forecast_move` is `available_moves` (lib/chess_game.rb:528), which passes only `legal_moves` targets, so the `include?` test at lib/chess_game.rb:343 holds and line 346 never raises the flag. The model assumes the flag is down between calls (`ForecastAgreesWithMakeMove` requires it), and the forecast leaves the state untouched.
- `MoveSquare` turns a blank into a blank where Ruby would raise calling `move` on a blank square. That would be a castle whose corner rook is missing, which `can_castle?` rules out.
- `check_check` reports only the first attacker found, trying white attackers of the black king first. So a black move is rejected whenever a white piece attacks the black king, whoever moved. Conversely, a white move that gives check with a piece other than the king is accepted even when the white king stays attacked, because only the white attacker is reported and lib/chess_game.rb:301 lets a white non-king attacker through. The model keeps this as written (`Game.SelfCheckRule`) rather than asking whether the mover's own king is attacked.

=== FILE: board.dfy ===
/**
 * The board of lib/chess_game.rb: eight rows of eight squares, each blank
 * or holding a piece, row 0 being white's back row and column 0 file a.
 * Square reads and writes, the standard setup of `setup_board`, and
 * `board_pieces_by_color`.
 */
module Boards {
  import opened Util
  import opened MoveTreeNodes
  import opened Pieces

  /** A square is blank (`BLANK_SQUARE`) or holds a piece. */
  type Square = Option<Piece>

  predicate IsBoard(rows: seq<seq<Square>>)
  {
    |rows| == 8 && forall r :: 0 <= r < 8 ==> |rows[r]| == 8
  }

  /** A row of eight blank squares. */
  function BlankRow(): (row: seq<Square>)
    ensures |row| == 8 && forall c :: 0 <= c < 8 ==> row[c] == None
  {
    seq(8, _ => None)
  }

  type Board = rows: seq<seq<Square>> | IsBoard(rows) witness seq(8, _ => BlankRow())

  /** `@board[row][col]` for a square on the board. */
  function At(b: Board, l: Loc): Square
    requires OnBoard(l)
  {
    b[l.row][l.col]
  }

  /** `@board[row][col] = s`: that square changes, no other does. */
  function Place(b: Board, l: Loc, s: Square): (r: Board)
    requires OnBoard(l)
    ensures At(r, l) == s
    ensures forall m :: OnBoard(m) && m != l ==> At(r, m) == At(b, m)
  {
    b[l.row := b[l.row][l.col := s]]
  }

  /** The square holds some piece (`is_a? ChessPiece`). */
  predicate Occupied(b: Board, l: Loc)
    requires OnBoard(l)
  {
    At(b, l).Some?
  }

  // ------------------------------------------------------------------ setup

  /** The back row from file a to file h: R N B Q K B N R. */
  function BackRowKinds(): (ks: seq<Kind>)
    ensures |ks| == 8
  {
    [Rook, Knight, Bishop, Queen, King(false), Bishop, Knight, Rook]
  }

  /** `place_pawns`: eight unmoved pawns of one colour. */
  function PlacePawns(c: Color): (row: seq<Square>)
    ensures |row| == 8 && forall i :: 0 <= i < 8 ==> row[i] == Some(NewPawn(c))
  {
    seq(8, _ => Some(NewPawn(c)))
  }

  /** `place_back_row`: the eight back-row pieces of one colour. */
  function PlaceBackRow(c: Color): (row: seq<Square>)
    ensures |row| == 8 && forall i :: 0 <= i < 8 ==> row[i] == Some(Piece(BackRowKinds()[i], c))
  {
    seq(8, i requires 0 <= i < 8 => Some(Piece(BackRowKinds()[i], c)))
  }

  /** `place_pieces`: white puts its back row first, black its pawns first. */
  function PlacePieces(c: Color): (rows: seq<seq<Square>>)
    ensures |rows| == 2 && |rows[0]| == 8 && |rows[1]| == 8
  {
    if c == White then [PlaceBackRow(c), PlacePawns(c)] else [PlacePawns(c), PlaceBackRow(c)]
  }

  /** `setup_board`: white's two rows, four blank rows, black's two rows. */
  function SetupBoard(): Board
  {
    var rows := PlacePieces(White) + seq(4, _ => BlankRow()) + PlacePieces(Black);
    assert forall r :: 0 <= r < 8 ==> |rows[r]| == 8;
    rows
  }

  /**
   * The standard starting position: white's back row on row 0 and pawns on
   * row 1, black's pawns on row 6 and back row on row 7, rows 2 to 5 blank,
   * and both kings on file e.
   */
  lemma SetupBoardLayout()
    ensures forall c :: 0 <= c < 8 ==>
              At(SetupBoard(), Loc(0, c)) == Some(Piece(BackRowKinds()[c], White)) &&
              At(SetupBoard(), Loc(1, c)) == Some(NewPawn(White)) &&
              At(SetupBoard(), Loc(6, c)) == Some(NewPawn(Black)) &&
              At(SetupBoard(), Loc(7, c)) == Some(Piece(BackRowKinds()[c], Black))
    ensures forall r, c :: 2 <= r < 6 && 0 <= c < 8 ==> At(SetupBoard(), Loc(r, c)) == None
    ensures At(SetupBoard(), Loc(0, 4)) == Some(NewKing(White))
    ensures At(SetupBoard(), Loc(7, 4)) == Some(NewKing(Black))
  {
    var b := SetupBoard();
    var blanks: seq<seq<Square>> := seq(4, _ => BlankRow());
    assert b == PlacePieces(White) + blanks + PlacePieces(Black);
    assert b[0] == PlaceBackRow(White) && b[1] == PlacePawns(White);
    assert b[6] == PlacePawns(Black) && b[7] == PlaceBackRow(Black);
    assert forall r :: 2 <= r < 6 ==> b[r] == blanks[r - 2];
  }

  // -------------------------------------------------------- pieces by colour

  /** The square at position `k` of the row-major order `@board.flatten` uses. */
  function RowMajor(k: nat): (l: Loc)
    requires k < 64
    ensures OnBoard(l)
  {
    Loc(k / 8, k % 8)
  }

  /** Position of a square in row-major order. */
  function Index(l: Loc): int
  {
    8 * l.row + l.col
  }

  lemma RowMajorIndex(k: nat, l: Loc)
    requires k < 64 && OnBoard(l)
    ensures RowMajor(k) == l <==> Index(l) == k
  {
  }

  /** The pieces of colour `c` at row-major positions `k` and later, with their squares. */
  function PiecesFrom(b: Board, c: Color, k: nat): (r: seq<(Loc, Piece)>)
    requires k <= 64
    ensures forall i :: 0 <= i < |r| ==> OnBoard(r[i].0) && k <= Index(r[i].0) < 64
    decreases 64 - k
  {
    if k == 64 then []
    else
      var l := RowMajor(k);
      var rest := PiecesFrom(b, c, k + 1);
      match At(b, l)
      case Some(q) => if q.color == c then [(l, q)] + rest else rest
      case None => rest
  }

  /** One half of `board_pieces_by_color`: the pieces of colour `c` in row-major order. */
  function PiecesByColor(b: Board, c: Color): seq<(Loc, Piece)>
  {
    PiecesFrom(b, c, 0)
  }

  /**
   * The listing holds each piece of colour `c` with its square, once, and
   * nothing else: a square is listed exactly when it holds a piece of that
   * colour, and the squares come in strictly increasing row-major order.
   */
  lemma {:induction false} PiecesFromSpec(b: Board, c: Color, k: nat)
    requires k <= 64
    ensures forall l, q :: (l, q) in PiecesFrom(b, c, k) <==>
              OnBoard(l) && k <= Index(l) && At(b, l) == Some(q) && q.color == c
    ensures forall i, j :: 0 <= i < j < |PiecesFrom(b, c, k)| ==>
              Index(PiecesFrom(b, c, k)[i].0) < Index(PiecesFrom(b, c, k)[j].0)
    decreases 64 - k
  {
    if k < 64 {
      PiecesFromSpec(b, c, k + 1);
      var l := RowMajor(k);
      forall m: Loc | OnBoard(m) && k <= Index(m)
        ensures m == l || k + 1 <= Index(m)
      {
        RowMajorIndex(k, m);
      }
    }
  }

  lemma PiecesByColorSpec(b: Board, c: Color)
    ensures forall l, q :: (l, q) in PiecesByColor(b, c) <==> OnBoard(l) && At(b, l) == Some(q) && q.color == c
    ensures forall i, j :: 0 <= i < j < |PiecesByColor(b, c)| ==>
              Index(PiecesByColor(b, c)[i].0) < Index(PiecesByColor(b, c)[j].0)
  {
    PiecesFromSpec(b, c, 0);
  }

  /** Two boards that agree on every square are the same board. */
  lemma BoardsEqual(a: Board, c: Board)
    requires forall m :: OnBoard(m) ==> At(a, m) == At(c, m)
    ensures a == c
  {
    forall r | 0 <= r < 8
      ensures a[r] == c[r]
    {
      forall k | 0 <= k < 8
        ensures a[r][k] == c[r][k]
      {
        assert At(a, Loc(r, k)) == At(c, Loc(r, k));
      }
    }
  }
}

=== FILE: game.dfy ===
/**
 * The rules engine of lib/chess_game.rb: the game state, `legal_moves`,
 * `check_check`, `can_castle?`, `validate_move`, `make_move` with its
 * self-check rejection and rollback, `forecast_move`, `available_moves`,
 * `check_game_over`, `random_move`, `change_turn` and the starting state.
 *
 * Every method of the Ruby class mutates the game; here each is a function
 * from a game state to a result, and a rejected `make_move` hands back the
 * state its incomplete rollback leaves behind.
 */
module Game {
  import opened Util
  import opened MoveTreeNodes
  import opened MoveTrees
  import opened Pieces
  import opened Movement
  import opened Boards
  import opened Legality
  import opened PawnLegality

  // ------------------------------------------------------------ legal moves

  /** `legal_moves`: a pawn follows its own rule, every other kind walks its possible squares. */
  function LegalMoves(b: Board, p: Piece, at: Loc): seq<Loc>
    requires OnBoard(at)
  {
    if p.kind.Pawn? then PawnLegalMoves(b, p, at) else SlidingMoves(b, p, at)
  }

  /**
   * A legal destination is one of the piece's possible squares, so it is on
   * the board; it is blank or holds a piece the mover can capture, unless it
   * is a pawn's en passant square; in particular it never holds a piece of
   * the mover's own colour outside en passant.
   */
  lemma LegalMovesWithinReach(b: Board, p: Piece, at: Loc, l: Loc)
    requires OnBoard(at)
    requires l in LegalMoves(b, p, at)
    ensures l in ToA(PossibleMoves(p, at)) && OnBoard(l)
    ensures (p.kind.Pawn? && l in EnPassantMoves(b, p, at)) || At(b, l).None? || CanCapture(p, at, At(b, l).value, l)
    ensures !(p.kind.Pawn? && l in EnPassantMoves(b, p, at)) ==> At(b, l).None? || At(b, l).value.color != p.color
  {
    if p.kind.Pawn? {
      PawnMovesWithinReach(b, p, at, l);
    } else {
      SlidingMovesSound(b, p, at, l);
    }
  }

  // ------------------------------------------------------------- game state

  /**
   * The game's mutable fields: the board, the colour to move
   * (`@current_player_color`), the king cache (`@king_locs`), the castle
   * flag (`@castle_king`) and the check flag (`@check_in_play`).
   */
  datatype GameState = GameState(
    board: Board,
    toMove: Color,
    whiteKing: Loc,
    blackKing: Loc,
    castle: bool,
    inCheck: bool)

  /** The cached square of the king of colour `c`. */
  function KingLoc(s: GameState, c: Color): Loc
  {
    if c == White then s.whiteKing else s.blackKing
  }

  /** `@king_locs[c] = l`: the other king's cache and every other field stay. */
  function WithKingLoc(s: GameState, c: Color, l: Loc): (r: GameState)
    ensures KingLoc(r, c) == l && KingLoc(r, Opponent(c)) == KingLoc(s, Opponent(c))
    ensures r.board == s.board && r.toMove == s.toMove && r.castle == s.castle && r.inCheck == s.inCheck
  {
    if c == White then s.(whiteKing := l) else s.(blackKing := l)
  }

  /** `initialize`: the standard setup, white to move, kings cached on e1 and e8, no flags raised. */
  function InitialState(): GameState
  {
    GameState(SetupBoard(), White, Loc(0, 4), Loc(7, 4), false, false)
  }

  /** The starting king cache points at the two kings of the standard setup. */
  lemma InitialKingsCached()
    ensures var s := InitialState();
            && At(s.board, KingLoc(s, White)) == Some(NewKing(White))
            && At(s.board, KingLoc(s, Black)) == Some(NewKing(Black))
            && s.toMove == White && !s.castle && !s.inCheck
  {
    SetupBoardLayout();
  }

  /** `change_turn`: the other colour moves and nothing else changes. */
  function ChangeTurn(s: GameState): (r: GameState)
    ensures r.toMove == Opponent(s.toMove) && r.toMove != s.toMove
  {
    s.(toMove := Opponent(s.toMove))
  }

  /** Changing the turn twice gives back the state. */
  lemma ChangeTurnInvolution(s: GameState)
    ensures ChangeTurn(ChangeTurn(s)) == s
    ensures ChangeTurn(s).(toMove := s.toMove) == s
  {
    OpponentInvolution(s.toMove);
  }

  // ---------------------------------------------------------------- check

  /** A piece of colour `c` stands on the board with `target` among its legal moves. */
  ghost predicate Attacks(b: Board, c: Color, target: Loc)
  {
    exists l :: OnBoard(l) && At(b, l).Some? && At(b, l).value.color == c && target in LegalMoves(b, At(b, l).value, l)
  }

  /** The listed piece `e` has `target` among its legal moves. */
  predicate Reaches(b: Board, e: (Loc, Piece), target: Loc)
  {
    OnBoard(e.0) && target in LegalMoves(b, e.1, e.0)
  }

  /** The first piece of colour `c`, in row-major order, whose legal moves reach `target`. */
  function FirstAttackerOf(b: Board, c: Color, target: Loc): Option<Piece>
  {
    var ps := PiecesByColor(b, c);
    match FirstWhere(ps, e => Reaches(b, e, target), 0)
    case Some(i) => Some(ps[i].1)
    case None => None
  }

  /**
   * The piece of colour `c` on `l` reaches `target`, and no piece of that
   * colour on an earlier square in row-major order does.
   */
  ghost predicate FirstAttackerAt(b: Board, c: Color, target: Loc, l: Loc)
  {
    && OnBoard(l) && At(b, l).Some? && At(b, l).value.color == c
    && target in LegalMoves(b, At(b, l).value, l)
    && forall l' {:trigger Index(l')} :: OnBoard(l') && Index(l') < Index(l) && At(b, l').Some? && At(b, l').value.color == c ==>
                      target !in LegalMoves(b, At(b, l').value, l')
  }

  /** In a listing ordered by square, an entry on an earlier square than entry `i` sits before it. */
  lemma EarlierListed(ps: seq<(Loc, Piece)>, i: nat, e: (Loc, Piece)) returns (j: nat)
    requires i < |ps| && e in ps && Index(e.0) < Index(ps[i].0)
    requires forall x, y :: 0 <= x < y < |ps| ==> Index(ps[x].0) < Index(ps[y].0)
    ensures j < i && ps[j] == e
  {
    j :| 0 <= j < |ps| && ps[j] == e;
  }

  /**
   * The first attacker exists exactly when some piece of that colour
   * attacks, and it is the piece on the earliest attacking square in
   * row-major order, as the `each ... return` walk over the board finds it.
   */
  lemma FirstAttackerOfSpec(b: Board, c: Color, target: Loc)
    ensures FirstAttackerOf(b, c, target).Some? <==> Attacks(b, c, target)
    ensures FirstAttackerOf(b, c, target).Some? ==>
              exists l :: FirstAttackerAt(b, c, target, l) && At(b, l) == FirstAttackerOf(b, c, target)
  {
    var ps := PiecesByColor(b, c);
    PiecesByColorSpec(b, c);
    match FirstWhere(ps, e => Reaches(b, e, target), 0)
    case Some(i) =>
      assert ps[i] in ps;
      var l := ps[i].0;
      forall l' | OnBoard(l') && Index(l') < Index(l) && At(b, l').Some? && At(b, l').value.color == c
        ensures target !in LegalMoves(b, At(b, l').value, l')
      {
        var e := (l', At(b, l').value);
        assert e in ps;
        var j := EarlierListed(ps, i, e);
        assert !Reaches(b, ps[j], target);
      }
      assert FirstAttackerAt(b, c, target, l);
    case None =>
      forall l | OnBoard(l) && At(b, l).Some? && At(b, l).value.color == c
        ensures target !in LegalMoves(b, At(b, l).value, l)
      {
        assert (l, At(b, l).value) in ps;
      }
  }

  /**
   * `check_check`: the first white piece attacking the black king, else the
   * first black piece attacking the white king, else nothing.
   */
  function CheckCheck(s: GameState): Option<Piece>
  {
    match FirstAttackerOf(s.board, White, s.blackKing)
    case Some(q) => Some(q)
    case None => FirstAttackerOf(s.board, Black, s.whiteKing)
  }

  /**
   * `check_check` reports nothing exactly when neither king is attacked; a
   * white attacker of the black king takes precedence over a black
   * attacker of the white king; what it reports is the piece on the first
   * square, in row-major order, from which its colour attacks the other
   * colour's cached king.
   */
  lemma CheckCheckSpec(s: GameState)
    ensures CheckCheck(s).None? <==> !Attacks(s.board, White, s.blackKing) && !Attacks(s.board, Black, s.whiteKing)
    ensures Attacks(s.board, White, s.blackKing) ==> CheckCheck(s).Some? && CheckCheck(s).value.color == White
    ensures !Attacks(s.board, White, s.blackKing) && Attacks(s.board, Black, s.whiteKing) ==>
              CheckCheck(s).Some? && CheckCheck(s).value.color == Black
    ensures CheckCheck(s).Some? ==>
              var c := CheckCheck(s).value.color;
              exists l :: FirstAttackerAt(s.board, c, if c == White then s.blackKing else s.whiteKing, l) &&
                          At(s.board, l) == CheckCheck(s)
  {
    FirstAttackerOfSpec(s.board, White, s.blackKing);
    FirstAttackerOfSpec(s.board, Black, s.whiteKing);
  }

  /**
   * The rejection test of `make_move` and `forecast_move`: something gives
   * check and it is an opponent's piece or a king.
   */
  predicate SelfCheck(attacker: Option<Piece>, mover: Color)
  {
    attacker.Some? && (attacker.value.color != mover || attacker.value.kind.King?)
  }

  /**
   * What the rejection test amounts to. A white move is rejected exactly
   * when a black piece attacks the white king, provided no white piece
   * attacks the black king; a black move is always rejected while a white
   * piece attacks the black king; with no attack at all nothing is rejected.
   * While a white piece attacks the black king, a white move is rejected
   * exactly when the first such attacker is the white king, whether or not
   * the white king is itself attacked.
   */
  lemma SelfCheckRule(s: GameState)
    ensures CheckCheck(s).None? ==> !SelfCheck(CheckCheck(s), s.toMove)
    ensures s.toMove == White && !Attacks(s.board, White, s.blackKing) ==>
              (SelfCheck(CheckCheck(s), s.toMove) <==> Attacks(s.board, Black, s.whiteKing))
    ensures s.toMove == White && Attacks(s.board, White, s.blackKing) ==>
              CheckCheck(s) == FirstAttackerOf(s.board, White, s.blackKing) &&
              (SelfCheck(CheckCheck(s), s.toMove) <==> CheckCheck(s).Some? && CheckCheck(s).value.kind.King?)
    ensures s.toMove == Black && Attacks(s.board, White, s.blackKing) ==> SelfCheck(CheckCheck(s), s.toMove)
  {
    CheckCheckSpec(s);
    FirstAttackerOfSpec(s.board, White, s.blackKing);
  }

  // ------------------------------------------------------------- castling

  /** The square holds a rook, of either colour. */
  predicate RookAt(b: Board, l: Loc)
    requires OnBoard(l)
  {
    At(b, l).Some? && At(b, l).value.kind.Rook?
  }

  /** `can_castle?`: the target is two columns along the same row, with the rook's side cleared. */
  function CanCastle(b: Board, from: Loc, to: Loc): bool
    requires OnBoard(from) && OnBoard(to)
  {
    if !(from.row == to.row && from.col - 2 <= to.col <= from.col + 2) then false
    else
      var row := from.row;
      if from.col - to.col == 2 then
        RookAt(b, Loc(row, 0)) && At(b, Loc(row, 1)).None? && At(b, Loc(row, 2)).None? && At(b, Loc(row, 3)).None?
      else if from.col - to.col == -2 then
        RookAt(b, Loc(row, 7)) && At(b, Loc(row, 6)).None? && At(b, Loc(row, 5)).None?
      else false
  }

  /** Every square of `row` from column `lo` to column `hi` is blank. */
  predicate BlankBetween(b: Board, row: int, lo: int, hi: int)
    requires 0 <= row < 8 && 0 <= lo && hi < 8
  {
    forall c :: lo <= c <= hi ==> At(b, Loc(row, c)).None?
  }

  /**
   * Castling toward column 0 needs a rook in column 0 and columns 1 to 3
   * blank; toward column 7 a rook in column 7 and columns 5 and 6 blank;
   * any other target is refused.
   */
  lemma CanCastleSpec(b: Board, from: Loc, to: Loc)
    requires OnBoard(from) && OnBoard(to)
    ensures CanCastle(b, from, to) <==>
              from.row == to.row &&
              ((to.col == from.col - 2 && RookAt(b, Loc(from.row, 0)) && BlankBetween(b, from.row, 1, 3)) ||
               (to.col == from.col + 2 && RookAt(b, Loc(from.row, 7)) && BlankBetween(b, from.row, 5, 6)))
  {
    var row := from.row;
    if BlankBetween(b, row, 1, 3) {
      assert At(b, Loc(row, 1)).None? && At(b, Loc(row, 2)).None? && At(b, Loc(row, 3)).None?;
    }
    if BlankBetween(b, row, 5, 6) {
      assert At(b, Loc(row, 5)).None? && At(b, Loc(row, 6)).None?;
    }
  }

  // ------------------------------------------------------------ validation

  /** The reasons `make_move` raises `InvalidMoveError`. */
  datatype MoveError = NoPieceAtSource | NotYourPiece | IllegalMove | LeavesKingInCheck

  /** How a validated move proceeds. */
  datatype MoveKind = Ordinary | Castling

  /**
   * `validate_move`: a piece must stand on `from`, it must be the mover's,
   * and `to` must be among its legal moves or be a castle of an unmoved
   * king; the checks are made in that order. A castle raises the castle
   * flag, which the caller does.
   */
  function ValidateMove(s: GameState, from: Loc, to: Loc): (r: Result<MoveKind, MoveError>)
    requires OnBoard(from) && OnBoard(to)
    ensures r.Success? ==> At(s.board, from).Some? && At(s.board, from).value.color == s.toMove
  {
    match At(s.board, from)
    case None => Failure(NoPieceAtSource)
    case Some(p) =>
      if p.color != s.toMove then Failure(NotYourPiece)
      else if to in LegalMoves(s.board, p, from) then Success(Ordinary)
      else if p.kind.King? && !p.kind.moved && CanCastle(s.board, from, to) then Success(Castling)
      else Failure(IllegalMove)
  }

  /**
   * What validation guarantees: an empty source and an opponent's piece are
   * refused first; a move of the mover's piece is ordinary exactly when the
   * target is a legal move, a castle exactly when it is not but an unmoved
   * king can castle there, and illegal otherwise. An ordinary move goes to
   * one of the piece's possible squares, never onto a piece of the mover's
   * colour outside en passant; a castle is an unmoved king going two
   * columns along its row toward a rook.
   */
  lemma ValidateMoveSound(s: GameState, from: Loc, to: Loc)
    requires OnBoard(from) && OnBoard(to)
    ensures ValidateMove(s, from, to) == Failure(NoPieceAtSource) <==> At(s.board, from).None?
    ensures ValidateMove(s, from, to) == Failure(NotYourPiece) <==>
              At(s.board, from).Some? && At(s.board, from).value.color != s.toMove
    ensures ValidateMove(s, from, to) == Success(Ordinary) <==>
              At(s.board, from).Some? && At(s.board, from).value.color == s.toMove &&
              to in LegalMoves(s.board, At(s.board, from).value, from)
    ensures ValidateMove(s, from, to) == Success(Castling) <==>
              At(s.board, from).Some? && At(s.board, from).value.color == s.toMove &&
              to !in LegalMoves(s.board, At(s.board, from).value, from) &&
              At(s.board, from).value.kind == King(false) && CanCastle(s.board, from, to)
    ensures ValidateMove(s, from, to) == Failure(IllegalMove) <==>
              At(s.board, from).Some? && At(s.board, from).value.color == s.toMove &&
              to !in LegalMoves(s.board, At(s.board, from).value, from) &&
              !(At(s.board, from).value.kind == King(false) && CanCastle(s.board, from, to))
    ensures ValidateMove(s, from, to) == Success(Ordinary) ==>
              var p := At(s.board, from).value;
              && to in ToA(PossibleMoves(p, from))
              && (!(p.kind.Pawn? && to in EnPassantMoves(s.board, p, from)) ==>
                    At(s.board, to).None? || At(s.board, to).value.color != s.toMove)
    ensures ValidateMove(s, from, to) == Success(Castling) ==>
              var p := At(s.board, from).value;
              && p.kind == King(false) && to !in LegalMoves(s.board, p, from)
              && to.row == from.row && (to.col == from.col - 2 || to.col == from.col + 2)
              && RookAt(s.board, Loc(from.row, if to.col < from.col then 0 else 7))
              && 0 < to.col < 7
  {
    if ValidateMove(s, from, to) == Success(Ordinary) {
      LegalMovesWithinReach(s.board, At(s.board, from).value, from, to);
    }
    if ValidateMove(s, from, to) == Success(Castling) {
      CanCastleSpec(s.board, from, to);
      if to.col < from.col {
        assert BlankBetween(s.board, from.row, 1, 3);
        assert !(1 <= from.col <= 3);
      } else {
        assert BlankBetween(s.board, from.row, 5, 6);
        assert !(5 <= from.col <= 6);
      }
    }
  }

  // ------------------------------------------------------------ make_move

  /** What `.move(to)` leaves on a square: the moved piece, or a blank where there was none. */
  function MoveSquare(sq: Square, to: Loc): (r: Square)
    ensures r.None? <==> sq.None?
  {
    match sq
    case Some(q) => Some(MovePiece(q, to))
    case None => None
  }

  /**
   * The rook's half of a castle. Toward column 0 the rook in column 0 lands
   * right of the king's new square; otherwise the rook in column 7 lands
   * left of it, where a king that landed on column 0 makes Ruby's index -1
   * name column 7.
   */
  function CastleRook(b: Board, from: Loc, to: Loc): Board
    requires OnBoard(from) && OnBoard(to)
  {
    var row := to.row;
    if to.col == from.col - 2 then
      Place(Place(b, Loc(row, to.col + 1), MoveSquare(At(b, Loc(row, 0)), Loc(row, to.col + 1))), Loc(row, 0), None)
    else
      var col := if to.col == 0 then 7 else to.col - 1;
      Place(Place(b, Loc(row, col), MoveSquare(At(b, Loc(row, 7)), Loc(row, to.col - 1))), Loc(row, 7), None)
  }

  /** The pawn at `from` takes en passant by moving to `to`. */
  predicate TakesEnPassant(b: Board, p: Piece, from: Loc, to: Loc)
  {
    p.kind.Pawn? && to in EnPassantMoves(b, p, from)
  }

  /**
   * The part of `make_move` after validation and before the check test:
   * the en passant victim is removed, the piece lands on `to` (promoted if
   * a pawn reaches the far row) and `from` is blanked; a king updates the
   * cache and, when the castle flag is up, lowers it and brings its rook
   * across. A non-king leaves the castle flag as it was.
   */
  function Commit(s: GameState, from: Loc, to: Loc, castle: bool, promo: Promotion): GameState
    requires OnBoard(from) && OnBoard(to) && At(s.board, from).Some?
  {
    var p := At(s.board, from).value;
    var b1 := if TakesEnPassant(s.board, p, from, to) then Place(s.board, Loc(from.row, to.col), None) else s.board;
    var b2 := Place(Place(b1, to, Some(MovePiece(p, to, promo))), from, None);
    if p.kind.King? then
      var b3 := if castle then CastleRook(b2, from, to) else b2;
      WithKingLoc(s.(board := b3, castle := false), s.toMove, to)
    else s.(board := b2, castle := castle)
  }

  /**
   * What the rollback writes back on `from`: the piece itself, its counter
   * or king flag restored; only a pawn standing on its promotion row would
   * come back as the promoted piece, since `move(from)` promotes it there.
   */
  function RestoredPiece(p: Piece, from: Loc, promo: Promotion): (r: Piece)
    ensures r.color == p.color
    ensures !(p.kind.Pawn? && from.row == BackRow(p.color)) ==> r == p
  {
    if p.kind.Pawn? && from.row == BackRow(p.color) then MovePiece(p, from, promo) else p
  }

  /** The rollback of a rejected move: `from` and `to` are written back and nothing else. */
  function Rollback(s: GameState, from: Loc, to: Loc, p: Piece, other: Square, promo: Promotion): GameState
    requires OnBoard(from) && OnBoard(to)
  {
    s.(board := Place(Place(s.board, from, Some(RestoredPiece(p, from, promo))), to, other))
  }

  /** The result of `make_move`: the new state, or the error raised with the state left behind. */
  datatype MoveOutcome = Moved(state: GameState) | Rejected(error: MoveError, state: GameState)

  /**
   * `make_move`: validate; commit the move; record whether anything gives
   * check; reject the move, rolling back only `from` and `to`, when the
   * check comes from an opponent's piece or a king; otherwise pass the turn.
   */
  function MakeMove(s: GameState, from: Loc, to: Loc, promo: Promotion := ToQueen): (r: MoveOutcome)
    requires OnBoard(from) && OnBoard(to)
  {
    match ValidateMove(s, from, to)
    case Failure(e) => Rejected(e, s)
    case Success(kind) =>
      var p := At(s.board, from).value;
      var s1 := Commit(s, from, to, s.castle || kind == Castling, promo);
      var attacker := CheckCheck(s1);
      var s2 := s1.(inCheck := attacker.Some?);
      if SelfCheck(attacker, s.toMove) then Rejected(LeavesKingInCheck, Rollback(s2, from, to, p, At(s.board, to), promo))
      else Moved(ChangeTurn(s2))
  }

  /** A move that fails validation is refused with that error and changes nothing. */
  lemma MakeMoveInvalid(s: GameState, from: Loc, to: Loc, promo: Promotion)
    requires OnBoard(from) && OnBoard(to)
    requires ValidateMove(s, from, to).Failure?
    ensures MakeMove(s, from, to, promo) == Rejected(ValidateMove(s, from, to).error, s)
    ensures ValidateMove(s, from, to).error != LeavesKingInCheck
  {
  }

  /**
   * A move goes through exactly when it validates and the position after it
   * does not fail the self-check test; otherwise the error is the
   * validation error or, for a validated move, `LeavesKingInCheck`.
   */
  lemma MakeMoveOutcome(s: GameState, from: Loc, to: Loc, promo: Promotion)
    requires OnBoard(from) && OnBoard(to)
    ensures MakeMove(s, from, to, promo).Moved? <==>
              ValidateMove(s, from, to).Success? &&
              !SelfCheck(CheckCheck(Commit(s, from, to, s.castle || ValidateMove(s, from, to).value == Castling, promo)), s.toMove)
    ensures MakeMove(s, from, to, promo).Rejected? && ValidateMove(s, from, to).Success? ==>
              MakeMove(s, from, to, promo).error == LeavesKingInCheck
  {
  }

  /** The en passant victim's square: beside `from`, in the column of `to`. */
  function VictimSquare(from: Loc, to: Loc): Loc
  {
    Loc(from.row, to.col)
  }

  /**
   * An ordinary commit: `from` is blanked, `to` holds the moved piece, an en
   * passant victim is removed, every other square is untouched; a king's
   * cache follows it and the other king's stays; the castle flag is lowered
   * by a king and kept by any other piece.
   */
  lemma CommitOrdinary(s: GameState, from: Loc, to: Loc, castle: bool, promo: Promotion)
    requires OnBoard(from) && OnBoard(to) && from != to && At(s.board, from).Some?
    requires !(At(s.board, from).value.kind.King? && castle)
    ensures var p := At(s.board, from).value;
            var r := Commit(s, from, to, castle, promo);
            var ep := TakesEnPassant(s.board, p, from, to);
            && At(r.board, from) == None
            && At(r.board, to) == Some(MovePiece(p, to, promo))
            && (ep ==> OnBoard(VictimSquare(from, to)) && At(r.board, VictimSquare(from, to)) == None)
            && (forall m :: OnBoard(m) && m != from && m != to && !(ep && m == VictimSquare(from, to)) ==>
                  At(r.board, m) == At(s.board, m))
            && r.toMove == s.toMove && r.inCheck == s.inCheck
            && r.castle == (castle && !p.kind.King?)
            && KingLoc(r, s.toMove) == (if p.kind.King? then to else KingLoc(s, s.toMove))
            && KingLoc(r, Opponent(s.toMove)) == KingLoc(s, Opponent(s.toMove))
  {
    var p := At(s.board, from).value;
    if TakesEnPassant(s.board, p, from, to) {
      EnPassantMovesSpec(s.board, p, from, to);
    }
  }

  /**
   * A validated castle: the king lands two columns along, the rook from
   * that side's corner lands on the square the king crossed, the corner is
   * blanked, and every square off those four is untouched.
   */
  lemma CommitCastle(s: GameState, from: Loc, to: Loc, promo: Promotion)
    requires OnBoard(from) && OnBoard(to)
    requires ValidateMove(s, from, to) == Success(Castling)
    ensures var r := Commit(s, from, to, true, promo);
            var row := from.row;
            var corner := Loc(row, if to.col < from.col then 0 else 7);
            var crossed := Loc(row, (from.col + to.col) / 2);
            && At(r.board, from) == None
            && At(r.board, to) == Some(Piece(King(true), s.toMove))
            && At(r.board, crossed) == At(s.board, corner) && At(s.board, corner).value.kind.Rook?
            && At(r.board, corner) == None
            && (forall m :: OnBoard(m) && m != from && m != to && m != crossed && m != corner ==>
                  At(r.board, m) == At(s.board, m))
            && !r.castle && KingLoc(r, s.toMove) == to
            && KingLoc(r, Opponent(s.toMove)) == KingLoc(s, Opponent(s.toMove))
  {
    ValidateMoveSound(s, from, to);
    var p := At(s.board, from).value;
    assert !TakesEnPassant(s.board, p, from, to);
    CastleBoard(s.board, from, to, MovePiece(p, to, promo));
  }

  /** The board half of a castle, for a king going two columns toward a corner rook. */
  lemma CastleBoard(b: Board, from: Loc, to: Loc, king: Piece)
    requires OnBoard(from) && OnBoard(to) && to.row == from.row && 0 < to.col < 7
    requires to.col == from.col - 2 || to.col == from.col + 2
    requires var corner := Loc(from.row, if to.col < from.col then 0 else 7);
             At(b, corner).Some? && At(b, corner).value.kind.Rook?
    ensures var r := CastleRook(Place(Place(b, to, Some(king)), from, None), from, to);
            var row := from.row;
            var corner := Loc(row, if to.col < from.col then 0 else 7);
            var crossed := Loc(row, (from.col + to.col) / 2);
            && At(r, from) == None
            && At(r, to) == Some(king)
            && At(r, crossed) == At(b, corner)
            && At(r, corner) == None
            && (forall m :: OnBoard(m) && m != from && m != to && m != crossed && m != corner ==> At(r, m) == At(b, m))
  {
    var row := from.row;
    var corner := Loc(row, if to.col < from.col then 0 else 7);
    var crossed := Loc(row, (from.col + to.col) / 2);
    var b2 := Place(Place(b, to, Some(king)), from, None);
    assert corner != from && corner != to && crossed != from && crossed != to && crossed != corner;
    assert At(b2, corner) == At(b, corner);
    if to.col == from.col - 2 {
      assert crossed == Loc(row, to.col + 1);
    } else {
      assert crossed == Loc(row, to.col - 1);
    }
  }

  /**
   * A move that goes through passes the turn, leaves the board, king cache
   * and castle flag as the commit made them, records in the check flag
   * whether anything now gives check, and never leaves the mover facing the
   * self-check test.
   */
  lemma MakeMoveCommitted(s: GameState, from: Loc, to: Loc, promo: Promotion)
    requires OnBoard(from) && OnBoard(to)
    requires MakeMove(s, from, to, promo).Moved?
    ensures ValidateMove(s, from, to).Success?
    ensures var r := MakeMove(s, from, to, promo).state;
            var c := Commit(s, from, to, s.castle || ValidateMove(s, from, to).value == Castling, promo);
            && r.toMove == Opponent(s.toMove)
            && r.board == c.board && r.whiteKing == c.whiteKing && r.blackKing == c.blackKing && r.castle == c.castle
            && (r.inCheck <==> CheckCheck(r).Some?)
            && !SelfCheck(CheckCheck(r), s.toMove)
  {
  }

  /**
   * A validated move that fails the self-check test keeps the turn and the
   * position the commit made, except that `from` gets its piece back and
   * `to` its old contents; the king cache, the castle flag and the check
   * flag stay as the commit and the check left them.
   */
  lemma MakeMoveRolledBack(s: GameState, from: Loc, to: Loc, promo: Promotion)
    requires OnBoard(from) && OnBoard(to) && from != to
    requires ValidateMove(s, from, to).Success? && MakeMove(s, from, to, promo).Rejected?
    ensures var r := MakeMove(s, from, to, promo);
            var p := At(s.board, from).value;
            var c := Commit(s, from, to, s.castle || ValidateMove(s, from, to).value == Castling, promo);
            && r.error == LeavesKingInCheck
            && r.state.toMove == s.toMove && r.state.inCheck
            && At(r.state.board, from) == Some(RestoredPiece(p, from, promo))
            && At(r.state.board, to) == At(s.board, to)
            && (forall m :: OnBoard(m) && m != from && m != to ==> At(r.state.board, m) == At(c.board, m))
            && r.state.whiteKing == c.whiteKing && r.state.blackKing == c.blackKing && r.state.castle == c.castle
  {
  }

  /**
   * For an ordinary move of a piece other than a king, with no castle flag
   * raised and no en passant, a rejection restores the state completely,
   * save for the check flag, which is raised.
   */
  lemma RejectedOrdinaryRestores(s: GameState, from: Loc, to: Loc, promo: Promotion)
    requires OnBoard(from) && OnBoard(to) && from != to && !s.castle
    requires ValidateMove(s, from, to) == Success(Ordinary) && MakeMove(s, from, to, promo).Rejected?
    requires var p := At(s.board, from).value;
             !p.kind.King? && !TakesEnPassant(s.board, p, from, to) && !(p.kind.Pawn? && from.row == BackRow(p.color))
    ensures MakeMove(s, from, to, promo).state == s.(inCheck := true)
  {
    var p := At(s.board, from).value;
    var r := MakeMove(s, from, to, promo).state;
    var c := Commit(s, from, to, false, promo);
    assert (s.castle || ValidateMove(s, from, to).value == Castling) == false;
    MakeMoveRolledBack(s, from, to, promo);
    CommitOrdinary(s, from, to, false, promo);
    assert RestoredPiece(p, from, promo) == p;
    forall m | OnBoard(m)
      ensures At(r.board, m) == At(s.board, m)
    {
      if m != from && m != to {
        assert At(r.board, m) == At(c.board, m);
      }
    }
    BoardsEqual(r.board, s.board);
    assert r.whiteKing == s.whiteKing && r.blackKing == s.blackKing && r.castle == s.castle;
  }

  /** A rejected king move leaves the king cache on the target square. */
  lemma RejectedKingMoveKeepsCache(s: GameState, from: Loc, to: Loc, promo: Promotion)
    requires OnBoard(from) && OnBoard(to) && from != to && !s.castle
    requires ValidateMove(s, from, to) == Success(Ordinary) && MakeMove(s, from, to, promo).Rejected?
    requires At(s.board, from).value.kind.King?
    ensures KingLoc(MakeMove(s, from, to, promo).state, s.toMove) == to
  {
    MakeMoveRolledBack(s, from, to, promo);
    CommitOrdinary(s, from, to, false, promo);
  }

  /** A rejected en passant capture does not bring the captured pawn back. */
  lemma RejectedEnPassantLosesVictim(s: GameState, from: Loc, to: Loc, promo: Promotion)
    requires OnBoard(from) && OnBoard(to) && from != to
    requires ValidateMove(s, from, to) == Success(Ordinary) && MakeMove(s, from, to, promo).Rejected?
    requires TakesEnPassant(s.board, At(s.board, from).value, from, to)
    ensures OnBoard(VictimSquare(from, to))
    ensures At(s.board, VictimSquare(from, to)).Some?
    ensures At(MakeMove(s, from, to, promo).state.board, VictimSquare(from, to)) == None
  {
    var p := At(s.board, from).value;
    EnPassantMovesSpec(s.board, p, from, to);
    MakeMoveRolledBack(s, from, to, promo);
    CommitOrdinary(s, from, to, s.castle, promo);
  }

  // --------------------------------------------------------- forecasting

  /**
   * `forecast_move`: validate, play the bare move (no en passant removal,
   * no rook) with the king cache following a king, ask `check_check`, and
   * undo it all; the move survives unless the self-check test fails.
   */
  function ForecastMove(s: GameState, from: Loc, to: Loc, promo: Promotion := ToQueen): (r: Result<Loc, MoveError>)
    requires OnBoard(from) && OnBoard(to)
    ensures r.Success? ==> r.value == to && ValidateMove(s, from, to).Success?
    ensures ValidateMove(s, from, to).Failure? ==> r == Failure(ValidateMove(s, from, to).error)
  {
    match ValidateMove(s, from, to)
    case Failure(e) => Failure(e)
    case Success(_) =>
      if SelfCheck(CheckCheck(ForecastState(s, from, to, promo)), s.toMove) then Failure(LeavesKingInCheck) else Success(to)
  }

  /**
   * The position the forecast tests: the piece moved and a king's cache
   * updated, with no en passant removal, no rook move and the castle flag
   * untouched.
   */
  function ForecastState(s: GameState, from: Loc, to: Loc, promo: Promotion): GameState
    requires OnBoard(from) && OnBoard(to) && At(s.board, from).Some?
  {
    var p := At(s.board, from).value;
    var b1 := Place(Place(s.board, to, Some(MovePiece(p, to, promo))), from, None);
    if p.kind.King? then WithKingLoc(s.(board := b1), s.toMove, to) else s.(board := b1)
  }

  /** Without a castle flag or an en passant capture, the commit is the forecast's position. */
  lemma CommitIsForecastState(s: GameState, from: Loc, to: Loc, promo: Promotion)
    requires OnBoard(from) && OnBoard(to) && At(s.board, from).Some? && !s.castle
    requires !TakesEnPassant(s.board, At(s.board, from).value, from, to)
    ensures Commit(s, from, to, false, promo) == ForecastState(s, from, to, promo)
  {
  }

  /**
   * The forecast agrees with `make_move` on every ordinary move that raises
   * no castle flag and takes nothing en passant: the forecast survives
   * exactly when the move would go through.
   */
  lemma ForecastAgreesWithMakeMove(s: GameState, from: Loc, to: Loc, promo: Promotion)
    requires OnBoard(from) && OnBoard(to) && !s.castle
    requires ValidateMove(s, from, to) == Success(Ordinary)
    requires !TakesEnPassant(s.board, At(s.board, from).value, from, to)
    ensures ForecastMove(s, from, to, promo).Success? <==> MakeMove(s, from, to, promo).Moved?
  {
    CommitIsForecastState(s, from, to, promo);
    MakeMoveOutcome(s, from, to, promo);
  }

  /** The move from `from` to `to` survives a forecast. */
  predicate Survives(s: GameState, from: Loc, to: Loc, promo: Promotion)
  {
    OnBoard(from) && OnBoard(to) && ForecastMove(s, from, to, promo).Success?
  }

  /** The moves of `ms`, in order, that survive a forecast from `from`. */
  function SurvivingMoves(s: GameState, from: Loc, ms: seq<Loc>, promo: Promotion): (r: seq<Loc>)
    ensures forall m :: m in r <==> m in ms && Survives(s, from, m, promo)
    ensures Subsequence(r, ms)
  {
    if ms == [] then []
    else
      var rest := SurvivingMoves(s, from, ms[1..], promo);
      assert forall m :: m in ms <==> m == ms[0] || m in ms[1..];
      if Survives(s, from, ms[0], promo) then [ms[0]] + rest else rest
  }

  /** The surviving legal moves of the listed piece `e`. */
  function PieceMoves(s: GameState, e: (Loc, Piece), promo: Promotion): (r: seq<Loc>)
    ensures forall m :: m in r <==> OnBoard(e.0) && m in LegalMoves(s.board, e.1, e.0) && Survives(s, e.0, m, promo)
  {
    if OnBoard(e.0) then SurvivingMoves(s, e.0, LegalMoves(s.board, e.1, e.0), promo) else []
  }

  /**
   * `available_moves`: each piece of the side to move with its surviving
   * legal moves, pieces with none dropped; nothing at all when no row is left.
   */
  function AvailableMoves(s: GameState, promo: Promotion := ToQueen): Option<seq<(Loc, seq<Loc>)>>
  {
    var t := Tabulate(PiecesByColor(s.board, s.toMove), e => PieceMoves(s, e, promo));
    if t == [] then None else Some(t)
  }

  /** The piece of the side to move standing on `l` has `m` as a legal move that survives a forecast. */
  ghost predicate Movable(s: GameState, l: Loc, m: Loc, promo: Promotion)
  {
    OnBoard(l) && At(s.board, l).Some? && At(s.board, l).value.color == s.toMove &&
    m in LegalMoves(s.board, At(s.board, l).value, l) && Survives(s, l, m, promo)
  }

  /** Some piece of the side to move has a legal move that survives a forecast. */
  ghost predicate CanMove(s: GameState, promo: Promotion)
  {
    exists l, m :: Movable(s, l, m, promo)
  }

  /**
   * A row of the move table: a piece of the side to move, on the board, with
   * a non-empty list of legal moves that all survive a forecast.
   */
  predicate MoveRow(s: GameState, e: (Loc, seq<Loc>), promo: Promotion)
  {
    OnBoard(e.0) && At(s.board, e.0).Some? && At(s.board, e.0).value.color == s.toMove && e.1 != [] &&
    forall m :: m in e.1 ==> m in LegalMoves(s.board, At(s.board, e.0).value, e.0) && Survives(s, e.0, m, promo)
  }

  /**
   * `available_moves` is nil exactly when no piece of the side to move has
   * a legal move that survives a forecast; otherwise each row is a square
   * holding a piece of the side to move and that piece's surviving moves,
   * and every surviving move of every such piece is listed.
   */
  lemma AvailableMovesSpec(s: GameState, promo: Promotion)
    ensures AvailableMoves(s, promo).None? <==> !CanMove(s, promo)
    ensures AvailableMoves(s, promo).Some? ==>
              forall e :: e in AvailableMoves(s, promo).value ==> MoveRow(s, e, promo)
    ensures forall l, m :: Movable(s, l, m, promo) ==>
              AvailableMoves(s, promo).Some? && exists e :: e in AvailableMoves(s, promo).value && e.0 == l && m in e.1
  {
    AvailableMovesNone(s, promo);
    AvailableMovesRows(s, promo);
    AvailableMovesComplete(s, promo);
  }

  /** Every surviving move of a piece of the side to move appears in that piece's row. */
  lemma AvailableMovesComplete(s: GameState, promo: Promotion)
    ensures forall l, m :: Movable(s, l, m, promo) ==>
              AvailableMoves(s, promo).Some? && exists e :: e in AvailableMoves(s, promo).value && e.0 == l && m in e.1
  {
    var ps := PiecesByColor(s.board, s.toMove);
    var t := Tabulate(ps, e => PieceMoves(s, e, promo));
    forall l, m | Movable(s, l, m, promo)
      ensures AvailableMoves(s, promo).Some? && exists e :: e in AvailableMoves(s, promo).value && e.0 == l && m in e.1
    {
      var x := (l, At(s.board, l).value);
      assert x in ps by { PiecesByColorSpec(s.board, s.toMove); }
      assert m in PieceMoves(s, x, promo);
      assert (x.0, PieceMoves(s, x, promo)) in t;
    }
  }

  lemma AvailableMovesNone(s: GameState, promo: Promotion)
    ensures AvailableMoves(s, promo).None? <==> !CanMove(s, promo)
  {
    if CanMove(s, promo) {
      AvailableWhenMovable(s, promo);
    } else {
      NoneWhenImmovable(s, promo);
    }
  }

  lemma AvailableWhenMovable(s: GameState, promo: Promotion)
    requires CanMove(s, promo)
    ensures AvailableMoves(s, promo).Some?
  {
    var ps := PiecesByColor(s.board, s.toMove);
    var l, m :| Movable(s, l, m, promo);
    var e := (l, At(s.board, l).value);
    assert e in ps by { PiecesByColorSpec(s.board, s.toMove); }
    assert PieceMoves(s, e, promo) != [] by {
      assert m in PieceMoves(s, e, promo);
    }
    TabulateHasRow(ps, x => PieceMoves(s, x, promo), e);
  }

  /** A piece of the side to move has no surviving move when no piece has one. */
  lemma PieceMovesEmpty(s: GameState, e: (Loc, Piece), promo: Promotion)
    requires OnBoard(e.0) && At(s.board, e.0) == Some(e.1) && e.1.color == s.toMove
    requires !CanMove(s, promo)
    ensures PieceMoves(s, e, promo) == []
  {
    var ms := PieceMoves(s, e, promo);
    if ms != [] {
      var m := ms[0];
      assert m in ms;
      assert Movable(s, e.0, m, promo);
      assert false;
    }
  }

  lemma NoneWhenImmovable(s: GameState, promo: Promotion)
    requires !CanMove(s, promo)
    ensures AvailableMoves(s, promo).None?
  {
    var ps := PiecesByColor(s.board, s.toMove);
    PiecesByColorSpec(s.board, s.toMove);
    forall i | 0 <= i < |ps|
      ensures PieceMoves(s, ps[i], promo) == []
    {
      assert ps[i] in ps;
      PieceMovesEmpty(s, ps[i], promo);
    }
  }

  lemma AvailableMovesRows(s: GameState, promo: Promotion)
    ensures AvailableMoves(s, promo).Some? ==>
              forall e :: e in AvailableMoves(s, promo).value ==> MoveRow(s, e, promo)
  {
    var ps := PiecesByColor(s.board, s.toMove);
    PiecesByColorSpec(s.board, s.toMove);
    var t := Tabulate(ps, e => PieceMoves(s, e, promo));
    forall e | e in t
      ensures MoveRow(s, e, promo)
    {
      var x :| x in ps && e.0 == x.0 && e.1 == PieceMoves(s, x, promo);
    }
  }

  // ----------------------------------------------------------- game over

  datatype GameStatus = Checkmate | Stalemate | Continue

  /** `check_game_over`: no way out is mate under check and stalemate otherwise. */
  function CheckGameOver(s: GameState, promo: Promotion := ToQueen): GameStatus
  {
    var immovable := AvailableMoves(s, promo).None?;
    if s.inCheck && immovable then Checkmate
    else if !s.inCheck && immovable then Stalemate
    else Continue
  }

  /**
   * Checkmate exactly when the check flag is up and the side to move has no
   * surviving move, stalemate exactly when the flag is down and it has
   * none, and the game goes on exactly when it has one.
   */
  lemma CheckGameOverSpec(s: GameState, promo: Promotion)
    ensures CheckGameOver(s, promo) == Checkmate <==> s.inCheck && !CanMove(s, promo)
    ensures CheckGameOver(s, promo) == Stalemate <==> !s.inCheck && !CanMove(s, promo)
    ensures CheckGameOver(s, promo) == Continue <==> CanMove(s, promo)
  {
    AvailableMovesSpec(s, promo);
  }

  /**
   * `random_move` with the two random draws as parameters: a row of the
   * move table and one of its moves, each drawn index taken modulo the
   * length. Nothing is drawn when there is no move.
   */
  function RandomMove(s: GameState, promo: Promotion, i: nat, j: nat): (r: Option<(Loc, Loc)>)
  {
    match AvailableMoves(s, promo)
    case None => None
    case Some(t) =>
      var e := t[i % |t|];
      Some((e.0, e.1[j % |e.1|]))
  }

  /** The drawn move is a legal, surviving move of a piece of the side to move, and one is drawn whenever any exists. */
  lemma RandomMoveSpec(s: GameState, promo: Promotion, i: nat, j: nat)
    ensures RandomMove(s, promo, i, j).Some? <==> CanMove(s, promo)
    ensures RandomMove(s, promo, i, j).Some? ==>
              var (from, to) := RandomMove(s, promo, i, j).value;
              && OnBoard(from) && At(s.board, from).Some? && At(s.board, from).value.color == s.toMove
              && to in LegalMoves(s.board, At(s.board, from).value, from) && Survives(s, from, to, promo)
  {
    AvailableMovesSpec(s, promo);
    if AvailableMoves(s, promo).Some? {
      var t := AvailableMoves(s, promo).value;
      var e := t[i % |t|];
      assert e in t;
      assert MoveRow(s, e, promo);
      var m := e.1[j % |e.1|];
      assert m in e.1;
      assert RandomMove(s, promo, i, j).value == (e.0, m);
    }
  }
}

=== FILE: legality.dfy ===
/**
 * Occupancy-aware moves of lib/chess_game.rb: `legal_moves` walks a piece's
 * possible-squares tree breadth first and stops each branch at the first
 * occupied square, `pawn_legal_moves` trims the pawn's tree by the pawn
 * rules, and `get_en_passant_moves` adds the en passant squares.
 */
module Legality {
  import opened Util
  import opened MoveTreeNodes
  import opened MoveTrees
  import opened Pieces
  import opened Templates
  import opened Movement
  import opened Boards

  /** The square is on the board and holds a piece `p` standing at `at` can capture. */
  predicate Capturable(b: Board, p: Piece, at: Loc, l: Loc)
  {
    OnBoard(l) && At(b, l).Some? && CanCapture(p, at, At(b, l).value, l)
  }

  /** The square is on the board and holds a piece. */
  predicate Blocked(b: Board, l: Loc)
  {
    OnBoard(l) && At(b, l).Some?
  }

  lemma ForestOnBoardParts(q: seq<Node>)
    requires ForestOnBoard(q) && q != []
    ensures OnBoard(q[0].loc) && ForestOnBoard(q[0].children)
    ensures ForestOnBoard(q[1..]) && ForestOnBoard(q[1..] + q[0].children)
  {
    assert forall i :: 0 <= i < |q[1..]| ==> q[1..][i] == q[i + 1];
    var r := q[1..] + q[0].children;
    forall i | 0 <= i < |r|
      ensures OnBoard(r[i].loc) && ForestOnBoard(r[i].children)
    {
      if i < |q| - 1 {
        assert r[i] == q[i + 1];
      } else {
        assert r[i] == q[0].children[i - (|q| - 1)];
      }
    }
  }

  lemma ForestOnBoardAppend(a: seq<Node>, c: seq<Node>)
    requires ForestOnBoard(a) && ForestOnBoard(c)
    ensures ForestOnBoard(a + c)
  {
    var r := a + c;
    forall i | 0 <= i < |r|
      ensures OnBoard(r[i].loc) && ForestOnBoard(r[i].children)
    {
      if i < |a| {
        assert r[i] == a[i];
      } else {
        assert r[i] == c[i - |a|];
      }
    }
  }

  // ------------------------------------------------ legal_moves (non-pawn)

  /**
   * The queue walk of `legal_moves`: a blank square is kept and its children
   * are enqueued; an occupied square is kept only when capturable and its
   * children are never enqueued.
   */
  function FilterBfs(b: Board, p: Piece, at: Loc, q: seq<Node>): seq<Loc>
    requires ForestOnBoard(q)
    decreases SizeOf(q)
  {
    if q == [] then []
    else
      var n := q[0];
      ForestOnBoardParts(q);
      SizeOfDrain(q);
      match At(b, n.loc)
      case None => [n.loc] + FilterBfs(b, p, at, q[1..] + n.children)
      case Some(other) =>
        if CanCapture(p, at, other, n.loc) then [n.loc] + FilterBfs(b, p, at, q[1..])
        else FilterBfs(b, p, at, q[1..])
  }

  /** `legal_moves` for every kind but the pawn: the walk seeded with the root's children. */
  function SlidingMoves(b: Board, p: Piece, at: Loc): seq<Loc>
    requires OnBoard(at)
  {
    FilterBfs(b, p, at, PossibleMoves(p, at).root.children)
  }

  /**
   * `legal_moves` as the Ruby loop runs it: shift the head of the queue,
   * skip it when it holds a piece that cannot be captured, enqueue its
   * children when it is blank, and append its location otherwise.
   */
  method LegalMovesLoop(b: Board, p: Piece, at: Loc) returns (moves: seq<Loc>)
    requires OnBoard(at) && !p.kind.Pawn?
    ensures moves == SlidingMoves(b, p, at)
  {
    var tree := PossibleMoves(p, at);
    var queue := tree.root.children;
    moves := [];
    while queue != []
      invariant ForestOnBoard(queue)
      invariant moves + FilterBfs(b, p, at, queue) == FilterBfs(b, p, at, tree.root.children)
      decreases SizeOf(queue)
    {
      var current := queue[0];
      ForestOnBoardParts(queue);
      SizeOfDrain(queue);
      var rest := queue[1..];
      queue := rest;
      var space := At(b, current.loc);
      if space.Some? {
        if !CanCapture(p, at, space.value, current.loc) {
          continue;
        }
      } else {
        queue := queue + current.children;
      }
      assert FilterBfs(b, p, at, [current] + rest) == [current.loc] + FilterBfs(b, p, at, queue);
      moves := moves + [current.loc];
    }
  }

  /**
   * The depth-first reference: a node contributes its square if blank,
   * followed by whatever its subtrees contribute; its square alone if
   * capturable; nothing otherwise.
   */
  function FilterPre(b: Board, p: Piece, at: Loc, n: Node): seq<Loc>
    requires OnBoard(n.loc) && ForestOnBoard(n.children)
  {
    match At(b, n.loc)
    case None => [n.loc] + FilterPreOf(b, p, at, n.children)
    case Some(other) => if CanCapture(p, at, other, n.loc) then [n.loc] else []
  }

  function FilterPreOf(b: Board, p: Piece, at: Loc, ns: seq<Node>): seq<Loc>
    requires ForestOnBoard(ns)
  {
    if ns == [] then []
    else
      ForestOnBoardParts(ns);
      FilterPre(b, p, at, ns[0]) + FilterPreOf(b, p, at, ns[1..])
  }

  lemma {:induction false} FilterPreOfAppend(b: Board, p: Piece, at: Loc, x: seq<Node>, y: seq<Node>)
    requires ForestOnBoard(x) && ForestOnBoard(y)
    ensures ForestOnBoard(x + y)
    ensures FilterPreOf(b, p, at, x + y) == FilterPreOf(b, p, at, x) + FilterPreOf(b, p, at, y)
  {
    ForestOnBoardAppend(x, y);
    if x == [] {
      assert x + y == y;
    } else {
      ForestOnBoardParts(x);
      assert (x + y)[0] == x[0];
      assert (x + y)[1..] == x[1..] + y;
      FilterPreOfAppend(b, p, at, x[1..], y);
    }
  }

  /** One step of both walks at a blank square. */
  lemma FilterBlankStep(b: Board, p: Piece, at: Loc, q: seq<Node>)
    requires ForestOnBoard(q) && q != [] && OnBoard(q[0].loc) && At(b, q[0].loc).None?
    ensures ForestOnBoard(q[1..]) && ForestOnBoard(q[0].children) && ForestOnBoard(q[1..] + q[0].children)
    ensures FilterBfs(b, p, at, q) == [q[0].loc] + FilterBfs(b, p, at, q[1..] + q[0].children)
    ensures FilterPreOf(b, p, at, q) == [q[0].loc] + FilterPreOf(b, p, at, q[0].children) + FilterPreOf(b, p, at, q[1..])
  {
    ForestOnBoardParts(q);
  }

  /** One step of both walks at an occupied square. */
  lemma FilterOccupiedStep(b: Board, p: Piece, at: Loc, q: seq<Node>)
    requires ForestOnBoard(q) && q != [] && OnBoard(q[0].loc) && At(b, q[0].loc).Some?
    ensures ForestOnBoard(q[1..])
    ensures var keep := if CanCapture(p, at, At(b, q[0].loc).value, q[0].loc) then [q[0].loc] else [];
            && FilterBfs(b, p, at, q) == keep + FilterBfs(b, p, at, q[1..])
            && FilterPreOf(b, p, at, q) == keep + FilterPreOf(b, p, at, q[1..])
  {
    ForestOnBoardParts(q);
  }

  /** The queue walk keeps the same squares, each as often, as the depth-first reference. */
  lemma {:induction false} FilterBfsIsFilterPre(b: Board, p: Piece, at: Loc, q: seq<Node>)
    requires ForestOnBoard(q)
    ensures multiset(FilterBfs(b, p, at, q)) == multiset(FilterPreOf(b, p, at, q))
    decreases SizeOf(q)
  {
    if q != [] {
      var n := q[0];
      ForestOnBoardParts(q);
      SizeOfDrain(q);
      if At(b, n.loc).None? {
        FilterBlankStep(b, p, at, q);
        FilterBfsIsFilterPre(b, p, at, q[1..] + n.children);
        FilterPreOfAppend(b, p, at, q[1..], n.children);
      } else {
        FilterOccupiedStep(b, p, at, q);
        FilterBfsIsFilterPre(b, p, at, q[1..]);
      }
    }
  }

  /** The locations of a node list contain `l` exactly when some node stands on `l`. */
  lemma InLocs(ns: seq<Node>, l: Loc)
    ensures l in Locs(ns) <==> exists n :: n in ns && n.loc == l
  {
    if l in Locs(ns) {
      var i :| 0 <= i < |ns| && Locs(ns)[i] == l;
      assert ns[i] in ns;
    }
    if exists n :: n in ns && n.loc == l {
      var n :| n in ns && n.loc == l;
      var i :| 0 <= i < |ns| && ns[i] == n;
      assert Locs(ns)[i] == l;
    }
  }

  /**
   * Everything the depth-first reference keeps is a square of the forest
   * that is blank or holds a capturable piece.
   */
  lemma {:induction false} FilterPreOfSound(b: Board, p: Piece, at: Loc, ns: seq<Node>, l: Loc)
    requires ForestOnBoard(ns)
    requires l in FilterPreOf(b, p, at, ns)
    ensures OnBoard(l) && (At(b, l).None? || CanCapture(p, at, At(b, l).value, l))
    ensures l in Locs(PreorderOf(ns))
  {
    ForestOnBoardParts(ns);
    var n := ns[0];
    assert PreorderOf(ns) == Preorder(n) + PreorderOf(ns[1..]);
    assert Preorder(n) == [n] + PreorderOf(n.children);
    LocsAppend(Preorder(n), PreorderOf(ns[1..]));
    LocsAppend([n], PreorderOf(n.children));
    assert FilterPreOf(b, p, at, ns) == FilterPre(b, p, at, n) + FilterPreOf(b, p, at, ns[1..]);
    if l in FilterPre(b, p, at, n) {
      if l != n.loc {
        assert l in FilterPreOf(b, p, at, n.children);
        FilterPreOfSound(b, p, at, n.children, l);
      }
      assert Locs(Preorder(n))[0] == n.loc;
      assert l in Locs(Preorder(n));
    } else {
      FilterPreOfSound(b, p, at, ns[1..], l);
    }
  }

  /**
   * `legal_moves` of a non-pawn keeps only squares of its possible-squares
   * tree, and each of them is blank or holds a piece it can capture.
   */
  lemma SlidingMovesSound(b: Board, p: Piece, at: Loc, l: Loc)
    requires OnBoard(at)
    requires l in SlidingMoves(b, p, at)
    ensures l in ToA(PossibleMoves(p, at))
    ensures At(b, l).None? || CanCapture(p, at, At(b, l).value, l)
  {
    var cs := PossibleMoves(p, at).root.children;
    FilterBfsIsFilterPre(b, p, at, cs);
    assert l in multiset(FilterPreOf(b, p, at, cs));
    FilterPreOfSound(b, p, at, cs, l);
    InLocs(PreorderOf(cs), l);
    var n :| n in PreorderOf(cs) && n.loc == l;
    BfsVisitsEachNodeOnce(cs);
    assert n in multiset(Bfs(cs));
    BfsIsLevelOrder(cs);
    InLocs(LevelOrder(cs), l);
  }

  // ------------------------------------------------------------------- rays

  /**
   * One ray walked against the board: blank squares are kept and the ray
   * goes on, a capturable occupant is kept and ends it, any other occupant
   * ends it unkept.
   */
  function RayWalk(b: Board, p: Piece, at: Loc, ls: seq<Loc>): (r: seq<Loc>)
    requires forall i :: 0 <= i < |ls| ==> OnBoard(ls[i])
  {
    if ls == [] then []
    else match At(b, ls[0])
      case None => [ls[0]] + RayWalk(b, p, at, ls[1..])
      case Some(other) => if CanCapture(p, at, other, ls[0]) then [ls[0]] else []
  }

  /** The number of blank squares at the start of `ls`. */
  function BlankRun(b: Board, ls: seq<Loc>): (k: nat)
    requires forall i :: 0 <= i < |ls| ==> OnBoard(ls[i])
    ensures k <= |ls|
    ensures forall i :: 0 <= i < k ==> At(b, ls[i]).None?
    ensures k < |ls| ==> At(b, ls[k]).Some?
  {
    if ls == [] || At(b, ls[0]).Some? then 0 else 1 + BlankRun(b, ls[1..])
  }

  /**
   * A walked ray is the blank prefix of the ray, followed by the first
   * occupied square exactly when that occupant can be captured.
   */
  lemma {:induction false} RayWalkShape(b: Board, p: Piece, at: Loc, ls: seq<Loc>)
    requires forall i :: 0 <= i < |ls| ==> OnBoard(ls[i])
    ensures var k := BlankRun(b, ls);
            RayWalk(b, p, at, ls) ==
              ls[..k] + (if k < |ls| && CanCapture(p, at, At(b, ls[k]).value, ls[k]) then [ls[k]] else [])
  {
    if ls != [] && At(b, ls[0]).None? {
      RayWalkShape(b, p, at, ls[1..]);
      var k := BlankRun(b, ls[1..]);
      assert [ls[0]] + ls[1..][..k] == ls[..k + 1];
      if k < |ls[1..]| {
        assert ls[1..][k] == ls[k + 1];
      }
    }
  }

  /** A chain of nodes filters to the walk of its ray. */
  lemma ChainFilter(b: Board, p: Piece, at: Loc, n: Node)
    requires IsChain(n) && OnBoard(n.loc) && ForestOnBoard(n.children)
    ensures forall i :: 0 <= i < |ChainLocs(n)| ==> OnBoard(ChainLocs(n)[i])
    ensures FilterPre(b, p, at, n) == RayWalk(b, p, at, ChainLocs(n))
    ensures FilterBfs(b, p, at, [n]) == RayWalk(b, p, at, ChainLocs(n))
  {
    ChainFilterPre(b, p, at, n);
    ChainFilterBfs(b, p, at, n);
  }

  lemma {:induction false} ChainOnBoard(n: Node)
    requires IsChain(n) && OnBoard(n.loc) && ForestOnBoard(n.children)
    ensures forall i :: 0 <= i < |ChainLocs(n)| ==> OnBoard(ChainLocs(n)[i])
    decreases n
  {
    if n.children != [] {
      var c := n.children[0];
      ForestOnBoardParts(n.children);
      ChainOnBoard(c);
      assert ChainLocs(n) == [n.loc] + ChainLocs(c);
    }
  }

  lemma {:induction false} ChainFilterPre(b: Board, p: Piece, at: Loc, n: Node)
    requires IsChain(n) && OnBoard(n.loc) && ForestOnBoard(n.children)
    ensures forall i :: 0 <= i < |ChainLocs(n)| ==> OnBoard(ChainLocs(n)[i])
    ensures FilterPre(b, p, at, n) == RayWalk(b, p, at, ChainLocs(n))
    decreases n
  {
    ChainOnBoard(n);
    var ls := ChainLocs(n);
    assert ls[0] == n.loc;
    if n.children == [] {
      assert ls == [n.loc];
      assert FilterPreOf(b, p, at, []) == [];
    } else {
      var c := n.children[0];
      ForestOnBoardParts(n.children);
      assert n.children == [c] && n.children[1..] == [];
      ChainFilterPre(b, p, at, c);
      assert ls[1..] == ChainLocs(c);
      if At(b, n.loc).None? {
        assert FilterPreOf(b, p, at, [c]) == FilterPre(b, p, at, c) + FilterPreOf(b, p, at, []);
      }
    }
  }

  lemma {:induction false} ChainFilterBfs(b: Board, p: Piece, at: Loc, n: Node)
    requires IsChain(n) && OnBoard(n.loc) && ForestOnBoard(n.children)
    ensures forall i :: 0 <= i < |ChainLocs(n)| ==> OnBoard(ChainLocs(n)[i])
    ensures FilterBfs(b, p, at, [n]) == RayWalk(b, p, at, ChainLocs(n))
    decreases n
  {
    ChainOnBoard(n);
    var ls := ChainLocs(n);
    assert ls[0] == n.loc;
    assert [n][1..] == [];
    assert [n][1..] + n.children == n.children;
    assert [n] != [] && [n][0] == n;
    if n.children == [] {
      assert ls == [n.loc];
      assert FilterBfs(b, p, at, []) == [];
    } else {
      var c := n.children[0];
      ForestOnBoardParts(n.children);
      assert n.children == [c];
      ChainFilterBfs(b, p, at, c);
      assert ls[1..] == ChainLocs(c);
    }
  }

  /**
   * One seven-square ray placed at `at` and cut to the board is walked as
   * the on-board part of the ray, nearest square first.
   */
  lemma RayFilter(b: Board, p: Piece, at: Loc, dir: Loc)
    requires OnBoard(at) && UnitDirection(dir) && dir != Origin
    ensures forall i :: 0 <= i < |MovesInBounds(RayFrom(at, dir, 7))| ==> OnBoard(MovesInBounds(RayFrom(at, dir, 7))[i])
    ensures FilterPreOf(b, p, at, PruneAll([RayNode(at, dir, 7)])) == RayWalk(b, p, at, MovesInBounds(RayFrom(at, dir, 7)))
  {
    RayNodeChain(at, dir, 7);
    RayClosed(at, at, dir, 7);
    PrunedChainFilter(b, p, at, RayNode(at, dir, 7));
  }

  /** A closed chain cut to the board is walked as the on-board part of its squares. */
  lemma PrunedChainFilter(b: Board, p: Piece, at: Loc, m: Node)
    requires IsChain(m) && Closed(m)
    ensures forall i :: 0 <= i < |MovesInBounds(ChainLocs(m))| ==> OnBoard(MovesInBounds(ChainLocs(m))[i])
    ensures FilterPreOf(b, p, at, PruneAll([m])) == RayWalk(b, p, at, MovesInBounds(ChainLocs(m)))
  {
    MovesInBoundsSpec(ChainLocs(m));
    PrunedChainLocs(m);
    if OnBoard(m.loc) {
      PruneChain(m);
      ChainFilter(b, p, at, Prune(m));
      assert FilterPreOf(b, p, at, [Prune(m)]) == FilterPre(b, p, at, Prune(m)) + FilterPreOf(b, p, at, []);
    }
  }

  /** Cutting a closed chain to the board keeps the on-board part of its squares. */
  lemma PrunedChainLocs(m: Node)
    requires IsChain(m) && Closed(m)
    ensures OnBoard(m.loc) ==> PruneAll([m]) == [Prune(m)]
    ensures !OnBoard(m.loc) ==> PruneAll([m]) == [] && MovesInBounds(ChainLocs(m)) == []
    ensures OnBoard(m.loc) ==> IsChain(Prune(m)) && ChainLocs(Prune(m)) == MovesInBounds(ChainLocs(m))
  {
    PruneLevelOrder([m]);
    ChainLevelOrder(m);
    if OnBoard(m.loc) {
      assert PruneAll([m]) == [Prune(m)] + PruneAll([m][1..]);
      PruneChain(m);
      ChainLevelOrder(Prune(m));
    } else {
      assert PruneAll([m]) == PruneAll([m][1..]) == [];
      assert LevelOrder([]) == [];
    }
  }

  /** Directions a slider may take: unit steps, never standing still. */
  predicate RayDirections(dirs: seq<Loc>)
  {
    forall i :: 0 <= i < |dirs| ==> UnitDirection(dirs[i]) && dirs[i] != Origin
  }

  /** Every ray walked in turn, in the order of `dirs`. */
  function RaysWalk(b: Board, p: Piece, at: Loc, dirs: seq<Loc>): seq<Loc>
    requires OnBoard(at) && RayDirections(dirs)
  {
    if dirs == [] then []
    else
      RayFilter(b, p, at, dirs[0]);
      RayWalk(b, p, at, MovesInBounds(RayFrom(at, dirs[0], 7))) + RaysWalk(b, p, at, dirs[1..])
  }

  /** The rays of a template placed at `at`. */
  function Rays(at: Loc, dirs: seq<Loc>): (r: seq<Node>)
    ensures |r| == |dirs| && forall i :: 0 <= i < |dirs| ==> r[i] == RayNode(at, dirs[i], 7)
  {
    seq(|dirs|, i requires 0 <= i < |dirs| => RayNode(at, dirs[i], 7))
  }

  lemma {:induction false} RaysFilterPre(b: Board, p: Piece, at: Loc, dirs: seq<Loc>)
    requires OnBoard(at) && RayDirections(dirs)
    ensures FilterPreOf(b, p, at, PruneAll(Rays(at, dirs))) == RaysWalk(b, p, at, dirs)
  {
    if dirs != [] {
      var rs := Rays(at, dirs);
      assert rs == [rs[0]] + Rays(at, dirs[1..]);
      PruneAllAppend([rs[0]], Rays(at, dirs[1..]));
      FilterPreOfAppend(b, p, at, PruneAll([rs[0]]), PruneAll(Rays(at, dirs[1..])));
      RayFilter(b, p, at, dirs[0]);
      RaysFilterPre(b, p, at, dirs[1..]);
    }
  }

  /**
   * A ray template placed at `at` is walked, as a multiset, as its rays one
   * after the other: each contributes its blank prefix and, when
   * capturable, the first occupied square.
   */
  lemma RayTemplateMoves(b: Board, p: Piece, at: Loc, dirs: seq<Loc>)
    requires OnBoard(at) && RayDirections(dirs)
    ensures multiset(FilterBfs(b, p, at, Possible(RayTemplate(dirs), at).root.children)) ==
            multiset(RaysWalk(b, p, at, dirs))
  {
    var t := RayTemplate(dirs);
    var tr := TranslateAll(t.root.children, at);
    forall i | 0 <= i < |dirs|
      ensures tr[i] == Rays(at, dirs)[i]
    {
      TranslateRay(Origin, dirs[i], 7, at);
      assert Shift(Origin, at) == at;
    }
    assert tr == Rays(at, dirs);
    assert Translate(t.root, at).children == tr;
    assert Possible(t, at).root.children == PruneAll(tr);
    FilterBfsIsFilterPre(b, p, at, PruneAll(tr));
    RaysFilterPre(b, p, at, dirs);
  }

  /** The ray directions of a rook, a bishop or a queen. */
  function SliderDirections(p: Piece): seq<Loc>
    requires p.kind.Rook? || p.kind.Bishop? || p.kind.Queen?
  {
    if p.kind.Rook? then RookDirections() else if p.kind.Bishop? then BishopDirections() else QueenDirections()
  }

  lemma SliderDirectionsAreRays(p: Piece)
    requires p.kind.Rook? || p.kind.Bishop? || p.kind.Queen?
    ensures RayDirections(SliderDirections(p))
  {
  }

  lemma SliderPossibleMoves(p: Piece, at: Loc)
    requires p.kind.Rook? || p.kind.Bishop? || p.kind.Queen?
    ensures PossibleMoves(p, at) == Possible(RayTemplate(SliderDirections(p)), at)
  {
  }

  /**
   * `legal_moves` of a rook, a bishop or a queen holds the squares of every
   * ray up to the first occupied one, plus that one when its occupant can
   * be captured; the breadth-first walk interleaves the rays, so the
   * comparison is as multisets.
   */
  lemma SliderLegalMoves(b: Board, p: Piece, at: Loc)
    requires OnBoard(at) && (p.kind.Rook? || p.kind.Bishop? || p.kind.Queen?)
    ensures RayDirections(SliderDirections(p))
    ensures multiset(SlidingMoves(b, p, at)) == multiset(RaysWalk(b, p, at, SliderDirections(p)))
  {
    SliderDirectionsAreRays(p);
    SliderPossibleMoves(p, at);
    RayTemplateMoves(b, p, at, SliderDirections(p));
  }


  /** Pruning a chain leaves a chain. */
  lemma {:induction false} PruneChain(n: Node)
    requires IsChain(n)
    ensures IsChain(Prune(n))
    decreases n
  {
    if n.children != [] {
      var c := n.children[0];
      assert n.children == [c];
      PruneChain(c);
      assert PruneAll([c]) == (if OnBoard(c.loc) then [Prune(c)] else []) + PruneAll([c][1..]);
    }
  }

  // ----------------------------------------------------- fans (king, knight)

  /** The squares of `ls` that are blank or hold a capturable piece, in order. */
  function KeepReachable(b: Board, p: Piece, at: Loc, ls: seq<Loc>): seq<Loc>
    requires forall i :: 0 <= i < |ls| ==> OnBoard(ls[i])
  {
    if ls == [] then []
    else
      var rest := KeepReachable(b, p, at, ls[1..]);
      match At(b, ls[0])
      case None => [ls[0]] + rest
      case Some(other) => if CanCapture(p, at, other, ls[0]) then [ls[0]] + rest else rest
  }

  /** Over a forest of leaves the walk is a plain filter of the leaves' squares. */
  lemma {:induction false} LeavesFilter(b: Board, p: Piece, at: Loc, ns: seq<Node>)
    requires ForestOnBoard(ns)
    requires forall i :: 0 <= i < |ns| ==> ns[i].children == []
    ensures forall i :: 0 <= i < |Locs(ns)| ==> OnBoard(Locs(ns)[i])
    ensures FilterBfs(b, p, at, ns) == KeepReachable(b, p, at, Locs(ns))
  {
    if ns != [] {
      ForestOnBoardParts(ns);
      assert ns[1..] + ns[0].children == ns[1..];
      LeavesFilter(b, p, at, ns[1..]);
      assert Locs(ns)[1..] == Locs(ns[1..]);
    }
  }

  /**
   * A kept square is blank or capturable, and every such square of the
   * listing is kept.
   */
  lemma {:induction false} KeepReachableSpec(b: Board, p: Piece, at: Loc, ls: seq<Loc>)
    requires forall i :: 0 <= i < |ls| ==> OnBoard(ls[i])
    ensures forall l :: l in KeepReachable(b, p, at, ls) <==>
              l in ls && (At(b, l).None? || CanCapture(p, at, At(b, l).value, l))
  {
    if ls != [] {
      KeepReachableSpec(b, p, at, ls[1..]);
      assert ls == [ls[0]] + ls[1..];
    }
  }

  /** Pruning a forest of leaves leaves leaves. */
  lemma {:induction false} PruneLeaves(ns: seq<Node>)
    requires forall i :: 0 <= i < |ns| ==> ns[i].children == []
    ensures forall i :: 0 <= i < |PruneAll(ns)| ==> PruneAll(ns)[i].children == []
  {
    if ns != [] {
      PruneLeaves(ns[1..]);
      assert PruneAll([]) == [];
    }
  }

  /** Over a tree whose root has only leaves, the walk filters `to_a`. */
  lemma LeafTreeMoves(b: Board, p: Piece, at: Loc, t: MoveTree)
    requires ForestOnBoard(t.root.children)
    requires forall i :: 0 <= i < |t.root.children| ==> t.root.children[i].children == []
    ensures forall i :: 0 <= i < |ToA(t)| ==> OnBoard(ToA(t)[i])
    ensures FilterBfs(b, p, at, t.root.children) == KeepReachable(b, p, at, ToA(t))
  {
    ToAOneLevel(t);
    LeavesFilter(b, p, at, t.root.children);
  }

  /** A template with only leaves under its root keeps that shape once placed. */
  lemma PossibleLeaves(t: MoveTree, at: Loc)
    requires forall i :: 0 <= i < |t.root.children| ==> t.root.children[i].children == []
    ensures forall i :: 0 <= i < |Possible(t, at).root.children| ==> Possible(t, at).root.children[i].children == []
  {
    var tr := TranslateAll(t.root.children, at);
    assert forall i :: 0 <= i < |tr| ==> tr[i].children == [];
    assert Translate(t.root, at).children == tr;
    assert Possible(t, at).root.children == PruneAll(tr);
    PruneLeaves(tr);
  }

  /** The possible-squares tree of a king or a knight has only leaves under its root. */
  lemma FanPossibleLeaves(p: Piece, at: Loc)
    requires p.kind.King? || p.kind.Knight?
    ensures forall i :: 0 <= i < |PossibleMoves(p, at).root.children| ==> PossibleMoves(p, at).root.children[i].children == []
  {
    FanTemplateLeaves(p);
    PossibleLeaves(Template(p), at);
  }

  /**
   * A king or a knight moves to exactly those of its possible squares that
   * are blank or hold an enemy piece, in template order.
   */
  lemma FanLegalMoves(b: Board, p: Piece, at: Loc)
    requires OnBoard(at) && (p.kind.King? || p.kind.Knight?)
    ensures forall i :: 0 <= i < |ToA(PossibleMoves(p, at))| ==> OnBoard(ToA(PossibleMoves(p, at))[i])
    ensures SlidingMoves(b, p, at) == KeepReachable(b, p, at, ToA(PossibleMoves(p, at)))
    ensures forall l :: l in SlidingMoves(b, p, at) <==>
              l in ToA(PossibleMoves(p, at)) && (At(b, l).None? || At(b, l).value.color != p.color)
  {
    var t := PossibleMoves(p, at);
    FanPossibleLeaves(p, at);
    LeafTreeMoves(b, p, at, t);
    KeepReachableSpec(b, p, at, ToA(t));
  }
}

=== FILE: move_tree.dfy ===
/**
 * The move tree of lib/chess_pieces/move_tree.rb: a root node plus level
 * order traversal (`each`), the root-less location list (`to_a`) and branch
 * removal (`trim_branch!`). `clone` is not needed: trees are values.
 */
module MoveTrees {
  import opened Util
  import opened MoveTreeNodes

  datatype MoveTree = MoveTree(root: Node)

  /** `MoveTree.new(pos)`: a lone root at `pos`. */
  function NewTree(pos: Loc): (t: MoveTree)
    ensures t.root.loc == pos && t.root.children == []
    ensures Size(t.root) == 1
  {
    MoveTree(NewNode(pos))
  }

  // ---------------------------------------------------------------- sizes

  /** Number of nodes in the tree rooted at `n`. */
  function Size(n: Node): nat
  {
    1 + SizeOf(n.children)
  }

  /** Number of nodes in a forest. */
  function SizeOf(ns: seq<Node>): nat
  {
    if ns == [] then 0 else Size(ns[0]) + SizeOf(ns[1..])
  }

  lemma {:induction false} SizeOfAppend(a: seq<Node>, b: seq<Node>)
    ensures SizeOf(a + b) == SizeOf(a) + SizeOf(b)
  {
    if a == [] {
      assert a + b == b;
    } else {
      assert (a + b)[1..] == a[1..] + b;
      SizeOfAppend(a[1..], b);
    }
  }

  /** Taking the head of a queue and enqueuing its children removes one node. */
  lemma SizeOfDrain(q: seq<Node>)
    requires q != []
    ensures SizeOf(q[1..] + q[0].children) + 1 == SizeOf(q)
  {
    SizeOfAppend(q[1..], q[0].children);
    assert Size(q[0]) == 1 + SizeOf(q[0].children);
  }

  /** The children of every node of `q`, in order. */
  function ChildrenOf(q: seq<Node>): seq<Node>
  {
    if q == [] then [] else q[0].children + ChildrenOf(q[1..])
  }

  lemma {:induction false} ChildrenOfAppend(a: seq<Node>, b: seq<Node>)
    ensures ChildrenOf(a + b) == ChildrenOf(a) + ChildrenOf(b)
  {
    if a == [] {
      assert a + b == b;
    } else {
      assert (a + b)[1..] == a[1..] + b;
      ChildrenOfAppend(a[1..], b);
    }
  }

  lemma {:induction false} SizeOfChildren(q: seq<Node>)
    ensures SizeOf(q) == |q| + SizeOf(ChildrenOf(q))
  {
    if q != [] {
      SizeOfChildren(q[1..]);
      SizeOfAppend(q[0].children, ChildrenOf(q[1..]));
    }
  }

  // ------------------------------------------------------- traversal orders

  /**
   * The queue walk of `each`: take the head, visit it, enqueue its
   * children at the back.
   */
  function Bfs(q: seq<Node>): seq<Node>
    decreases SizeOf(q)
  {
    if q == [] then []
    else
      SizeOfDrain(q);
      [q[0]] + Bfs(q[1..] + q[0].children)
  }

  /** Level order stated level by level: this level, then the next one. */
  function LevelOrder(q: seq<Node>): seq<Node>
    decreases SizeOf(q)
  {
    if q == [] then []
    else
      SizeOfChildren(q);
      q + LevelOrder(ChildrenOf(q))
  }

  /** Depth-first (pre-order) listing of a forest: the reference for "every node once". */
  function Preorder(n: Node): seq<Node>
  {
    [n] + PreorderOf(n.children)
  }

  function PreorderOf(ns: seq<Node>): seq<Node>
  {
    if ns == [] then [] else Preorder(ns[0]) + PreorderOf(ns[1..])
  }

  lemma {:induction false} PreorderOfAppend(a: seq<Node>, b: seq<Node>)
    ensures PreorderOf(a + b) == PreorderOf(a) + PreorderOf(b)
  {
    if a == [] {
      assert a + b == b;
    } else {
      assert (a + b)[1..] == a[1..] + b;
      PreorderOfAppend(a[1..], b);
    }
  }

  /** Draining a prefix `q` of the queue first puts `q` out, then their children join the queue. */
  lemma {:induction false} BfsShift(q: seq<Node>, r: seq<Node>)
    ensures Bfs(q + r) == q + Bfs(r + ChildrenOf(q))
    decreases |q|
  {
    if q == [] {
      assert q + r == r;
      assert r + ChildrenOf(q) == r;
    } else {
      assert (q + r)[0] == q[0];
      assert (q + r)[1..] + q[0].children == q[1..] + (r + q[0].children);
      BfsShift(q[1..], r + q[0].children);
      assert r + q[0].children + ChildrenOf(q[1..]) == r + ChildrenOf(q);
      assert [q[0]] + q[1..] == q;
    }
  }

  /** The queue walk of `each` visits the tree level by level. */
  lemma {:induction false} BfsIsLevelOrder(q: seq<Node>)
    ensures Bfs(q) == LevelOrder(q)
    decreases SizeOf(q)
  {
    if q != [] {
      BfsShift(q, []);
      assert q + [] == q;
      assert [] + ChildrenOf(q) == ChildrenOf(q);
      SizeOfChildren(q);
      BfsIsLevelOrder(ChildrenOf(q));
    }
  }

  /** The queue walk visits every node of the forest exactly once. */
  lemma {:induction false} BfsVisitsEachNodeOnce(q: seq<Node>)
    ensures multiset(Bfs(q)) == multiset(PreorderOf(q))
    ensures |Bfs(q)| == SizeOf(q)
    decreases SizeOf(q)
  {
    if q != [] {
      SizeOfDrain(q);
      BfsVisitsEachNodeOnce(q[1..] + q[0].children);
      PreorderOfAppend(q[1..], q[0].children);
    }
  }

  /** The children of a level-order listing are the level-order listing of the children. */
  lemma {:induction false} ChildrenOfLevelOrder(q: seq<Node>)
    ensures ChildrenOf(LevelOrder(q)) == LevelOrder(ChildrenOf(q))
    decreases SizeOf(q)
  {
    if q != [] {
      SizeOfChildren(q);
      ChildrenOfAppend(q, LevelOrder(ChildrenOf(q)));
      ChildrenOfLevelOrder(ChildrenOf(q));
    }
  }

  /**
   * `each` as the Ruby loop runs it: a visit queue seeded with the root.
   * The visited nodes are the tree in level order, root first, each node once.
   */
  method Each(t: MoveTree) returns (visited: seq<Node>)
    ensures visited == LevelOrder([t.root])
    ensures |visited| == Size(t.root) && visited[0] == t.root
    ensures multiset(visited) == multiset(Preorder(t.root))
  {
    var queue := [t.root];
    visited := [];
    while queue != []
      invariant visited + Bfs(queue) == Bfs([t.root])
      decreases SizeOf(queue)
    {
      var current := queue[0];
      SizeOfDrain(queue);
      assert Bfs(queue) == [current] + Bfs(queue[1..] + current.children);
      visited := visited + [current];
      queue := queue[1..] + current.children;
    }
    assert visited == Bfs([t.root]);
    BfsIsLevelOrder([t.root]);
    BfsVisitsEachNodeOnce([t.root]);
    assert PreorderOf([t.root]) == Preorder(t.root) + PreorderOf([]);
    assert SizeOf([t.root]) == Size(t.root) + SizeOf([]);
  }

  /** The level-order listing of the whole tree (what `each` yields). */
  function Walk(t: MoveTree): (r: seq<Node>)
    ensures |r| == Size(t.root) && r[0] == t.root
  {
    BfsVisitsEachNodeOnce([t.root]);
    assert SizeOf([t.root]) == Size(t.root) + SizeOf([]);
    Bfs([t.root])
  }

  lemma WalkIsLevelOrder(t: MoveTree)
    ensures Walk(t) == [t.root] + LevelOrder(t.root.children)
    ensures Walk(t)[1..] == LevelOrder(t.root.children)
  {
    BfsIsLevelOrder([t.root]);
    assert [t.root][1..] == [];
    assert ChildrenOf([t.root]) == t.root.children + ChildrenOf([]) == t.root.children;
    assert [t.root] != [];
    assert LevelOrder([t.root]) == [t.root] + LevelOrder(ChildrenOf([t.root]));
  }

  /**
   * `to_a`: the locations of the level-order walk with the root left out,
   * so its length is the node count minus one.
   */
  function ToA(t: MoveTree): (r: seq<Loc>)
    ensures |r| == Size(t.root) - 1
    ensures r == Locs(LevelOrder(t.root.children))
  {
    WalkIsLevelOrder(t);
    Locs(Walk(t))[1..]
  }

  /** Listing of a tree whose root children are all leaves. */
  lemma ToAOneLevel(t: MoveTree)
    requires forall i :: 0 <= i < |t.root.children| ==> t.root.children[i].children == []
    ensures ToA(t) == Locs(t.root.children)
  {
    NoGrandchildren(t.root.children);
    var cs := t.root.children;
    if cs != [] {
      assert LevelOrder(cs) == cs + LevelOrder(ChildrenOf(cs));
    }
  }

  /** Listing of a tree of depth two: the root's children, then theirs. */
  lemma ToATwoLevels(t: MoveTree)
    requires forall i, j :: 0 <= i < |t.root.children| && 0 <= j < |t.root.children[i].children| ==>
               t.root.children[i].children[j].children == []
    ensures ToA(t) == Locs(t.root.children) + Locs(ChildrenOf(t.root.children))
  {
    var cs := t.root.children;
    GrandchildrenAreLeaves(cs);
    var gs := ChildrenOf(cs);
    NoGrandchildren(gs);
    if cs != [] {
      assert LevelOrder(cs) == cs + LevelOrder(gs);
      if gs != [] {
        assert LevelOrder(gs) == gs + LevelOrder(ChildrenOf(gs));
      }
    }
    assert Locs(cs + gs) == Locs(cs) + Locs(gs);
  }

  lemma {:induction false} NoGrandchildren(ns: seq<Node>)
    requires forall i :: 0 <= i < |ns| ==> ns[i].children == []
    ensures ChildrenOf(ns) == []
  {
    if ns != [] {
      NoGrandchildren(ns[1..]);
    }
  }

  lemma {:induction false} GrandchildrenAreLeaves(ns: seq<Node>)
    requires forall i, j :: 0 <= i < |ns| && 0 <= j < |ns[i].children| ==> ns[i].children[j].children == []
    ensures forall k :: 0 <= k < |ChildrenOf(ns)| ==> ChildrenOf(ns)[k].children == []
  {
    if ns != [] {
      GrandchildrenAreLeaves(ns[1..]);
      var a: seq<Node>, b: seq<Node> := ns[0].children, ChildrenOf(ns[1..]);
      forall k | 0 <= k < |a + b|
        ensures (a + b)[k].children == []
      {
        if k >= |a| {
          assert (a + b)[k] == b[k - |a|];
        }
      }
    }
  }

  /** A chain: every node has at most one child (the shape of a sliding piece's ray). */
  predicate IsChain(n: Node)
  {
    |n.children| <= 1 && (|n.children| == 1 ==> IsChain(n.children[0]))
  }

  /** The locations along a chain, nearest first. */
  function ChainLocs(n: Node): seq<Loc>
    requires IsChain(n)
  {
    [n.loc] + (if n.children == [] then [] else ChainLocs(n.children[0]))
  }

  /** Level order along a chain is the chain itself. */
  lemma {:induction false} ChainLevelOrder(n: Node)
    requires IsChain(n)
    ensures Locs(LevelOrder([n])) == ChainLocs(n)
  {
    assert [n][1..] == [];
    assert ChildrenOf([n]) == n.children + ChildrenOf([]) == n.children;
    var rest := LevelOrder(n.children);
    assert LevelOrder([n]) == [n] + rest;
    LocsAppend([n], rest);
    if n.children != [] {
      var c := n.children[0];
      assert n.children == [c];
      ChainLevelOrder(c);
      assert ChainLocs(n) == [n.loc] + ChainLocs(c);
    } else {
      assert rest == [];
    }
  }

  // --------------------------------------------------------- trim_branch!

  /** `node.children.map(&:loc).include?(loc)` */
  predicate HasChildAt(n: Node, loc: Loc)
  {
    loc in Locs(n.children)
  }

  lemma {:induction false} LocsOfChildren(ns: seq<Node>, loc: Loc)
    ensures loc in Locs(ChildrenOf(ns)) <==> exists i :: 0 <= i < |ns| && HasChildAt(ns[i], loc)
  {
    if ns != [] {
      LocsOfChildren(ns[1..], loc);
      assert Locs(ChildrenOf(ns)) == Locs(ns[0].children) + Locs(ChildrenOf(ns[1..]));
      if loc in Locs(ChildrenOf(ns[1..])) {
        var i :| 0 <= i < |ns[1..]| && HasChildAt(ns[1..][i], loc);
        assert HasChildAt(ns[i + 1], loc);
      }
      forall i | 0 <= i < |ns| && HasChildAt(ns[i], loc)
        ensures loc in Locs(ChildrenOf(ns))
      {
        if i > 0 {
          assert ns[1..][i - 1] == ns[i];
        }
      }
    }
  }

  /** A location is listed by `to_a` exactly when some node of the walk has a child there. */
  lemma ToAHasParent(t: MoveTree, loc: Loc)
    ensures loc in ToA(t) <==> exists i :: 0 <= i < |Walk(t)| && HasChildAt(Walk(t)[i], loc)
  {
    WalkIsLevelOrder(t);
    BfsIsLevelOrder([t.root]);
    ChildrenOfLevelOrder([t.root]);
    assert ChildrenOf([t.root]) == t.root.children + ChildrenOf([]);
    LocsOfChildren(Walk(t), loc);
  }

  /** A path of child indices from a node down to one of its descendants. */
  type Path = seq<nat>

  function NodeAt(n: Node, p: Path): Option<Node>
    decreases |p|
  {
    if p == [] then Some(n)
    else if p[0] < |n.children| then NodeAt(n.children[p[0]], p[1..])
    else None
  }

  lemma {:induction false} NodeAtExtend(n: Node, p: Path, m: Node, i: nat)
    requires NodeAt(n, p) == Some(m) && i < |m.children|
    ensures NodeAt(n, p + [i]) == Some(m.children[i])
    decreases |p|
  {
    if p == [] {
      assert p + [i] == [i];
      assert [i][1..] == [];
    } else {
      assert (p + [i])[1..] == p[1..] + [i];
      NodeAtExtend(n.children[p[0]], p[1..], m, i);
    }
  }

  /** Queue entries tagged with their address below the root. */
  function Tag(ns: seq<Node>, p: Path): (r: seq<(Node, Path)>)
    ensures |r| == |ns|
    ensures forall i :: 0 <= i < |ns| ==> r[i] == (ns[i], p + [i])
  {
    seq(|ns|, i requires 0 <= i < |ns| => (ns[i], p + [i]))
  }

  function Firsts(q: seq<(Node, Path)>): (r: seq<Node>)
    ensures |r| == |q|
    ensures forall i :: 0 <= i < |q| ==> r[i] == q[i].0
  {
    seq(|q|, i requires 0 <= i < |q| => q[i].0)
  }

  /** `each` again, with every visited node paired with its path. */
  function TaggedBfs(q: seq<(Node, Path)>): seq<(Node, Path)>
    decreases SizeOf(Firsts(q))
  {
    if q == [] then []
    else
      var next := q[1..] + Tag(q[0].0.children, q[0].1);
      assert Firsts(next) == Firsts(q)[1..] + q[0].0.children;
      assert Firsts(q) == [q[0].0] + Firsts(q)[1..];
      SizeOfDrain(Firsts(q));
      [q[0]] + TaggedBfs(next)
  }

  predicate Addressed(root: Node, q: seq<(Node, Path)>)
  {
    forall k :: 0 <= k < |q| ==> NodeAt(root, q[k].1) == Some(q[k].0)
  }

  lemma {:induction false} TaggedBfsSound(root: Node, q: seq<(Node, Path)>)
    requires Addressed(root, q)
    ensures Firsts(TaggedBfs(q)) == Bfs(Firsts(q))
    ensures Addressed(root, TaggedBfs(q))
    decreases SizeOf(Firsts(q))
  {
    if q != [] {
      var next := q[1..] + Tag(q[0].0.children, q[0].1);
      assert Firsts(next) == Firsts(q)[1..] + q[0].0.children;
      assert Firsts(q) == [q[0].0] + Firsts(q)[1..];
      SizeOfDrain(Firsts(q));
      forall k | 0 <= k < |next|
        ensures NodeAt(root, next[k].1) == Some(next[k].0)
      {
        if k >= |q| - 1 {
          NodeAtExtend(root, q[0].1, q[0].0, k - (|q| - 1));
        }
      }
      TaggedBfsSound(root, next);
    }
  }

  /** The level-order walk with the path of each visited node. */
  function WalkWithPaths(t: MoveTree): (r: seq<(Node, Path)>)
    ensures Firsts(r) == Walk(t)
    ensures Addressed(t.root, r)
  {
    TaggedBfsSound(t.root, [(t.root, [])]);
    assert Firsts([(t.root, [])]) == [t.root];
    TaggedBfs([(t.root, [])])
  }

  /** Index of the first node with a child at `loc`, or `|ns|` when there is none. */
  function FirstWithChild(ns: seq<Node>, loc: Loc): (i: nat)
    ensures i <= |ns|
    ensures forall j :: 0 <= j < i ==> !HasChildAt(ns[j], loc)
    ensures i < |ns| ==> HasChildAt(ns[i], loc)
  {
    if ns == [] then 0
    else if HasChildAt(ns[0], loc) then 0
    else 1 + FirstWithChild(ns[1..], loc)
  }

  /** Applies `remove_child(probe)` to the node at path `p`; everything else is kept. */
  function RemoveAt(n: Node, p: Path, probe: Node): (r: Node)
    ensures r.loc == n.loc
    decreases |p|
  {
    if p == [] then Node(n.loc, Without(n.children, probe))
    else if p[0] < |n.children| then
      Node(n.loc, n.children[p[0] := RemoveAt(n.children[p[0]], p[1..], probe)])
    else n
  }

  lemma {:induction false} SizeOfUpdate(cs: seq<Node>, i: nat, x: Node)
    requires i < |cs|
    ensures SizeOf(cs[i := x]) + Size(cs[i]) == SizeOf(cs) + Size(x)
  {
    if i > 0 {
      assert cs[i := x][1..] == cs[1..][i - 1 := x];
      SizeOfUpdate(cs[1..], i - 1, x);
    }
  }

  lemma {:induction false} SizeOfWithout(cs: seq<Node>, probe: Node)
    ensures SizeOf(Without(cs, probe)) <= SizeOf(cs)
    ensures (exists c :: c in cs && NodeEquals(c, NodeArg(probe))) ==> SizeOf(Without(cs, probe)) < SizeOf(cs)
  {
    if cs != [] {
      SizeOfWithout(cs[1..], probe);
      if !NodeEquals(cs[0], NodeArg(probe)) {
        assert Without(cs, probe) == [cs[0]] + Without(cs[1..], probe);
        assert ([cs[0]] + Without(cs[1..], probe))[1..] == Without(cs[1..], probe);
        forall c | c in cs && NodeEquals(c, NodeArg(probe))
          ensures c in cs[1..]
        {
        }
      }
    }
  }


  lemma {:induction false} RemoveAtSize(n: Node, p: Path, loc: Loc)
    requires NodeAt(n, p).Some? && HasChildAt(NodeAt(n, p).value, loc)
    ensures Size(RemoveAt(n, p, NewNode(loc))) < Size(n)
    decreases |p|
  {
    var probe := NewNode(loc);
    if p == [] {
      var i :| 0 <= i < |n.children| && Locs(n.children)[i] == loc;
      assert n.children[i] in n.children && NodeEquals(n.children[i], NodeArg(probe));
      SizeOfWithout(n.children, probe);
    } else {
      RemoveAtSize(n.children[p[0]], p[1..], loc);
      SizeOfUpdate(n.children, p[0], RemoveAt(n.children[p[0]], p[1..], probe));
    }
  }

  /** The edited node ends up with its children at the probe's location removed. */
  lemma {:induction false} RemoveAtTarget(n: Node, p: Path, probe: Node, m: Node)
    requires NodeAt(n, p) == Some(m)
    ensures NodeAt(RemoveAt(n, p, probe), p) == Some(Node(m.loc, Without(m.children, probe)))
    decreases |p|
  {
    if p != [] {
      RemoveAtTarget(n.children[p[0]], p[1..], probe, m);
    }
  }

  /** Neither path is a prefix of the other: they lead to unrelated nodes. */
  predicate Diverge(p: Path, q: Path)
  {
    exists k :: 0 <= k < |p| && k < |q| && p[k] != q[k] && p[..k] == q[..k]
  }

  /** Nodes away from the edited one are untouched. */
  lemma {:induction false} RemoveAtElsewhere(n: Node, p: Path, probe: Node, q: Path)
    requires Diverge(p, q)
    ensures NodeAt(RemoveAt(n, p, probe), q) == NodeAt(n, q)
    decreases |p|
  {
    var k :| 0 <= k < |p| && k < |q| && p[k] != q[k] && p[..k] == q[..k];
    if k > 0 {
      assert p[0] == p[..k][0] == q[..k][0] == q[0];
      if p[0] < |n.children| {
        assert p[1..][k - 1] != q[1..][k - 1];
        assert p[1..][..k - 1] == p[..k][1..] == q[..k][1..] == q[1..][..k - 1];
        RemoveAtElsewhere(n.children[p[0]], p[1..], probe, q[1..]);
      }
    }
  }

  /**
   * `trim_branch!`: walk the tree in level order; at the first node having a
   * child at the location, remove that child (and with it its subtree) and
   * return the location; return nil if no node has such a child. A node
   * argument stands for its location; anything else is an ArgumentError.
   */
  function TrimBranch(t: MoveTree, arg: Arg): (r: Result<(MoveTree, Option<Loc>), ArgumentError>)
    ensures r.Failure? <==> arg.OtherArg?
    ensures r.Success? ==> (r.value.1.None? <==> KeyOf(arg) !in ToA(t))
    ensures r.Success? && r.value.1.None? ==> r.value.0 == t
    ensures r.Success? && r.value.1.Some? ==>
              && r.value.1.value == KeyOf(arg)
              && r.value.0.root.loc == t.root.loc
              && Size(r.value.0.root) < Size(t.root)
  {
    if arg.OtherArg? then Failure(ArgumentError)
    else
      var loc := KeyOf(arg);
      var order := WalkWithPaths(t);
      var i := FirstWithChild(Firsts(order), loc);
      ToAHasParent(t, loc);
      if i == |order| then
        Success((t, None))
      else
        RemoveAtSize(t.root, order[i].1, loc);
        Success((MoveTree(RemoveAt(t.root, order[i].1, NewNode(loc))), Some(loc)))
  }

  /**
   * What a successful trim edits: the node at the address of the first node
   * of the level-order walk having a child at `loc` loses exactly its
   * children at `loc`; every node at an unrelated address is unchanged.
   */
  lemma TrimBranchEditsFirstMatch(t: MoveTree, loc: Loc)
    requires loc in ToA(t)
    ensures
      var w := WalkWithPaths(t);
      var t' := TrimBranch(t, LocArg(loc)).value.0;
      exists i :: 0 <= i < |w|
        && HasChildAt(w[i].0, loc)
        && (forall j :: 0 <= j < i ==> !HasChildAt(w[j].0, loc))
        && NodeAt(t'.root, w[i].1) == Some(Node(w[i].0.loc, Without(w[i].0.children, NewNode(loc))))
        && (forall q: Path :: Diverge(w[i].1, q) ==> NodeAt(t'.root, q) == NodeAt(t.root, q))
  {
    var w := WalkWithPaths(t);
    var i := FirstWithChild(Firsts(w), loc);
    ToAHasParent(t, loc);
    assert i < |w|;
    var p := w[i].1;
    var root' := RemoveAt(t.root, p, NewNode(loc));
    assert TrimBranch(t, LocArg(loc)).value.0 == MoveTree(root');
    assert Firsts(w)[i] == w[i].0;
    assert forall j :: 0 <= j < i ==> Firsts(w)[j] == w[j].0;
    RemoveAtTarget(t.root, p, NewNode(loc), w[i].0);
    forall q: Path | Diverge(p, q)
      ensures NodeAt(root', q) == NodeAt(t.root, q)
    {
      RemoveAtElsewhere(t.root, p, NewNode(loc), q);
    }
  }

  /** A node argument trims exactly as its location does. */
  lemma TrimBranchByNode(t: MoveTree, n: Node)
    ensures TrimBranch(t, NodeArg(n)) == TrimBranch(t, LocArg(n.loc))
  {
  }

  /** The walk starts at the root, with the empty path, and continues with the root's first child. */
  lemma WalkWithPathsStart(t: MoveTree)
    ensures WalkWithPaths(t)[0] == (t.root, [])
    ensures t.root.children != [] ==> |WalkWithPaths(t)| > 1 && WalkWithPaths(t)[1] == (t.root.children[0], [0])
  {
    var q := [(t.root, [])];
    var next := q[1..] + Tag(t.root.children, []);
    assert TaggedBfs(q) == [q[0]] + TaggedBfs(next);
    if t.root.children != [] {
      assert q[1..] == [];
      assert next[0] == Tag(t.root.children, [])[0] == (t.root.children[0], [] + [0]);
      assert [] + [0] == [0];
      assert TaggedBfs(next) == [next[0]] + TaggedBfs(next[1..] + Tag(next[0].0.children, next[0].1));
    }
  }

  /** Trimming a location held by one of the root's children removes it from the root. */
  lemma TrimRootChild(t: MoveTree, loc: Loc)
    requires HasChildAt(t.root, loc)
    ensures TrimBranch(t, LocArg(loc)) ==
              Success((MoveTree(Node(t.root.loc, Without(t.root.children, NewNode(loc)))), Some(loc)))
  {
    WalkWithPathsStart(t);
    var w := WalkWithPaths(t);
    assert Firsts(w)[0] == t.root;
    assert FirstWithChild(Firsts(w), loc) == 0;
  }

  /**
   * Trimming a location the root does not hold but its first child does
   * edits that first child only.
   */
  lemma TrimFirstGrandchild(t: MoveTree, loc: Loc)
    requires t.root.children != [] && !HasChildAt(t.root, loc) && HasChildAt(t.root.children[0], loc)
    ensures var c := t.root.children[0];
            TrimBranch(t, LocArg(loc)) ==
              Success((MoveTree(Node(t.root.loc, t.root.children[0 := Node(c.loc, Without(c.children, NewNode(loc)))])), Some(loc)))
  {
    WalkWithPathsStart(t);
    var w := WalkWithPaths(t);
    assert Firsts(w)[0] == t.root && Firsts(w)[1] == t.root.children[0];
    assert FirstWithChild(Firsts(w), loc) == 1 by {
      assert Firsts(w)[1..][0] == t.root.children[0];
    }
    assert [0][1..] == [];
  }
}

=== FILE: move_tree_node.dfy ===
/**
 * One node of a move tree (lib/chess_pieces/move_tree_node.rb): a board
 * location, relative to the piece while the tree is a template and absolute
 * once translated, plus the ordered children reachable if this node's square
 * turns out to be empty.
 */
module MoveTreeNodes {
  import opened Util

  /** A [row, col] pair. */
  datatype Loc = Loc(row: int, col: int)

  datatype Node = Node(loc: Loc, children: seq<Node>)

  /**
   * What the Ruby methods receive as argument: a location array, a node, or
   * any other object, which `add_child`, `remove_child` and `trim_branch!`
   * reject with ArgumentError.
   */
  datatype Arg = LocArg(l: Loc) | NodeArg(n: Node) | OtherArg

  datatype ArgumentError = ArgumentError

  /** The location an accepted argument stands for. */
  function KeyOf(arg: Arg): Loc
    requires !arg.OtherArg?
  {
    if arg.LocArg? then arg.l else arg.n.loc
  }

  /** `MoveTreeNode.new(loc)`: a leaf at `loc`. */
  function NewNode(loc: Loc): (n: Node)
    ensures n.loc == loc && n.children == []
  {
    Node(loc, [])
  }

  /** The locations of a list of nodes, in order (Ruby `map(&:loc)`). */
  function Locs(ns: seq<Node>): (r: seq<Loc>)
    ensures |r| == |ns|
    ensures forall i :: 0 <= i < |ns| ==> r[i] == ns[i].loc
  {
    seq(|ns|, i requires 0 <= i < |ns| => ns[i].loc)
  }

  lemma LocsAppend(a: seq<Node>, b: seq<Node>)
    ensures Locs(a + b) == Locs(a) + Locs(b)
  {
  }

  /**
   * `MoveTreeNode#==`: true only for another node, and then exactly when the
   * two locations agree; children play no part.
   */
  predicate NodeEquals(a: Node, other: Arg)
  {
    other.NodeArg? && a.loc == other.n.loc
  }

  lemma NodeEqualityIgnoresChildren(a: Node, b: Node, xs: seq<Node>, ys: seq<Node>)
    ensures NodeEquals(a, NodeArg(b)) <==> a.loc == b.loc
    ensures NodeEquals(a, NodeArg(b)) == NodeEquals(a.(children := xs), NodeArg(b.(children := ys)))
    ensures !NodeEquals(a, LocArg(a.loc)) && !NodeEquals(a, OtherArg)
  {
  }

  /**
   * `add_child`: appends a new leaf for a location, or the given node itself
   * (subtree and all) for a node; anything else is an ArgumentError. The
   * Ruby method returns the children array, which is the new node's
   * `children`.
   */
  function AddChild(n: Node, arg: Arg): (r: Result<Node, ArgumentError>)
    ensures r.Failure? <==> arg.OtherArg?
    ensures r.Success? ==>
              && r.value.loc == n.loc
              && |r.value.children| == |n.children| + 1
              && r.value.children[..|n.children|] == n.children
    ensures arg.LocArg? ==>
              r.value.children[|n.children|].loc == arg.l && r.value.children[|n.children|].children == []
    ensures arg.NodeArg? ==> r.value.children[|n.children|] == arg.n
  {
    match arg
    case LocArg(l) => Success(Node(n.loc, n.children + [NewNode(l)]))
    case NodeArg(c) => Success(Node(n.loc, n.children + [c]))
    case OtherArg => Failure(ArgumentError)
  }

  /**
   * Ruby `Array#delete(probe)` on a children array: every child equal to
   * `probe` (by `==`, i.e. by location) is dropped, the others stay in order.
   */
  function Without(cs: seq<Node>, probe: Node): (r: seq<Node>)
    ensures |r| <= |cs|
  {
    if cs == [] then []
    else if NodeEquals(cs[0], NodeArg(probe)) then Without(cs[1..], probe)
    else [cs[0]] + Without(cs[1..], probe)
  }

  /**
   * What `Array#delete` leaves: the children not equal to `probe`, in their
   * order, and all of them with every duplicate kept; the length drops
   * exactly when something matched.
   */
  lemma {:induction false} WithoutSpec(cs: seq<Node>, probe: Node)
    ensures var r := Without(cs, probe);
            && Subsequence(r, cs)
            && (forall c :: c in r ==> c in cs && !NodeEquals(c, NodeArg(probe)))
            && (forall c :: c in cs && !NodeEquals(c, NodeArg(probe)) ==> c in r)
            && (|r| == |cs| <==> forall c :: c in cs ==> !NodeEquals(c, NodeArg(probe)))
            && (forall c :: multiset(r)[c] == if NodeEquals(c, NodeArg(probe)) then 0 else multiset(cs)[c])
  {
    if cs != [] {
      var rest := cs[1..];
      WithoutSpec(rest, probe);
      assert cs == [cs[0]] + rest;
      assert multiset(cs) == multiset{cs[0]} + multiset(rest);
      assert forall c :: c in cs <==> c == cs[0] || c in rest;
      if !NodeEquals(cs[0], NodeArg(probe)) {
        var r := Without(cs, probe);
        assert r == [cs[0]] + Without(rest, probe);
        assert r[0] == cs[0] && r[1..] == Without(rest, probe);
      }
    }
  }

  /** `WithoutSpec` with equality to the probe read as equality of locations. */
  lemma WithoutByLoc(cs: seq<Node>, probe: Node)
    ensures var r := Without(cs, probe);
            && Subsequence(r, cs)
            && (forall c :: c in r ==> c.loc != probe.loc)
            && (forall c :: c in cs && c.loc != probe.loc ==> c in r)
            && (forall c :: multiset(r)[c] == if c.loc == probe.loc then 0 else multiset(cs)[c])
  {
    WithoutSpec(cs, probe);
    assert forall c :: NodeEquals(c, NodeArg(probe)) <==> c.loc == probe.loc;
  }

  /** What `Array#delete` returns: the last element equal to `probe`, or nil. */
  function LastEqual(cs: seq<Node>, probe: Node): (r: Option<Node>)
    ensures r.None? <==> forall c :: c in cs ==> !NodeEquals(c, NodeArg(probe))
    ensures r.Some? ==> r.value in cs && NodeEquals(r.value, NodeArg(probe))
    ensures r.Some? ==> exists i :: 0 <= i < |cs| && cs[i] == r.value &&
                                    forall j :: i < j < |cs| ==> !NodeEquals(cs[j], NodeArg(probe))
  {
    if cs == [] then None
    else if NodeEquals(cs[|cs| - 1], NodeArg(probe)) then Some(cs[|cs| - 1])
    else
      var r := LastEqual(cs[..|cs| - 1], probe);
      assert forall c :: c in cs[..|cs| - 1] ==> c in cs;
      r
  }

  /** `LastEqual` finds nothing exactly when no child stands at the probe's location. */
  lemma LastEqualByLoc(cs: seq<Node>, probe: Node)
    ensures LastEqual(cs, probe).None? <==> probe.loc !in Locs(cs)
    ensures LastEqual(cs, probe).Some? ==> LastEqual(cs, probe).value in cs && LastEqual(cs, probe).value.loc == probe.loc
  {
    if probe.loc in Locs(cs) {
      var i :| 0 <= i < |cs| && Locs(cs)[i] == probe.loc;
      assert NodeEquals(cs[i], NodeArg(probe));
    } else {
      forall c | c in cs
        ensures !NodeEquals(c, NodeArg(probe))
      {
        var i :| 0 <= i < |cs| && cs[i] == c;
        assert Locs(cs)[i] == c.loc;
      }
    }
  }

  /**
   * `remove_child`: drops every child at the argument's location and returns
   * the updated node together with the removed node (nil when nothing
   * matched, in which case the node is unchanged).
   */
  function RemoveChild(n: Node, arg: Arg): (r: Result<(Node, Option<Node>), ArgumentError>)
    ensures r.Failure? <==> arg.OtherArg?
    ensures r.Success? ==>
              var (m, removed) := r.value;
              && m.loc == n.loc
              && Subsequence(m.children, n.children)
              && (forall c :: c in m.children ==> c.loc != KeyOf(arg))
              && (forall c :: c in n.children && c.loc != KeyOf(arg) ==> c in m.children)
              && (forall c :: multiset(m.children)[c] == if c.loc == KeyOf(arg) then 0 else multiset(n.children)[c])
              && (removed.None? <==> KeyOf(arg) !in Locs(n.children))
              && (removed.None? ==> m == n)
              && (removed.Some? ==> removed.value in n.children && removed.value.loc == KeyOf(arg))
  {
    if arg.OtherArg? then Failure(ArgumentError)
    else
      var probe := if arg.LocArg? then NewNode(arg.l) else arg.n;
      var kept := Without(n.children, probe);
      var removed := LastEqual(n.children, probe);
      WithoutByLoc(n.children, probe);
      LastEqualByLoc(n.children, probe);
      assert probe.loc == KeyOf(arg);
      if removed.None? then
        assert kept == n.children by { WithoutNoMatch(n.children, probe); }
        Success((n, removed))
      else
        Success((Node(n.loc, kept), removed))
  }

  lemma {:induction false} WithoutNoMatch(cs: seq<Node>, probe: Node)
    requires forall i :: 0 <= i < |cs| ==> !NodeEquals(cs[i], NodeArg(probe))
    ensures Without(cs, probe) == cs
  {
    if cs != [] {
      var rest := cs[1..];
      assert forall i :: 0 <= i < |rest| ==> rest[i] == cs[i + 1];
      WithoutNoMatch(rest, probe);
      assert Without(cs, probe) == [cs[0]] + Without(rest, probe);
      assert cs == [cs[0]] + rest;
    }
  }

  /** Deleting from a concatenation deletes from each part. */
  lemma {:induction false} WithoutConcat(a: seq<Node>, b: seq<Node>, probe: Node)
    ensures Without(a + b, probe) == Without(a, probe) + Without(b, probe)
  {
    if a == [] {
      assert a + b == b;
    } else {
      var ab, tail := a + b, a[1..] + b;
      assert ab != [] && ab[0] == a[0] && ab[1..] == tail;
      WithoutConcat(a[1..], b, probe);
      if NodeEquals(a[0], NodeArg(probe)) {
        assert Without(ab, probe) == Without(tail, probe);
        assert Without(a, probe) == Without(a[1..], probe);
      } else {
        assert Without(ab, probe) == [a[0]] + Without(tail, probe);
        assert Without(a, probe) == [a[0]] + Without(a[1..], probe);
      }
    }
  }

  /** Deleting a node that matches once, between two runs of non-matching nodes, drops just that node. */
  lemma WithoutSingleMatch(before: seq<Node>, x: Node, after: seq<Node>, probe: Node)
    requires forall j :: 0 <= j < |before| ==> !NodeEquals(before[j], NodeArg(probe))
    requires NodeEquals(x, NodeArg(probe))
    requires forall j :: 0 <= j < |after| ==> !NodeEquals(after[j], NodeArg(probe))
    ensures Without(before + ([x] + after), probe) == before + after
  {
    var tail := [x] + after;
    assert tail[0] == x && tail[1..] == after;
    WithoutNoMatch(after, probe);
    assert Without(tail, probe) == after;
    WithoutNoMatch(before, probe);
    WithoutConcat(before, tail, probe);
  }

  /** Removing the one child at a location no other child shares cuts out exactly that child. */
  lemma WithoutUnique(cs: seq<Node>, k: nat)
    requires k < |cs| && forall j :: 0 <= j < |cs| && j != k ==> cs[j].loc != cs[k].loc
    ensures Without(cs, NewNode(cs[k].loc)) == cs[..k] + cs[k + 1..]
  {
    var probe := NewNode(cs[k].loc);
    NoMatchSlice(cs, 0, k, probe);
    NoMatchSlice(cs, k + 1, |cs|, probe);
    SplitAt(cs, k);
    WithoutSingleMatch(cs[..k], cs[k], cs[k + 1..], probe);
  }

  lemma SplitAt(cs: seq<Node>, k: nat)
    requires k < |cs|
    ensures cs == cs[..k] + ([cs[k]] + cs[k + 1..])
  {
    assert cs[k..] == [cs[k]] + cs[k + 1..];
    assert cs == cs[..k] + cs[k..];
  }

  lemma NoMatchSlice(cs: seq<Node>, lo: nat, hi: nat, probe: Node)
    requires lo <= hi <= |cs|
    requires forall j :: lo <= j < hi ==> !NodeEquals(cs[j], NodeArg(probe))
    ensures forall j :: 0 <= j < hi - lo ==> !NodeEquals(cs[lo..hi][j], NodeArg(probe))
  {
    forall j | 0 <= j < hi - lo
      ensures !NodeEquals(cs[lo..hi][j], NodeArg(probe))
    {
      assert cs[lo..hi][j] == cs[lo + j];
    }
  }
}

=== FILE: movement.dfy ===
/**
 * The possible-squares pipeline of `Pawn#possible_moves`, which every kind
 * follows: take the kind's template, translate every node by the piece's
 * position, and keep only the on-board part of the tree. Also the capture
 * rule each kind applies to an occupied square.
 */
module Movement {
  import opened Util
  import opened MoveTreeNodes
  import opened MoveTrees
  import opened Pieces
  import opened Templates

  function ShiftAll(ls: seq<Loc>, at: Loc): (r: seq<Loc>)
    ensures |r| == |ls| && forall i :: 0 <= i < |ls| ==> r[i] == Shift(ls[i], at)
  {
    seq(|ls|, i requires 0 <= i < |ls| => Shift(ls[i], at))
  }

  lemma ShiftAllAppend(a: seq<Loc>, b: seq<Loc>, at: Loc)
    ensures ShiftAll(a + b, at) == ShiftAll(a, at) + ShiftAll(b, at)
  {
  }

  // ------------------------------------------------------------ translation

  /** Every node's offset `[r, c]` becomes the square `[row + r, col + c]`. */
  function Translate(n: Node, at: Loc): (r: Node)
    ensures r.loc == Shift(n.loc, at) && |r.children| == |n.children|
  {
    Node(Shift(n.loc, at), seq(|n.children|, i requires 0 <= i < |n.children| => Translate(n.children[i], at)))
  }

  function TranslateAll(ns: seq<Node>, at: Loc): (r: seq<Node>)
    ensures |r| == |ns| && forall i :: 0 <= i < |ns| ==> r[i] == Translate(ns[i], at)
  {
    seq(|ns|, i requires 0 <= i < |ns| => Translate(ns[i], at))
  }

  lemma {:induction false} TranslateChildrenOf(q: seq<Node>, at: Loc)
    ensures ChildrenOf(TranslateAll(q, at)) == TranslateAll(ChildrenOf(q), at)
  {
    if q != [] {
      TranslateChildrenOf(q[1..], at);
      assert TranslateAll(q, at)[1..] == TranslateAll(q[1..], at);
      assert Translate(q[0], at).children == TranslateAll(q[0].children, at);
    }
  }

  lemma TranslateLocs(q: seq<Node>, at: Loc)
    ensures Locs(TranslateAll(q, at)) == ShiftAll(Locs(q), at)
  {
  }

  /** Translation commutes with the level-order listing. */
  lemma {:induction false} TranslateLevelOrder(q: seq<Node>, at: Loc)
    ensures Locs(LevelOrder(TranslateAll(q, at))) == ShiftAll(Locs(LevelOrder(q)), at)
    decreases SizeOf(q)
  {
    if q != [] {
      var tq, a := TranslateAll(q, at), ChildrenOf(q);
      var ta := TranslateAll(a, at);
      SizeOfChildren(q);
      TranslateChildrenOf(q, at);
      TranslateLevelOrder(a, at);
      assert tq != [];
      calc {
        Locs(LevelOrder(tq));
        { assert LevelOrder(tq) == tq + LevelOrder(ta);
          LocsAppend(tq, LevelOrder(ta)); }
        Locs(tq) + Locs(LevelOrder(ta));
        { TranslateLocs(q, at); }
        ShiftAll(Locs(q), at) + ShiftAll(Locs(LevelOrder(a)), at);
        { ShiftAllAppend(Locs(q), Locs(LevelOrder(a)), at); }
        ShiftAll(Locs(q) + Locs(LevelOrder(a)), at);
        { assert LevelOrder(q) == q + LevelOrder(a);
          LocsAppend(q, LevelOrder(a)); }
        ShiftAll(Locs(LevelOrder(q)), at);
      }
    }
  }

  // ---------------------------------------------------------------- pruning

  /** Every node of the forest stands on the board. */
  predicate ForestOnBoard(ns: seq<Node>)
  {
    forall i :: 0 <= i < |ns| ==> OnBoard(ns[i].loc) && ForestOnBoard(ns[i].children)
  }

  /** The tree with every off-board node cut away together with its subtree. */
  function Prune(n: Node): (r: Node)
    ensures r.loc == n.loc && ForestOnBoard(r.children)
  {
    Node(n.loc, PruneAll(n.children))
  }

  function PruneAll(ns: seq<Node>): (r: seq<Node>)
    ensures ForestOnBoard(r)
  {
    if ns == [] then []
    else if OnBoard(ns[0].loc) then [Prune(ns[0])] + PruneAll(ns[1..])
    else PruneAll(ns[1..])
  }

  /** Pruning keeps, in order, exactly the on-board nodes of the forest's top level. */
  lemma {:induction false} PruneAllLocs(ns: seq<Node>)
    ensures Locs(PruneAll(ns)) == MovesInBounds(Locs(ns))
  {
    if ns != [] {
      PruneAllLocs(ns[1..]);
      assert Locs(ns) == [ns[0].loc] + Locs(ns[1..]);
      if OnBoard(ns[0].loc) {
        LocsAppend([Prune(ns[0])], PruneAll(ns[1..]));
      }
    }
  }

  lemma {:induction false} PruneAllAppend(a: seq<Node>, b: seq<Node>)
    ensures PruneAll(a + b) == PruneAll(a) + PruneAll(b)
  {
    if a == [] {
      assert a + b == b;
    } else {
      assert (a + b)[0] == a[0];
      assert (a + b)[1..] == a[1..] + b;
      PruneAllAppend(a[1..], b);
    }
  }

  /**
   * Off the board stays off the board: below an off-board node every node is
   * off-board too. This is what lets one cut suffice for a whole ray.
   */
  predicate Closed(n: Node)
  {
    forall i :: 0 <= i < |n.children| ==>
      (!OnBoard(n.loc) ==> !OnBoard(n.children[i].loc)) && Closed(n.children[i])
  }

  predicate ClosedForest(ns: seq<Node>)
  {
    forall i :: 0 <= i < |ns| ==> Closed(ns[i])
  }

  lemma {:induction false} PruneOffBoard(ns: seq<Node>)
    requires forall i :: 0 <= i < |ns| ==> !OnBoard(ns[i].loc)
    ensures PruneAll(ns) == []
  {
    if ns != [] {
      PruneOffBoard(ns[1..]);
    }
  }

  /** In a closed forest, pruning and taking children commute. */
  lemma {:induction false} PruneChildrenOf(q: seq<Node>)
    requires ClosedForest(q)
    ensures ClosedForest(ChildrenOf(q))
    ensures ChildrenOf(PruneAll(q)) == PruneAll(ChildrenOf(q))
  {
    if q != [] {
      PruneChildrenOf(q[1..]);
      var cs := q[0].children;
      var rest := ChildrenOf(q[1..]);
      PruneAllAppend(cs, rest);
      forall k | 0 <= k < |cs + rest|
        ensures Closed((cs + rest)[k])
      {
        if k >= |cs| {
          assert (cs + rest)[k] == rest[k - |cs|];
        }
      }
      if OnBoard(q[0].loc) {
        assert PruneAll(q) == [Prune(q[0])] + PruneAll(q[1..]);
        assert ([Prune(q[0])] + PruneAll(q[1..]))[1..] == PruneAll(q[1..]);
      } else {
        PruneOffBoard(cs);
        assert PruneAll(cs) == [];
      }
    }
  }

  /** On a closed forest, pruning the tree prunes its level-order listing. */
  lemma {:induction false} PruneLevelOrder(q: seq<Node>)
    requires ClosedForest(q)
    ensures Locs(LevelOrder(PruneAll(q))) == MovesInBounds(Locs(LevelOrder(q)))
    decreases SizeOf(q)
  {
    if q == [] {
    } else {
      var pq := PruneAll(q);
      SizeOfChildren(q);
      PruneChildrenOf(q);
      PruneLevelOrder(ChildrenOf(q));
      assert LevelOrder(q) == q + LevelOrder(ChildrenOf(q));
      LocsAppend(q, LevelOrder(ChildrenOf(q)));
      MovesInBoundsAppend(Locs(q), Locs(LevelOrder(ChildrenOf(q))));
      PruneAllLocs(q);
      if pq == [] {
        assert PruneAll(ChildrenOf(q)) == ChildrenOf(pq) == [];
      } else {
        assert LevelOrder(pq) == pq + LevelOrder(ChildrenOf(pq));
        LocsAppend(pq, LevelOrder(ChildrenOf(pq)));
      }
    }
  }

  /** Every square listed by a forest standing on the board is on the board. */
  lemma {:induction false} OnBoardLevelOrder(q: seq<Node>)
    requires ForestOnBoard(q)
    ensures forall l :: l in Locs(LevelOrder(q)) ==> OnBoard(l)
    decreases SizeOf(q)
  {
    if q != [] {
      SizeOfChildren(q);
      OnBoardChildrenOf(q);
      OnBoardLevelOrder(ChildrenOf(q));
      assert LevelOrder(q) == q + LevelOrder(ChildrenOf(q));
      LocsAppend(q, LevelOrder(ChildrenOf(q)));
    }
  }

  lemma {:induction false} OnBoardChildrenOf(q: seq<Node>)
    requires ForestOnBoard(q)
    ensures ForestOnBoard(ChildrenOf(q))
  {
    if q != [] {
      OnBoardChildrenOf(q[1..]);
      var cs: seq<Node>, rest: seq<Node> := q[0].children, ChildrenOf(q[1..]);
      forall k | 0 <= k < |cs + rest|
        ensures OnBoard((cs + rest)[k].loc) && ForestOnBoard((cs + rest)[k].children)
      {
        if k >= |cs| {
          assert (cs + rest)[k] == rest[k - |cs|];
        }
      }
    }
  }

  // ------------------------------------------------------- possible squares

  /**
   * The possible-squares tree of a template for a piece standing at `at`:
   * translated, then cut down to the board. The template itself is a value
   * and so is never disturbed.
   */
  function Possible(t: MoveTree, at: Loc): (r: MoveTree)
    ensures r.root.loc == Shift(t.root.loc, at)
    ensures ForestOnBoard(r.root.children)
    ensures forall l :: l in ToA(r) ==> OnBoard(l)
  {
    var r := MoveTree(Prune(Translate(t.root, at)));
    OnBoardLevelOrder(r.root.children);
    r
  }

  /** `possible_moves` for a piece of the given kind standing at `at`. */
  function PossibleMoves(p: Piece, at: Loc): (r: MoveTree)
    ensures r.root.loc == at
    ensures ForestOnBoard(r.root.children)
    ensures forall l :: l in ToA(r) ==> OnBoard(l)
  {
    TemplateRootAtOrigin(p);
    Possible(Template(p), at)
  }

  /**
   * For a template that stays closed once translated, the possible squares
   * are exactly the in-bounds part of the translated template listing, in
   * the same order.
   */
  lemma PossibleIsBoundedShift(t: MoveTree, at: Loc)
    requires ClosedForest(TranslateAll(t.root.children, at))
    ensures ToA(Possible(t, at)) == MovesInBounds(ShiftAll(ToA(t), at))
  {
    var tr := Translate(t.root, at);
    assert tr.children == TranslateAll(t.root.children, at);
    PruneLevelOrder(tr.children);
    TranslateLevelOrder(t.root.children, at);
  }

  // ---------------------------------------------------- closed templates

  predicate UnitDirection(d: Loc)
  {
    -1 <= d.row <= 1 && -1 <= d.col <= 1
  }

  /** `p` lies strictly beyond `at` along `dir`, coordinate by coordinate. */
  predicate Beyond(at: Loc, p: Loc, dir: Loc)
  {
    (dir.row == 0 ==> p.row == at.row) && (dir.row == 1 ==> p.row > at.row) && (dir.row == -1 ==> p.row < at.row) &&
    (dir.col == 0 ==> p.col == at.col) && (dir.col == 1 ==> p.col > at.col) && (dir.col == -1 ==> p.col < at.col)
  }

  /** A ray translated to start at `from` is the ray from the shifted start. */
  lemma {:induction false} TranslateRay(from: Loc, dir: Loc, n: nat, at: Loc)
    requires n >= 1
    ensures Translate(RayNode(from, dir, n), at) == RayNode(Shift(from, at), dir, n)
    decreases n
  {
    var r := RayNode(from, dir, n);
    assert Shift(Shift(from, dir), at) == Shift(Shift(from, at), dir);
    if n > 1 {
      TranslateRay(Shift(from, dir), dir, n - 1, at);
      assert r.children == [RayNode(Shift(from, dir), dir, n - 1)];
      assert Translate(r, at).children == [Translate(r.children[0], at)];
    }
  }

  /** Once a ray leaves the board from an on-board start it does not come back. */
  lemma {:induction false} RayClosed(at: Loc, from: Loc, dir: Loc, n: nat)
    requires OnBoard(at) && UnitDirection(dir) && n >= 1
    requires from == at || Beyond(at, from, dir)
    requires from != at || dir != Origin
    ensures Closed(RayNode(from, dir, n))
    decreases n
  {
    var r := RayNode(from, dir, n);
    if n > 1 {
      RayClosed(at, Shift(from, dir), dir, n - 1);
      assert r.children == [RayNode(Shift(from, dir), dir, n - 1)];
    }
  }

  lemma SliderTemplateClosed(dirs: seq<Loc>, at: Loc)
    requires OnBoard(at) && forall i :: 0 <= i < |dirs| ==> UnitDirection(dirs[i]) && dirs[i] != Origin
    ensures ClosedForest(TranslateAll(RayTemplate(dirs).root.children, at))
  {
    var cs := RayTemplate(dirs).root.children;
    forall i | 0 <= i < |cs|
      ensures Closed(Translate(cs[i], at))
    {
      TranslateRay(Origin, dirs[i], 7, at);
      assert Shift(Origin, at) == at;
      RayClosed(at, at, dirs[i], 7);
    }
  }

  lemma FanClosed(ls: seq<Loc>, at: Loc)
    ensures ClosedForest(TranslateAll(Fan(ls).children, at))
  {
  }

  lemma PawnTemplateClosed(c: Color, n: nat, at: Loc)
    requires OnBoard(at)
    ensures ClosedForest(TranslateAll(PawnTemplate(c, n).root.children, at))
  {
    var cs := PawnTemplate(c, n).root.children;
    var d := Direction(c);
    PawnTemplateShape(c, n);
    forall i | 0 <= i < |cs|
      ensures Closed(Translate(cs[i], at))
    {
      if i == 0 && n == 0 {
        assert cs[0].children == [NewNode(Loc(2 * d, 0))];
        assert Translate(cs[0], at).children == [Translate(NewNode(Loc(2 * d, 0)), at)];
      }
    }
  }

  lemma KnightTemplateClosed(at: Loc)
    ensures ClosedForest(TranslateAll(KnightTemplate().root.children, at))
  {
    FanClosed(KnightOffsets(), at);
  }

  lemma KingTemplateClosed(at: Loc)
    ensures ClosedForest(TranslateAll(KingTemplate().root.children, at))
  {
    FanClosed(KingOffsets(), at);
  }

  lemma RookTemplateClosed(at: Loc)
    requires OnBoard(at)
    ensures ClosedForest(TranslateAll(RookTemplate().root.children, at))
  {
    SliderTemplateClosed(RookDirections(), at);
  }

  lemma BishopTemplateClosed(at: Loc)
    requires OnBoard(at)
    ensures ClosedForest(TranslateAll(BishopTemplate().root.children, at))
  {
    SliderTemplateClosed(BishopDirections(), at);
  }

  lemma QueenDirectionsAreSteps()
    ensures forall i :: 0 <= i < |QueenDirections()| ==> UnitDirection(QueenDirections()[i]) && QueenDirections()[i] != Origin
  {
    KingOffsetsAreTheNeighbours();
    forall i | 0 <= i < |QueenDirections()|
      ensures UnitDirection(QueenDirections()[i]) && QueenDirections()[i] != Origin
    {
      assert QueenDirections()[i] in KingOffsets();
    }
  }

  lemma QueenTemplateClosed(at: Loc)
    requires OnBoard(at)
    ensures ClosedForest(TranslateAll(QueenTemplate().root.children, at))
  {
    QueenDirectionsAreSteps();
    SliderTemplateClosed(QueenDirections(), at);
  }

  /** Every template, translated from a square on the board, is closed. */
  lemma TemplateClosed(p: Piece, at: Loc)
    requires OnBoard(at)
    ensures ClosedForest(TranslateAll(Template(p).root.children, at))
  {
    match p.kind
    case Pawn(n) => PawnTemplateClosed(p.color, n, at);
    case Knight => KnightTemplateClosed(at);
    case King(_) => KingTemplateClosed(at);
    case Rook => RookTemplateClosed(at);
    case Bishop => BishopTemplateClosed(at);
    case Queen => QueenTemplateClosed(at);
  }

  /**
   * For every piece standing on the board, `possible_moves.to_a` is the
   * translated template listing with the off-board squares dropped.
   */
  lemma PossibleMovesAreBoundedTemplate(p: Piece, at: Loc)
    requires OnBoard(at)
    ensures ToA(PossibleMoves(p, at)) == MovesInBounds(ShiftAll(ToA(Template(p)), at))
  {
    TemplateClosed(p, at);
    PossibleIsBoundedShift(Template(p), at);
  }

  // -------------------------------------------------------------- examples
  // The examples take their pieces and squares as parameters pinned by
  // `requires`, which keeps the verifier from unfolding whole trees eagerly.

  /** An unmoved white pawn on [1, 0]: both advances and the right diagonal. */
  lemma WhitePawnExample(p: Piece, at: Loc)
    requires p == Piece(Pawn(0), White) && at == Loc(1, 0)
    ensures ToA(PossibleMoves(p, at)) == [Loc(2, 0), Loc(2, 1), Loc(3, 0)]
  {
    var template := ToA(Template(p));
    PawnTemplateShape(p.color, 0);
    assert template == [Loc(1, 0), Loc(1, 1), Loc(1, -1), Loc(2, 0)];
    var shifted := ShiftAll(template, at);
    assert shifted == [Loc(2, 0), Loc(2, 1), Loc(2, -1), Loc(3, 0)];
    assert MovesInBounds([Loc(2, 0), Loc(2, 1), Loc(2, -1), Loc(3, 0)]) == [Loc(2, 0), Loc(2, 1), Loc(3, 0)];
    PossibleMovesAreBoundedTemplate(p, at);
  }

  /** An unmoved black pawn on [6, 1]: every template square is on the board. */
  lemma BlackPawnExample(p: Piece, at: Loc)
    requires p == Piece(Pawn(0), Black) && at == Loc(6, 1)
    ensures ToA(PossibleMoves(p, at)) == [Loc(5, 1), Loc(5, 2), Loc(5, 0), Loc(4, 1)]
  {
    var template := ToA(Template(p));
    PawnTemplateShape(p.color, 0);
    assert template == [Loc(-1, 0), Loc(-1, 1), Loc(-1, -1), Loc(-2, 0)];
    var shifted := ShiftAll(template, at);
    assert shifted == [Loc(5, 1), Loc(5, 2), Loc(5, 0), Loc(4, 1)];
    MovesInBoundsKeepsBoard(shifted);
    PossibleMovesAreBoundedTemplate(p, at);
  }

  lemma {:induction false} MovesInBoundsKeepsBoard(ms: seq<Loc>)
    requires forall i :: 0 <= i < |ms| ==> OnBoard(ms[i])
    ensures MovesInBounds(ms) == ms
  {
    if ms != [] {
      MovesInBoundsKeepsBoard(ms[1..]);
      assert [ms[0]] + ms[1..] == ms;
    }
  }

  // ------------------------------------------------------------ single rays

  /** A tree holding one ray only, as the ray examples build it. */
  function RayTree(dir: Loc): MoveTree
  {
    MoveTree(Node(Origin, [RayNode(Origin, dir, 7)]))
  }

  lemma {:induction false} ShiftRay(from: Loc, dir: Loc, n: nat, at: Loc)
    ensures ShiftAll(RayFrom(from, dir, n), at) == RayFrom(Shift(from, at), dir, n)
    decreases n
  {
    if n > 0 {
      ShiftRay(Shift(from, dir), dir, n - 1, at);
      assert Shift(Shift(from, dir), at) == Shift(Shift(from, at), dir);
      ShiftAllAppend([Shift(from, dir)], RayFrom(Shift(from, dir), dir, n - 1), at);
    }
  }

  /** A lone ray lists, nearest first, the on-board squares along it. */
  lemma RayTreeMoves(dir: Loc, at: Loc)
    requires OnBoard(at) && UnitDirection(dir) && dir != Origin
    ensures ToA(Possible(RayTree(dir), at)) == MovesInBounds(RayFrom(at, dir, 7))
  {
    var t := RayTree(dir);
    var ray := RayNode(Origin, dir, 7);
    TranslateRay(Origin, dir, 7, at);
    assert Shift(Origin, at) == at;
    RayClosed(at, at, dir, 7);
    assert TranslateAll(t.root.children, at) == [Translate(ray, at)];
    PossibleIsBoundedShift(t, at);
    RayNodeChain(Origin, dir, 7);
    ChainLevelOrder(ray);
    assert ToA(t) == Locs(LevelOrder([ray]));
    ShiftRay(Origin, dir, 7, at);
  }

  /** Past the first off-board square a ray from the board never returns. */
  lemma {:induction false} RayOffBoard(at: Loc, from: Loc, dir: Loc, n: nat)
    requires OnBoard(at) && UnitDirection(dir)
    requires from == at || Beyond(at, from, dir)
    requires from != at || dir != Origin
    requires !OnBoard(Shift(from, dir))
    ensures MovesInBounds(RayFrom(from, dir, n)) == []
    decreases n
  {
    if n > 1 {
      RayOffBoard(at, Shift(from, dir), dir, n - 1);
    }
  }

  /**
   * The on-board part of a ray leaving an on-board square is an unbroken
   * prefix of it: the ray is cut once, at its first off-board square.
   */
  lemma {:induction false} RayStopsAtEdge(at: Loc, from: Loc, dir: Loc, n: nat)
    requires OnBoard(at) && UnitDirection(dir)
    requires from == at || Beyond(at, from, dir)
    requires from != at || dir != Origin
    ensures exists m :: 0 <= m <= n && MovesInBounds(RayFrom(from, dir, n)) == RayFrom(from, dir, m)
    decreases n
  {
    if n == 0 {
      assert MovesInBounds(RayFrom(from, dir, n)) == RayFrom(from, dir, 0);
    } else if !OnBoard(Shift(from, dir)) {
      RayOffBoard(at, from, dir, n);
      assert MovesInBounds(RayFrom(from, dir, n)) == RayFrom(from, dir, 0);
    } else {
      RayStopsAtEdge(at, Shift(from, dir), dir, n - 1);
      var m :| 0 <= m <= n - 1 && MovesInBounds(RayFrom(Shift(from, dir), dir, n - 1)) == RayFrom(Shift(from, dir), dir, m);
      assert MovesInBounds(RayFrom(from, dir, n)) == RayFrom(from, dir, m + 1);
    }
  }

  /** The seven squares of a ray, spelled out step by step. */
  lemma RaySevenSteps(from: Loc, dir: Loc)
    ensures var s1 := Shift(from, dir); var s2 := Shift(s1, dir); var s3 := Shift(s2, dir);
            var s4 := Shift(s3, dir); var s5 := Shift(s4, dir); var s6 := Shift(s5, dir);
            RayFrom(from, dir, 7) == [s1, s2, s3, s4, s5, s6, Shift(s6, dir)]
  {
    var s1 := Shift(from, dir);
    var s2 := Shift(s1, dir);
    var s3 := Shift(s2, dir);
    var s4 := Shift(s3, dir);
    var s5 := Shift(s4, dir);
    var s6 := Shift(s5, dir);
    var s7 := Shift(s6, dir);
    assert RayFrom(s6, dir, 1) == [s7];
    assert RayFrom(s5, dir, 2) == [s6, s7];
    assert RayFrom(s4, dir, 3) == [s5, s6, s7];
    assert RayFrom(s3, dir, 4) == [s4, s5, s6, s7];
    assert RayFrom(s2, dir, 5) == [s3, s4, s5, s6, s7];
    assert RayFrom(s1, dir, 6) == [s2, s3, s4, s5, s6, s7];
  }

  /** `b` is `a` or lies beyond it along `dir`, coordinate by coordinate. */
  predicate AtOrBeyond(a: Loc, b: Loc, dir: Loc)
  {
    (dir.row == 0 ==> b.row == a.row) && (dir.row == 1 ==> b.row >= a.row) && (dir.row == -1 ==> b.row <= a.row) &&
    (dir.col == 0 ==> b.col == a.col) && (dir.col == 1 ==> b.col >= a.col) && (dir.col == -1 ==> b.col <= a.col)
  }

  /** Every square of a ray lies between its start and its last square. */
  lemma {:induction false} RayBetween(from: Loc, dir: Loc, n: nat)
    requires UnitDirection(dir) && n >= 1
    ensures forall i :: 0 <= i < n ==>
              AtOrBeyond(from, RayFrom(from, dir, n)[i], dir) && AtOrBeyond(RayFrom(from, dir, n)[i], RayFrom(from, dir, n)[n - 1], dir)
    decreases n
  {
    var s := Shift(from, dir);
    var r := RayFrom(from, dir, n);
    if n > 1 {
      RayBetween(s, dir, n - 1);
      var rest := RayFrom(s, dir, n - 1);
      assert r == [s] + rest;
      assert r[n - 1] == rest[n - 2];
      assert AtOrBeyond(s, rest[0], dir) && AtOrBeyond(rest[0], rest[n - 2], dir);
    }
  }

  /** A ray whose last square is still on the board keeps every square. */
  lemma FullRay(dir: Loc, at: Loc)
    requires OnBoard(at) && UnitDirection(dir) && dir != Origin
    requires OnBoard(RayFrom(at, dir, 7)[6])
    ensures ToA(Possible(RayTree(dir), at)) == RayFrom(at, dir, 7)
  {
    var ray := RayFrom(at, dir, 7);
    RayBetween(at, dir, 7);
    forall i | 0 <= i < 7
      ensures OnBoard(ray[i])
    {
      assert AtOrBeyond(at, ray[i], dir) && AtOrBeyond(ray[i], ray[6], dir);
    }
    MovesInBoundsKeepsBoard(ray);
    RayTreeMoves(dir, at);
  }

  /** A ray whose first square is off the board yields nothing. */
  lemma EmptyRay(dir: Loc, at: Loc)
    requires OnBoard(at) && UnitDirection(dir) && dir != Origin
    requires !OnBoard(Shift(at, dir))
    ensures ToA(Possible(RayTree(dir), at)) == []
  {
    RayTreeMoves(dir, at);
    RayOffBoard(at, at, dir, 7);
  }

  // The examples below pin the direction and the square through `requires`.

  /** From [0, 0] the rook's upward ray runs the whole file. */
  lemma UpFromCorner(dir: Loc, at: Loc)
    requires dir == Loc(1, 0) && at == Loc(0, 0)
    ensures ToA(Possible(RayTree(dir), at)) ==
              [Loc(1, 0), Loc(2, 0), Loc(3, 0), Loc(4, 0), Loc(5, 0), Loc(6, 0), Loc(7, 0)]
  {
    RaySevenSteps(at, dir);
    assert RayFrom(at, dir, 7) == [Loc(1, 0), Loc(2, 0), Loc(3, 0), Loc(4, 0), Loc(5, 0), Loc(6, 0), Loc(7, 0)];
    FullRay(dir, at);
  }

  /** From [0, 0] the rook's rightward ray runs the whole rank. */
  lemma RightFromCorner(dir: Loc, at: Loc)
    requires dir == Loc(0, 1) && at == Loc(0, 0)
    ensures ToA(Possible(RayTree(dir), at)) ==
              [Loc(0, 1), Loc(0, 2), Loc(0, 3), Loc(0, 4), Loc(0, 5), Loc(0, 6), Loc(0, 7)]
  {
    RaySevenSteps(at, dir);
    assert RayFrom(at, dir, 7) == [Loc(0, 1), Loc(0, 2), Loc(0, 3), Loc(0, 4), Loc(0, 5), Loc(0, 6), Loc(0, 7)];
    FullRay(dir, at);
  }

  /** From [7, 7] the rook's downward ray runs the whole file. */
  lemma DownFromFarCorner(dir: Loc, at: Loc)
    requires dir == Loc(-1, 0) && at == Loc(7, 7)
    ensures ToA(Possible(RayTree(dir), at)) ==
              [Loc(6, 7), Loc(5, 7), Loc(4, 7), Loc(3, 7), Loc(2, 7), Loc(1, 7), Loc(0, 7)]
  {
    RaySevenSteps(at, dir);
    assert RayFrom(at, dir, 7) == [Loc(6, 7), Loc(5, 7), Loc(4, 7), Loc(3, 7), Loc(2, 7), Loc(1, 7), Loc(0, 7)];
    FullRay(dir, at);
  }

  /** From [7, 7] the rook's leftward ray runs the whole rank. */
  lemma LeftFromFarCorner(dir: Loc, at: Loc)
    requires dir == Loc(0, -1) && at == Loc(7, 7)
    ensures ToA(Possible(RayTree(dir), at)) ==
              [Loc(7, 6), Loc(7, 5), Loc(7, 4), Loc(7, 3), Loc(7, 2), Loc(7, 1), Loc(7, 0)]
  {
    RaySevenSteps(at, dir);
    assert RayFrom(at, dir, 7) == [Loc(7, 6), Loc(7, 5), Loc(7, 4), Loc(7, 3), Loc(7, 2), Loc(7, 1), Loc(7, 0)];
    FullRay(dir, at);
  }

  /** From [0, 0] the bishop's main diagonal runs to [7, 7]. */
  lemma DiagonalFromCorner(dir: Loc, at: Loc)
    requires dir == Loc(1, 1) && at == Loc(0, 0)
    ensures ToA(Possible(RayTree(dir), at)) ==
              [Loc(1, 1), Loc(2, 2), Loc(3, 3), Loc(4, 4), Loc(5, 5), Loc(6, 6), Loc(7, 7)]
  {
    RaySevenSteps(at, dir);
    assert RayFrom(at, dir, 7) == [Loc(1, 1), Loc(2, 2), Loc(3, 3), Loc(4, 4), Loc(5, 5), Loc(6, 6), Loc(7, 7)];
    FullRay(dir, at);
  }

  /** From [7, 7] the backward diagonal runs to [0, 0]. */
  lemma DiagonalFromFarCorner(dir: Loc, at: Loc)
    requires dir == Loc(-1, -1) && at == Loc(7, 7)
    ensures ToA(Possible(RayTree(dir), at)) ==
              [Loc(6, 6), Loc(5, 5), Loc(4, 4), Loc(3, 3), Loc(2, 2), Loc(1, 1), Loc(0, 0)]
  {
    RaySevenSteps(at, dir);
    assert RayFrom(at, dir, 7) == [Loc(6, 6), Loc(5, 5), Loc(4, 4), Loc(3, 3), Loc(2, 2), Loc(1, 1), Loc(0, 0)];
    FullRay(dir, at);
  }

  /** From [7, 0] the anti-diagonal runs to [0, 7]. */
  lemma AntiDiagonalFromSideCorner(dir: Loc, at: Loc)
    requires dir == Loc(-1, 1) && at == Loc(7, 0)
    ensures ToA(Possible(RayTree(dir), at)) ==
              [Loc(6, 1), Loc(5, 2), Loc(4, 3), Loc(3, 4), Loc(2, 5), Loc(1, 6), Loc(0, 7)]
  {
    RaySevenSteps(at, dir);
    assert RayFrom(at, dir, 7) == [Loc(6, 1), Loc(5, 2), Loc(4, 3), Loc(3, 4), Loc(2, 5), Loc(1, 6), Loc(0, 7)];
    FullRay(dir, at);
  }

  /** Rays pointing off a corner are empty. */
  lemma RaysOffTheCorners(dir: Loc, at: Loc)
    requires (at == Loc(0, 0) && dir == Loc(-1, -1)) || (at == Loc(7, 7) && dir == Loc(1, 1)) ||
             (at == Loc(7, 0) && dir == Loc(-1, -1)) || (at == Loc(0, 7) && dir == Loc(-1, -1))
    ensures ToA(Possible(RayTree(dir), at)) == []
  {
    EmptyRay(dir, at);
  }

  // ---------------------------------------------------------------- capture

  /**
   * `can_capture?`: never a piece of one's own colour. A pawn takes only
   * the square one row ahead and one column to either side; every other
   * kind takes an enemy standing on one of its possible squares. A blank
   * square is not a piece and is handled by the callers.
   */
  predicate CanCapture(p: Piece, at: Loc, q: Piece, target: Loc)
  {
    if q.color == p.color then false
    else if p.kind.Pawn? then
      target.row == at.row + Direction(p.color) && (target.col == at.col + 1 || target.col == at.col - 1)
    else target in ToA(PossibleMoves(p, at))
  }

  /** The pawn rule spelled out both ways. */
  lemma PawnCaptureRule(p: Piece, at: Loc, q: Piece, target: Loc)
    requires p.kind.Pawn?
    ensures CanCapture(p, at, q, target) <==>
              q.color != p.color && target.row - at.row == Direction(p.color) &&
              (target.col - at.col == 1 || target.col - at.col == -1)
  {
  }

  /** No kind captures its own colour. */
  lemma NoSelfCapture(p: Piece, at: Loc, q: Piece, target: Loc)
    requires q.color == p.color
    ensures !CanCapture(p, at, q, target)
  {
  }

  /** A shifted listing holds a square exactly when the listing holds its offset. */
  lemma ShiftAllMember(ls: seq<Loc>, at: Loc, target: Loc)
    ensures target in ShiftAll(ls, at) <==> Loc(target.row - at.row, target.col - at.col) in ls
  {
    var d := Loc(target.row - at.row, target.col - at.col);
    if d in ls {
      var i :| 0 <= i < |ls| && ls[i] == d;
      assert ShiftAll(ls, at)[i] == target;
    }
  }

  /** A king's or a knight's possible squares are the on-board squares at one of its template's offsets. */
  lemma FanPossibleSquares(p: Piece, at: Loc, target: Loc)
    requires OnBoard(at) && (p.kind.King? || p.kind.Knight?)
    ensures target in ToA(PossibleMoves(p, at)) <==>
              OnBoard(target) && Loc(target.row - at.row, target.col - at.col) in ToA(Template(p))
  {
    PossibleMovesAreBoundedTemplate(p, at);
    MovesInBoundsSpec(ShiftAll(ToA(Template(p)), at));
    ShiftAllMember(ToA(Template(p)), at, target);
  }

  /** The offsets a king's or a knight's template lists: the unit steps or the L-jumps. */
  lemma FanOffsets(p: Piece, d: Loc)
    requires p.kind.King? || p.kind.Knight?
    ensures d in ToA(Template(p)) <==> if p.kind.King? then Unit(d) else LShape(d)
  {
    if p.kind.King? {
      assert Template(p) == KingTemplate();
      KingTemplateShape();
    } else {
      assert Template(p) == KnightTemplate();
      KnightTemplateShape();
    }
  }

  /**
   * A king or a knight captures exactly an enemy standing on a board square
   * one king step, or one knight jump, away from it: its possible squares
   * are its template's offsets placed on its square and cut to the board.
   */
  lemma FanCaptureRule(p: Piece, at: Loc, q: Piece, target: Loc)
    requires OnBoard(at) && (p.kind.King? || p.kind.Knight?)
    ensures CanCapture(p, at, q, target) <==>
              && q.color != p.color
              && OnBoard(target)
              && (if p.kind.King? then Unit(Loc(target.row - at.row, target.col - at.col))
                  else LShape(Loc(target.row - at.row, target.col - at.col)))
  {
    FanPossibleSquares(p, at, target);
    FanOffsets(p, Loc(target.row - at.row, target.col - at.col));
  }
}

=== FILE: notation.dfy ===
/**
 * The text side of lib/chess_game.rb: square names such as "e4" read into
 * board coordinates and written back (`convert_coordinates`,
 * `convert_algebraic_coordinates`), a move typed as "a2a4" or "a2 to a4"
 * (`parse_move`), and the classification of a typed line as a save
 * command, a help request or a move (`player_input_type`).
 */
module Notation {
  import opened Util
  import opened MoveTreeNodes
  import opened Pieces

  // --------------------------------------------------------------- squares

  /**
   * What `convert_coordinates` returns: a row, and a column that is nil
   * when the file letter is not one of a to h.
   */
  datatype Coordinates = Coordinates(row: int, col: Option<int>)

  /** The board square the coordinates name, when the file letter was known. */
  function ToLoc(c: Coordinates): Option<Loc>
  {
    match c.col
    case Some(col) => Some(Loc(c.row, col))
    case None => None
  }

  /** `BOARD_TO_COORDINATES`: files a to h are columns 0 to 7. */
  function FileColumn(ch: char): (r: Option<int>)
    ensures r.Some? <==> 'a' <= ch <= 'h'
    ensures r.Some? ==> 0 <= r.value < 8
  {
    if 'a' <= ch <= 'h' then Some(ch as int - 'a' as int) else None
  }

  /** `COORDINATES_TO_BOARD`: the inverse table, from columns 0 to 7 back to files. */
  function FileName(col: int): (r: string)
    ensures |r| <= 1
    ensures 0 <= col < 8 <==> |r| == 1
  {
    if 0 <= col < 8 then [('a' as int + col) as char] else ""
  }

  /** Ruby's `to_i` on one character: its value if it is a digit, else 0. */
  function DigitValue(ch: char): (r: int)
    ensures 0 <= r <= 9
  {
    if '0' <= ch <= '9' then ch as int - '0' as int else 0
  }

  /** The decimal numeral of a natural number. */
  function NatDecimal(n: nat): (r: string)
    ensures |r| >= 1
    ensures forall i :: 0 <= i < |r| ==> '0' <= r[i] <= '9'
    decreases n
  {
    var last := [('0' as int + n % 10) as char];
    if n < 10 then last else NatDecimal(n / 10) + last
  }

  /** Ruby's `to_s` of an integer. */
  function Decimal(n: int): string
  {
    if n < 0 then "-" + NatDecimal(-n) else NatDecimal(n)
  }

  /**
   * `convert_coordinates`: the rank digit less one is the row, the file
   * letter the column. A missing or non-digit rank reads as 0 and so gives
   * row -1; a missing or unknown file gives no column.
   */
  function ConvertCoordinates(cs: string): (r: Coordinates)
    ensures -1 <= r.row <= 8
    ensures r.col.Some? <==> |cs| > 0 && 'a' <= cs[0] <= 'h'
  {
    var rank := if |cs| > 1 then DigitValue(cs[1]) else 0;
    var file := if |cs| > 0 then FileColumn(cs[0]) else None;
    Coordinates(rank - 1, file)
  }

  /** `convert_algebraic_coordinates`: the file letter followed by the rank number. */
  function ConvertAlgebraic(l: Loc): string
  {
    FileName(l.col) + Decimal(l.row + 1)
  }

  /** A square name as a player types it: a file letter a to h and a rank digit 1 to 8. */
  predicate SquareName(cs: string)
  {
    |cs| == 2 && 'a' <= cs[0] <= 'h' && '1' <= cs[1] <= '8'
  }

  /** The name of a square on the board is two characters: its file letter and its rank digit. */
  lemma ConvertAlgebraicOnBoard(l: Loc)
    requires OnBoard(l)
    ensures SquareName(ConvertAlgebraic(l))
    ensures ConvertAlgebraic(l) == [('a' as int + l.col) as char, ('1' as int + l.row) as char]
  {
    assert NatDecimal(l.row + 1) == [('0' as int + (l.row + 1)) as char];
  }

  /** Naming a square on the board and reading the name back gives the square. */
  lemma CoordinatesOfName(l: Loc)
    requires OnBoard(l)
    ensures ToLoc(ConvertCoordinates(ConvertAlgebraic(l))) == Some(l)
  {
    ConvertAlgebraicOnBoard(l);
  }

  /** Reading a square name and naming the square gives the name back, and the square is on the board. */
  lemma NameOfCoordinates(cs: string)
    requires SquareName(cs)
    ensures ToLoc(ConvertCoordinates(cs)).Some?
    ensures OnBoard(ToLoc(ConvertCoordinates(cs)).value)
    ensures ConvertAlgebraic(ToLoc(ConvertCoordinates(cs)).value) == cs
  {
    var l := ToLoc(ConvertCoordinates(cs)).value;
    ConvertAlgebraicOnBoard(l);
    assert ConvertAlgebraic(l)[0] == cs[0] && ConvertAlgebraic(l)[1] == cs[1];
  }

  /** Distinct square names read as distinct squares. */
  lemma ConvertCoordinatesInjective(cs: string, ds: string)
    requires SquareName(cs) && SquareName(ds)
    requires ConvertCoordinates(cs) == ConvertCoordinates(ds)
    ensures cs == ds
  {
    NameOfCoordinates(cs);
    NameOfCoordinates(ds);
  }

  // ------------------------------------------------------------------ moves

  /**
   * `parse_move`: four characters are two square names back to back; eight
   * characters are a square name, four characters ignored and a square
   * name; any other length is no move.
   */
  function ParseMove(input: string): (r: Option<(Coordinates, Coordinates)>)
    ensures r.Some? <==> |input| == 4 || |input| == 8
  {
    if |input| == 4 then Some((ConvertCoordinates(input[0..2]), ConvertCoordinates(input[2..4])))
    else if |input| == 8 then Some((ConvertCoordinates(input[0..2]), ConvertCoordinates(input[6..8])))
    else None
  }

  /** Both typed forms of a move between two squares on the board parse back to those squares. */
  lemma ParseMoveRoundTrip(from: Loc, to: Loc)
    requires OnBoard(from) && OnBoard(to)
    ensures var f, t := ConvertAlgebraic(from), ConvertAlgebraic(to);
            && ParseMove(f + t).Some?
            && ToLoc(ParseMove(f + t).value.0) == Some(from) && ToLoc(ParseMove(f + t).value.1) == Some(to)
            && ParseMove(f + " to " + t).Some?
            && ToLoc(ParseMove(f + " to " + t).value.0) == Some(from) && ToLoc(ParseMove(f + " to " + t).value.1) == Some(to)
  {
    var f, t := ConvertAlgebraic(from), ConvertAlgebraic(to);
    ConvertAlgebraicOnBoard(from);
    ConvertAlgebraicOnBoard(to);
    CoordinatesOfName(from);
    CoordinatesOfName(to);
    assert (f + t)[0..2] == f && (f + t)[2..4] == t;
    var long := f + " to " + t;
    assert long[0..2] == f && long[6..8] == t;
  }

  /** The documented examples: a2 to a4 and h8 to e2, each typed in both forms; other lengths are no move. */
  lemma ParseMoveExamples()
    ensures ParseMove("a2a4") == Some((Coordinates(1, Some(0)), Coordinates(3, Some(0))))
    ensures ParseMove("h8e2") == Some((Coordinates(7, Some(7)), Coordinates(1, Some(4))))
    ensures ParseMove("a2 to a4") == Some((Coordinates(1, Some(0)), Coordinates(3, Some(0))))
    ensures ParseMove("h8 to e2") == Some((Coordinates(7, Some(7)), Coordinates(1, Some(4))))
    ensures ParseMove("a2 a4") == None
  {
    assert "a2a4"[0..2] == "a2" && "a2a4"[2..4] == "a4";
    assert "h8e2"[0..2] == "h8" && "h8e2"[2..4] == "e2";
    assert "a2 to a4"[0..2] == "a2" && "a2 to a4"[6..8] == "a4";
    assert "h8 to e2"[0..2] == "h8" && "h8 to e2"[6..8] == "e2";
  }

  // ----------------------------------------------------------- input kinds

  /** `w` occurs in `s` as a contiguous piece (`String#include?`). */
  function Contains(s: string, w: string): bool
    decreases |s|
  {
    if |s| < |w| then false
    else s[..|w|] == w || Contains(s[1..], w)
  }

  /** `w` occurs in `s` starting at position `i`. */
  predicate OccursAt(s: string, w: string, i: int)
  {
    0 <= i && i + |w| <= |s| && s[i..i + |w|] == w
  }

  /** `Contains` finds `w` exactly when it starts at some position of `s`. */
  lemma {:induction false} ContainsSpec(s: string, w: string)
    ensures Contains(s, w) <==> exists i :: OccursAt(s, w, i)
    decreases |s|
  {
    if |s| < |w| {
      assert forall i :: !OccursAt(s, w, i);
    } else if s[..|w|] == w {
      assert OccursAt(s, w, 0);
    } else {
      ContainsSpec(s[1..], w);
      if Contains(s[1..], w) {
        var i :| OccursAt(s[1..], w, i);
        assert s[i + 1..i + 1 + |w|] == s[1..][i..i + |w|];
        assert OccursAt(s, w, i + 1);
      }
      if exists i :: OccursAt(s, w, i) {
        var i :| OccursAt(s, w, i);
        assert i != 0;
        assert s[1..][i - 1..i - 1 + |w|] == s[i..i + |w|];
        assert OccursAt(s[1..], w, i - 1);
      }
    }
  }

  /** Every character of a word that occurs in `s` is a character of `s`. */
  lemma ContainsHasChars(s: string, w: string)
    ensures Contains(s, w) ==> forall k :: 0 <= k < |w| ==> w[k] in s
  {
    ContainsSpec(s, w);
    if Contains(s, w) {
      var i :| OccursAt(s, w, i);
      forall k | 0 <= k < |w|
        ensures w[k] in s
      {
        assert w[k] == s[i..i + |w|][k] == s[i + k];
      }
    }
  }

  datatype InputKind = SaveInput | HelpInput | MoveInput

  /** The words that save and end the game. */
  function SaveWords(): seq<string>
  {
    ["save", "quit", "exit", "end"]
  }

  /** The words that ask for help. */
  function HelpWords(): seq<string>
  {
    ["help", "tutorial", "?"]
  }

  /** Some word of `ws` occurs in `s`. */
  predicate ContainsAny(s: string, ws: seq<string>)
  {
    exists i :: 0 <= i < |ws| && Contains(s, ws[i])
  }

  /**
   * `player_input_type`: a line holding a save word anywhere is a save, else
   * one holding a help word is a help request, else it is a move.
   */
  function PlayerInputType(input: string): (r: InputKind)
    ensures r == SaveInput <==> ContainsAny(input, SaveWords())
    ensures r == HelpInput <==> !ContainsAny(input, SaveWords()) && ContainsAny(input, HelpWords())
    ensures r == MoveInput <==> !ContainsAny(input, SaveWords()) && !ContainsAny(input, HelpWords())
  {
    if FirstWhere(SaveWords(), w => Contains(input, w), 0).Some? then SaveInput
    else if FirstWhere(HelpWords(), w => Contains(input, w), 0).Some? then HelpInput
    else MoveInput
  }

  /** A word is found inside longer text: "send" holds "end" and so saves the game. */
  lemma SendIsSave()
    ensures PlayerInputType("send") == SaveInput
  {
    assert Contains("send", "end") by { assert "send"[1..][..3] == "end"; }
    assert SaveWords()[3] == "end";
  }

  /** "?" anywhere in a line without a save word asks for help. */
  lemma QuestionIsHelp()
    ensures PlayerInputType("what?") == HelpInput
  {
    var saves := SaveWords();
    assert Contains("what?", "?") by { assert "what?"[4..][..1] == "?"; }
    assert HelpWords()[2] == "?";
    forall i | 0 <= i < |saves|
      ensures !Contains("what?", saves[i])
    {
      ContainsHasChars("what?", saves[i]);
      assert saves[i][|saves[i]| - 2] !in "what?";
    }
  }

  /** A typed move holds none of the words. */
  lemma TypedMoveIsMove()
    ensures PlayerInputType("e2e4") == MoveInput
  {
    var saves, helps := SaveWords(), HelpWords();
    forall i | 0 <= i < |saves|
      ensures !Contains("e2e4", saves[i])
    {
      ContainsHasChars("e2e4", saves[i]);
      assert saves[i][|saves[i]| - 2] !in "e2e4";
    }
    forall i | 0 <= i < |helps|
      ensures !Contains("e2e4", helps[i])
    {
      ContainsHasChars("e2e4", helps[i]);
      assert helps[i][0] !in "e2e4";
    }
  }
}

=== FILE: pawn_legality.dfy ===
/**
 * `pawn_legal_moves` and `get_en_passant_moves` of lib/chess_game.rb. The
 * pawn's possible-squares tree is trimmed in the source's order: each
 * diagonal unless capturable, the double step if occupied, the forward
 * square if occupied; the en passant squares are appended after.
 */
module PawnLegality {
  import opened Util
  import opened MoveTreeNodes
  import opened MoveTrees
  import opened Pieces
  import opened Templates
  import opened Movement
  import opened Boards
  import opened Legality

  // ----------------------------------------------------- the pawn's squares

  function Forward(p: Piece, at: Loc): Loc
  {
    Loc(at.row + Direction(p.color), at.col)
  }

  function RightDiagonal(p: Piece, at: Loc): Loc
  {
    Loc(at.row + Direction(p.color), at.col + 1)
  }

  function LeftDiagonal(p: Piece, at: Loc): Loc
  {
    Loc(at.row + Direction(p.color), at.col - 1)
  }

  function DoubleStep(p: Piece, at: Loc): Loc
  {
    Loc(at.row + 2 * Direction(p.color), at.col)
  }

  /** The diagonal leaves that stay on the board, right one first. */
  function Diagonals(p: Piece, at: Loc): seq<Node>
  {
    (if OnBoard(RightDiagonal(p, at)) then [NewNode(RightDiagonal(p, at))] else []) +
    (if OnBoard(LeftDiagonal(p, at)) then [NewNode(LeftDiagonal(p, at))] else [])
  }

  /** The forward node: it carries the double step while the pawn is unmoved and that square is on the board. */
  function ForwardNode(p: Piece, at: Loc): Node
    requires p.kind.Pawn?
  {
    Node(Forward(p, at), if p.kind.moveCount == 0 && OnBoard(DoubleStep(p, at)) then [NewNode(DoubleStep(p, at))] else [])
  }

  /** The root's children of a pawn's possible-squares tree. */
  function PawnForest(p: Piece, at: Loc): seq<Node>
    requires p.kind.Pawn?
  {
    if OnBoard(Forward(p, at)) then [ForwardNode(p, at)] + Diagonals(p, at) else []
  }

  /** The pawn template's root children, node by node. */
  lemma PawnTemplateChildren(c: Color, n: nat)
    ensures var d := Direction(c);
            PawnTemplate(c, n).root.children ==
              [Node(Loc(d, 0), if n == 0 then [NewNode(Loc(2 * d, 0))] else []), NewNode(Loc(d, 1)), NewNode(Loc(d, -1))]
  {
    PawnTemplateShape(c, n);
    var d := Direction(c);
    var cs := PawnTemplate(c, n).root.children;
    assert cs[0].loc == Loc(d, 0) && cs[1].loc == Loc(d, 1) && cs[2].loc == Loc(d, -1);
  }

  /** Placing the pawn template at `at`, before cutting it to the board. */
  lemma PawnTemplatePlaced(p: Piece, at: Loc)
    requires p.kind.Pawn?
    ensures var dc := if p.kind.moveCount == 0 then [NewNode(DoubleStep(p, at))] else [];
            TranslateAll(PawnTemplate(p.color, p.kind.moveCount).root.children, at) ==
              [Node(Forward(p, at), dc), NewNode(RightDiagonal(p, at)), NewNode(LeftDiagonal(p, at))]
  {
    var n := p.kind.moveCount;
    var d := Direction(p.color);
    PawnTemplateChildren(p.color, n);
    var dc := if n == 0 then [NewNode(Loc(2 * d, 0))] else [];
    var cs := [Node(Loc(d, 0), dc), NewNode(Loc(d, 1)), NewNode(Loc(d, -1))];
    var dc' := if n == 0 then [NewNode(DoubleStep(p, at))] else [];
    assert TranslateAll(dc, at) == dc';
    var tr := TranslateAll(cs, at);
    assert tr[0] == Node(Forward(p, at), dc');
    assert tr[1] == NewNode(RightDiagonal(p, at));
    assert tr[2] == NewNode(LeftDiagonal(p, at));
  }

  /** Cutting the placed pawn template to the board. */
  lemma PawnTemplatePruned(p: Piece, at: Loc)
    requires p.kind.Pawn? && OnBoard(at)
    ensures var dc := if p.kind.moveCount == 0 then [NewNode(DoubleStep(p, at))] else [];
            PruneAll([Node(Forward(p, at), dc), NewNode(RightDiagonal(p, at)), NewNode(LeftDiagonal(p, at))]) ==
              PawnForest(p, at)
  {
    var dc := if p.kind.moveCount == 0 then [NewNode(DoubleStep(p, at))] else [];
    var tr := [Node(Forward(p, at), dc), NewNode(RightDiagonal(p, at)), NewNode(LeftDiagonal(p, at))];
    assert PruneAll(dc) == ForwardNode(p, at).children;
    assert PruneAll(tr[2..]) == if OnBoard(LeftDiagonal(p, at)) then [NewNode(LeftDiagonal(p, at))] else [];
    assert PruneAll(tr[1..]) == Diagonals(p, at);
  }

  /**
   * The pawn's possible squares: forward with the double step below it
   * while unmoved, then the diagonals, each kept only on the board; a pawn
   * whose forward square is off the board has none at all.
   */
  lemma PawnPossibleShape(p: Piece, at: Loc)
    requires p.kind.Pawn? && OnBoard(at)
    ensures PossibleMoves(p, at).root.children == PawnForest(p, at)
  {
    var t := PawnTemplate(p.color, p.kind.moveCount);
    assert Template(p) == t;
    var tr := TranslateAll(t.root.children, at);
    assert Translate(t.root, at).children == tr;
    assert PossibleMoves(p, at).root.children == PruneAll(tr);
    PawnTemplatePlaced(p, at);
    PawnTemplatePruned(p, at);
  }

  // ------------------------------------------------------------ en passant

  /** An enemy pawn that has made exactly one move stands on `l`. */
  predicate EnPassantVictim(b: Board, p: Piece, l: Loc)
  {
    OnBoard(l) && At(b, l).Some? && At(b, l).value.kind.Pawn? &&
    At(b, l).value.color != p.color && At(b, l).value.kind.moveCount == 1
  }

  /**
   * `get_en_passant_moves`: the square behind an en passant victim beside
   * the pawn, right side first. Both sides are bounds-checked.
   */
  function EnPassantMoves(b: Board, p: Piece, at: Loc): seq<Loc>
  {
    (if EnPassantVictim(b, p, Loc(at.row, at.col + 1)) && OnBoard(RightDiagonal(p, at)) then [RightDiagonal(p, at)] else []) +
    (if EnPassantVictim(b, p, Loc(at.row, at.col - 1)) && OnBoard(LeftDiagonal(p, at)) then [LeftDiagonal(p, at)] else [])
  }

  /**
   * An en passant square is on the board, one row ahead and one column to
   * the side, with the victim beside the pawn in that column; every such
   * square is listed.
   */
  lemma EnPassantMovesSpec(b: Board, p: Piece, at: Loc, l: Loc)
    ensures l in EnPassantMoves(b, p, at) <==>
              OnBoard(l) && l.row == at.row + Direction(p.color) &&
              (l.col == at.col + 1 || l.col == at.col - 1) && EnPassantVictim(b, p, Loc(at.row, l.col))
  {
  }

  // -------------------------------------------------------------- trimming

  /** `trim_branch!` with a location, which never raises. */
  function Trim(t: MoveTree, l: Loc): MoveTree
  {
    TrimBranch(t, LocArg(l)).value.0
  }

  /** Ruby's `array[i]`: the element, or nil past the end. */
  function ChildAt(ns: seq<Node>, i: nat): (r: Option<Node>)
    ensures r.Some? <==> i < |ns|
    ensures r.Some? ==> r.value == ns[i]
  {
    if i < |ns| then Some(ns[i]) else None
  }

  /** Trim the branch at a diagonal read from the tree, unless it holds a capturable piece. */
  function TrimUnlessCapturable(b: Board, p: Piece, at: Loc, t: MoveTree, diag: Option<Node>): MoveTree
  {
    if diag.Some? && !Capturable(b, p, at, diag.value.loc) then Trim(t, diag.value.loc) else t
  }

  /**
   * The diagonal step: the root's second and third children are read
   * first, then each is trimmed unless it holds a capturable piece.
   */
  function TrimDiagonals(b: Board, p: Piece, at: Loc, t: MoveTree): MoveTree
  {
    var rDiag := ChildAt(t.root.children, 1);
    var lDiag := ChildAt(t.root.children, 2);
    TrimUnlessCapturable(b, p, at, TrimUnlessCapturable(b, p, at, t, rDiag), lDiag)
  }

  /** Trim the double step under the first child if it is occupied. */
  function TrimDoubleStep(b: Board, t: MoveTree): MoveTree
  {
    var fwd := ChildAt(t.root.children, 0);
    if fwd.Some? && fwd.value.children != [] && Blocked(b, fwd.value.children[0].loc)
    then Trim(t, fwd.value.children[0].loc) else t
  }

  /** Trim the first child if it is occupied. */
  function TrimForward(b: Board, t: MoveTree): MoveTree
  {
    var fwd := ChildAt(t.root.children, 0);
    if fwd.Some? && Blocked(b, fwd.value.loc) then Trim(t, fwd.value.loc) else t
  }

  /** The forward step: the double step first, then the forward square. */
  function TrimAhead(b: Board, t: MoveTree): MoveTree
  {
    TrimForward(b, TrimDoubleStep(b, t))
  }

  /** `pawn_legal_moves`: the trimmed tree's squares, then the en passant squares. */
  function PawnLegalMoves(b: Board, p: Piece, at: Loc): seq<Loc>
    requires OnBoard(at)
  {
    ToA(TrimAhead(b, TrimDiagonals(b, p, at, PossibleMoves(p, at)))) + EnPassantMoves(b, p, at)
  }

  /**
   * The pawn rule as the game states it: forward if blank, each diagonal
   * if it holds a capturable piece, two ahead if the pawn is unmoved and
   * both squares ahead are blank, then en passant.
   */
  function PawnRule(b: Board, p: Piece, at: Loc): seq<Loc>
    requires p.kind.Pawn?
  {
    var f := Forward(p, at);
    var free := OnBoard(f) && !Blocked(b, f);
    (if free then [f] else []) +
    (if Capturable(b, p, at, RightDiagonal(p, at)) then [RightDiagonal(p, at)] else []) +
    (if Capturable(b, p, at, LeftDiagonal(p, at)) then [LeftDiagonal(p, at)] else []) +
    (if p.kind.moveCount == 0 && free && OnBoard(DoubleStep(p, at)) && !Blocked(b, DoubleStep(p, at))
     then [DoubleStep(p, at)] else []) +
    EnPassantMoves(b, p, at)
  }

  /** The diagonals that hold a capturable piece. */
  function KeptDiagonals(b: Board, p: Piece, at: Loc): seq<Node>
  {
    (if Capturable(b, p, at, RightDiagonal(p, at)) then [NewNode(RightDiagonal(p, at))] else []) +
    (if Capturable(b, p, at, LeftDiagonal(p, at)) then [NewNode(LeftDiagonal(p, at))] else [])
  }

  /** Trimming a child of the root whose location no sibling shares removes exactly it. */
  lemma TrimUniqueRootChild(t: MoveTree, k: nat)
    requires k < |t.root.children|
    requires forall j :: 0 <= j < |t.root.children| && j != k ==> t.root.children[j].loc != t.root.children[k].loc
    ensures Trim(t, t.root.children[k].loc).root ==
              Node(t.root.loc, t.root.children[..k] + t.root.children[k + 1..])
  {
    var cs := t.root.children;
    assert cs[k].loc == Locs(cs)[k];
    TrimRootChild(t, cs[k].loc);
    WithoutUnique(cs, k);
  }

  /** One diagonal trim, for a child whose location no sibling shares. */
  lemma TrimUnlessCapturableStep(b: Board, p: Piece, at: Loc, t: MoveTree, k: nat)
    requires k < |t.root.children|
    requires forall j :: 0 <= j < |t.root.children| && j != k ==> t.root.children[j].loc != t.root.children[k].loc
    ensures var cs := t.root.children;
            TrimUnlessCapturable(b, p, at, t, Some(cs[k])).root ==
              if Capturable(b, p, at, cs[k].loc) then t.root else Node(t.root.loc, cs[..k] + cs[k + 1..])
  {
    if !Capturable(b, p, at, t.root.children[k].loc) {
      TrimUniqueRootChild(t, k);
    }
  }

  /** With both diagonals on the board: the root's children are forward, right, left. */
  lemma TrimTwoDiagonals(b: Board, p: Piece, at: Loc, t: MoveTree, f: Node, r: Node, l: Node)
    requires t.root.children == [f, r, l] && f.loc != r.loc && f.loc != l.loc && r.loc != l.loc
    ensures TrimDiagonals(b, p, at, t).root ==
              Node(t.root.loc, [f] + (if Capturable(b, p, at, r.loc) then [r] else []) +
                                     (if Capturable(b, p, at, l.loc) then [l] else []))
  {
    var t1 := TrimUnlessCapturable(b, p, at, t, Some(r));
    TrimRightDiagonal(b, p, at, t, f, r, l);
    TrimLastDiagonal(b, p, at, t1, f, if Capturable(b, p, at, r.loc) then [r] else [], l);
  }

  lemma TrimRightDiagonal(b: Board, p: Piece, at: Loc, t: MoveTree, f: Node, r: Node, l: Node)
    requires t.root.children == [f, r, l] && f.loc != r.loc && f.loc != l.loc && r.loc != l.loc
    ensures TrimUnlessCapturable(b, p, at, t, Some(r)).root ==
              Node(t.root.loc, [f] + (if Capturable(b, p, at, r.loc) then [r] else []) + [l])
  {
    TrimUnlessCapturableStep(b, p, at, t, 1);
    assert [f, r, l][..1] + [f, r, l][2..] == [f, l];
  }

  lemma TrimLastDiagonal(b: Board, p: Piece, at: Loc, t: MoveTree, f: Node, mid: seq<Node>, l: Node)
    requires t.root.children == [f] + mid + [l] && f.loc != l.loc
    requires forall i :: 0 <= i < |mid| ==> mid[i].loc != l.loc
    ensures TrimUnlessCapturable(b, p, at, t, Some(l)).root ==
              Node(t.root.loc, [f] + mid + (if Capturable(b, p, at, l.loc) then [l] else []))
  {
    var cs := t.root.children;
    var k := |cs| - 1;
    assert cs[k] == l;
    assert forall j :: 1 <= j < k ==> cs[j] == mid[j - 1];
    TrimUnlessCapturableStep(b, p, at, t, k);
    assert cs[..k] + cs[k + 1..] == [f] + mid;
  }

  /** With one diagonal on the board: the root's children are forward and that diagonal. */
  lemma TrimOneDiagonal(b: Board, p: Piece, at: Loc, t: MoveTree, f: Node, r: Node)
    requires t.root.children == [f, r] && f.loc != r.loc
    ensures TrimDiagonals(b, p, at, t).root ==
              Node(t.root.loc, [f] + (if Capturable(b, p, at, r.loc) then [r] else []))
  {
    TrimUnlessCapturableStep(b, p, at, t, 1);
  }

  /** The diagonal step keeps the forward node and exactly the capturable diagonals. */
  lemma TrimDiagonalsKeeps(b: Board, p: Piece, at: Loc, t: MoveTree)
    requires p.kind.Pawn? && OnBoard(Forward(p, at))
    requires t.root.children == [ForwardNode(p, at)] + Diagonals(p, at)
    ensures TrimDiagonals(b, p, at, t).root == Node(t.root.loc, [ForwardNode(p, at)] + KeptDiagonals(b, p, at))
  {
    var F := ForwardNode(p, at);
    var rd := RightDiagonal(p, at);
    var ld := LeftDiagonal(p, at);
    if OnBoard(rd) && OnBoard(ld) {
      TrimTwoDiagonals(b, p, at, t, F, NewNode(rd), NewNode(ld));
    } else if OnBoard(rd) {
      TrimOneDiagonal(b, p, at, t, F, NewNode(rd));
    } else if OnBoard(ld) {
      TrimOneDiagonal(b, p, at, t, F, NewNode(ld));
    }
  }

  /** The double-step trim: the forward node loses its child exactly when that square is occupied. */
  lemma TrimDoubleStepKeeps(b: Board, p: Piece, at: Loc, t: MoveTree, ks: seq<Node>)
    requires p.kind.Pawn?
    requires t.root.children == [ForwardNode(p, at)] + ks
    requires forall i :: 0 <= i < |ks| ==> ks[i].loc.col != at.col
    ensures var F := ForwardNode(p, at);
            TrimDoubleStep(b, t).root.children ==
              [if F.children != [] && Blocked(b, DoubleStep(p, at)) then NewNode(F.loc) else F] + ks
  {
    var F := ForwardNode(p, at);
    var dbl := DoubleStep(p, at);
    var cs := t.root.children;
    if F.children != [] && Blocked(b, dbl) {
      assert F.children == [NewNode(dbl)];
      assert !HasChildAt(t.root, dbl) by {
        forall i | 0 <= i < |cs| ensures Locs(cs)[i] != dbl {
          if i > 0 { assert cs[i] == ks[i - 1]; }
        }
      }
      assert HasChildAt(cs[0], dbl) by { assert Locs(F.children) == [dbl]; }
      TrimFirstGrandchild(t, dbl);
      assert Without(F.children, NewNode(dbl)) == [] by {
        assert F.children[1..] == [];
      }
    }
  }

  /** The forward trim: the first child goes exactly when its square is occupied. */
  lemma TrimForwardKeeps(b: Board, t: MoveTree, f: Node, ks: seq<Node>)
    requires t.root.children == [f] + ks
    requires forall i :: 0 <= i < |ks| ==> ks[i].loc != f.loc
    ensures TrimForward(b, t).root.children == if Blocked(b, f.loc) then ks else [f] + ks
  {
    if Blocked(b, f.loc) {
      forall j | 0 <= j < |t.root.children| && j != 0
        ensures t.root.children[j].loc != t.root.children[0].loc
      {
        assert t.root.children[j] == ks[j - 1];
      }
      TrimUniqueRootChild(t, 0);
    }
  }

  /** Level order of a root whose first child may carry one leaf and whose other children are leaves. */
  lemma ForwardTreeListing(t: MoveTree, f: Node, ks: seq<Node>)
    requires t.root.children == [f] + ks
    requires forall j :: 0 <= j < |f.children| ==> f.children[j].children == []
    requires forall i :: 0 <= i < |ks| ==> ks[i].children == []
    ensures ToA(t) == [f.loc] + Locs(ks) + Locs(f.children)
  {
    var kids := t.root.children;
    assert kids[0] == f && kids[1..] == ks;
    forall i | 1 <= i < |kids|
      ensures kids[i].children == []
    {
      assert kids[i] == ks[i - 1];
    }
    ToATwoLevels(t);
    NoGrandchildren(ks);
    assert ChildrenOf(kids) == f.children + ChildrenOf(ks) == f.children;
    LocsAppend([f], ks);
    assert Locs([f]) == [f.loc];
  }

  /** Level order of a root whose children are all leaves. */
  lemma LeafTreeListing(t: MoveTree)
    requires forall i :: 0 <= i < |t.root.children| ==> t.root.children[i].children == []
    ensures ToA(t) == Locs(t.root.children)
  {
    ToAOneLevel(t);
  }

  /** The forward node after the double-step trim. */
  function ForwardAfterTrim(b: Board, p: Piece, at: Loc): Node
    requires p.kind.Pawn?
  {
    var F := ForwardNode(p, at);
    if F.children != [] && Blocked(b, DoubleStep(p, at)) then NewNode(F.loc) else F
  }

  /** The root's children once every trim has run, for a pawn whose forward square is on the board. */
  lemma PawnTrimmedChildren(b: Board, p: Piece, at: Loc, t0: MoveTree)
    requires p.kind.Pawn? && OnBoard(Forward(p, at))
    requires t0.root.children == [ForwardNode(p, at)] + Diagonals(p, at)
    ensures TrimAhead(b, TrimDiagonals(b, p, at, t0)).root.children ==
              if Blocked(b, Forward(p, at)) then KeptDiagonals(b, p, at)
              else [ForwardAfterTrim(b, p, at)] + KeptDiagonals(b, p, at)
  {
    var ks := KeptDiagonals(b, p, at);
    TrimDiagonalsKeeps(b, p, at, t0);
    var t2 := TrimDiagonals(b, p, at, t0);
    TrimDoubleStepKeeps(b, p, at, t2, ks);
    TrimForwardKeeps(b, TrimDoubleStep(b, t2), ForwardAfterTrim(b, p, at), ks);
  }

  /** What is left under the forward node: the double step, when it was there and is blank. */
  lemma ForwardAfterTrimShape(b: Board, p: Piece, at: Loc)
    requires p.kind.Pawn?
    ensures var F' := ForwardAfterTrim(b, p, at);
            && F'.loc == Forward(p, at)
            && (forall j :: 0 <= j < |F'.children| ==> F'.children[j].children == [])
            && Locs(F'.children) ==
                 if ForwardNode(p, at).children != [] && !Blocked(b, DoubleStep(p, at)) then [DoubleStep(p, at)] else []
  {
  }

  /** Listing a tree whose root holds what the trims leave of a pawn's possible squares. */
  lemma TrimmedTreeListing(b: Board, p: Piece, at: Loc, t: MoveTree)
    requires p.kind.Pawn?
    requires t.root.children ==
               if Blocked(b, Forward(p, at)) then KeptDiagonals(b, p, at)
               else [ForwardAfterTrim(b, p, at)] + KeptDiagonals(b, p, at)
    ensures var dbl := if ForwardNode(p, at).children != [] && !Blocked(b, DoubleStep(p, at)) then [DoubleStep(p, at)] else [];
            ToA(t) ==
              if Blocked(b, Forward(p, at)) then Locs(KeptDiagonals(b, p, at))
              else [Forward(p, at)] + Locs(KeptDiagonals(b, p, at)) + dbl
  {
    var ks := KeptDiagonals(b, p, at);
    assert forall i :: 0 <= i < |ks| ==> ks[i].children == [];
    if Blocked(b, Forward(p, at)) {
      LeafTreeListing(t);
    } else {
      ForwardAfterTrimShape(b, p, at);
      ForwardTreeListing(t, ForwardAfterTrim(b, p, at), ks);
    }
  }

  /** The trimmed tree of a pawn whose forward square is on the board, listed. */
  lemma PawnTrimmedListing(b: Board, p: Piece, at: Loc, t0: MoveTree)
    requires p.kind.Pawn? && OnBoard(Forward(p, at))
    requires t0.root.children == [ForwardNode(p, at)] + Diagonals(p, at)
    ensures var F := ForwardNode(p, at);
            var ks := KeptDiagonals(b, p, at);
            var dbl := if F.children != [] && !Blocked(b, DoubleStep(p, at)) then [DoubleStep(p, at)] else [];
            ToA(TrimAhead(b, TrimDiagonals(b, p, at, t0))) ==
              if Blocked(b, Forward(p, at)) then Locs(ks) else [Forward(p, at)] + Locs(ks) + dbl
  {
    PawnTrimmedChildren(b, p, at, t0);
    TrimmedTreeListing(b, p, at, TrimAhead(b, TrimDiagonals(b, p, at, t0)));
  }

  /** A pawn whose forward square is off the board keeps only its en passant squares. */
  lemma PawnRuleOffBoard(b: Board, p: Piece, at: Loc, t0: MoveTree)
    requires p.kind.Pawn? && OnBoard(at) && !OnBoard(Forward(p, at))
    requires t0.root.children == []
    ensures ToA(TrimAhead(b, TrimDiagonals(b, p, at, t0))) == []
    ensures PawnRule(b, p, at) == EnPassantMoves(b, p, at)
  {
    assert TrimDiagonals(b, p, at, t0) == t0;
    assert TrimDoubleStep(b, t0) == t0;
    assert TrimAhead(b, t0) == t0;
    LeafTreeListing(t0);
    assert !OnBoard(RightDiagonal(p, at)) && !OnBoard(LeftDiagonal(p, at));
  }

  /** The squares of the kept diagonals. */
  lemma KeptDiagonalsLocs(b: Board, p: Piece, at: Loc)
    ensures Locs(KeptDiagonals(b, p, at)) ==
              (if Capturable(b, p, at, RightDiagonal(p, at)) then [RightDiagonal(p, at)] else []) +
              (if Capturable(b, p, at, LeftDiagonal(p, at)) then [LeftDiagonal(p, at)] else [])
  {
  }

  /** The pawn rule with the forward square on the board, grouped as the trimmed tree lists it. */
  lemma PawnRuleGrouped(b: Board, p: Piece, at: Loc)
    requires p.kind.Pawn? && OnBoard(Forward(p, at))
    ensures var F := ForwardNode(p, at);
            var dbl := if F.children != [] && !Blocked(b, DoubleStep(p, at)) then [DoubleStep(p, at)] else [];
            PawnRule(b, p, at) ==
              (if Blocked(b, Forward(p, at)) then Locs(KeptDiagonals(b, p, at))
               else [Forward(p, at)] + Locs(KeptDiagonals(b, p, at)) + dbl) + EnPassantMoves(b, p, at)
  {
    KeptDiagonalsLocs(b, p, at);
    var f := Forward(p, at);
    assert ForwardNode(p, at).children != [] <==> p.kind.moveCount == 0 && OnBoard(DoubleStep(p, at));
    if Blocked(b, f) {
      assert OnBoard(f) && !(OnBoard(f) && !Blocked(b, f));
    } else {
      assert OnBoard(f) && !Blocked(b, f);
    }
  }

  /** A pawn whose forward square is on the board: the trimmed listing is the rule without en passant. */
  lemma PawnRuleOnBoard(b: Board, p: Piece, at: Loc, t0: MoveTree)
    requires p.kind.Pawn? && OnBoard(at) && OnBoard(Forward(p, at))
    requires t0.root.children == [ForwardNode(p, at)] + Diagonals(p, at)
    ensures ToA(TrimAhead(b, TrimDiagonals(b, p, at, t0))) + EnPassantMoves(b, p, at) == PawnRule(b, p, at)
  {
    PawnTrimmedListing(b, p, at, t0);
    PawnRuleGrouped(b, p, at);
  }

  /** The pawn rule read off a tree shaped like the pawn's possible squares. */
  lemma PawnRuleFromTree(b: Board, p: Piece, at: Loc, t0: MoveTree)
    requires p.kind.Pawn? && OnBoard(at)
    requires t0.root.children == PawnForest(p, at)
    ensures ToA(TrimAhead(b, TrimDiagonals(b, p, at, t0))) + EnPassantMoves(b, p, at) == PawnRule(b, p, at)
  {
    if OnBoard(Forward(p, at)) {
      PawnRuleOnBoard(b, p, at, t0);
    } else {
      PawnRuleOffBoard(b, p, at, t0);
    }
  }

  /**
   * `pawn_legal_moves` follows the pawn rule: forward if blank, each
   * diagonal if it holds a capturable piece, two ahead if unmoved and both
   * squares ahead are blank, then en passant.
   */
  lemma PawnLegalMovesRule(b: Board, p: Piece, at: Loc)
    requires p.kind.Pawn? && OnBoard(at)
    ensures PawnLegalMoves(b, p, at) == PawnRule(b, p, at)
  {
    PawnPossibleShape(p, at);
    PawnRuleFromTree(b, p, at, PossibleMoves(p, at));
  }

  /** The listing of a tree shaped like a pawn's possible squares. */
  lemma PawnForestListing(p: Piece, at: Loc, t0: MoveTree)
    requires p.kind.Pawn?
    requires t0.root.children == PawnForest(p, at)
    ensures ToA(t0) ==
              if OnBoard(Forward(p, at)) then [Forward(p, at)] + Locs(Diagonals(p, at)) + Locs(ForwardNode(p, at).children)
              else []
  {
    var ds := Diagonals(p, at);
    assert forall i :: 0 <= i < |ds| ==> ds[i].children == [];
    if OnBoard(Forward(p, at)) {
      ForwardTreeListing(t0, ForwardNode(p, at), ds);
    } else {
      LeafTreeListing(t0);
    }
  }

  /** The squares the pawn rule can list: forward, a diagonal, or the double step, each on the board. */
  lemma PawnRuleMembers(b: Board, p: Piece, at: Loc, l: Loc)
    requires p.kind.Pawn? && OnBoard(at)
    requires l in PawnRule(b, p, at)
    ensures OnBoard(Forward(p, at))
    ensures || l == Forward(p, at)
            || (l == RightDiagonal(p, at) && OnBoard(l))
            || (l == LeftDiagonal(p, at) && OnBoard(l))
            || (l == DoubleStep(p, at) && p.kind.moveCount == 0 && OnBoard(l))
  {
    EnPassantMovesSpec(b, p, at, l);
  }

  /** The squares a tree shaped like a pawn's possible squares lists. */
  lemma PawnForestMembers(p: Piece, at: Loc, t0: MoveTree, l: Loc)
    requires p.kind.Pawn?
    requires t0.root.children == PawnForest(p, at)
    requires OnBoard(Forward(p, at))
    requires || l == Forward(p, at)
             || (l == RightDiagonal(p, at) && OnBoard(l))
             || (l == LeftDiagonal(p, at) && OnBoard(l))
             || (l == DoubleStep(p, at) && p.kind.moveCount == 0 && OnBoard(l))
    ensures l in ToA(t0)
  {
    PawnForestListing(p, at, t0);
    var ds := Diagonals(p, at);
    if l == RightDiagonal(p, at) && OnBoard(l) {
      assert ds[0].loc == l;
    } else if l == LeftDiagonal(p, at) && OnBoard(l) {
      assert ds[|ds| - 1].loc == l;
    } else if l != Forward(p, at) {
      assert ForwardNode(p, at).children[0].loc == l;
    }
  }

  /** A square the pawn rule lists lies in the listing of the pawn's possible squares. */
  lemma PawnRuleWithinForest(b: Board, p: Piece, at: Loc, t0: MoveTree, l: Loc)
    requires p.kind.Pawn? && OnBoard(at)
    requires t0.root.children == PawnForest(p, at)
    requires l in PawnRule(b, p, at)
    ensures l in ToA(t0)
  {
    PawnRuleMembers(b, p, at, l);
    PawnForestMembers(p, at, t0, l);
  }

  /**
   * Every square `pawn_legal_moves` yields is one of the pawn's possible
   * squares, and it is blank, holds a piece the pawn can capture, or is an
   * en passant square.
   */
  lemma PawnMovesWithinReach(b: Board, p: Piece, at: Loc, l: Loc)
    requires p.kind.Pawn? && OnBoard(at)
    requires l in PawnLegalMoves(b, p, at)
    ensures l in ToA(PossibleMoves(p, at))
    ensures l in EnPassantMoves(b, p, at) || At(b, l).None? || CanCapture(p, at, At(b, l).value, l)
  {
    PawnLegalMovesRule(b, p, at);
    PawnPossibleShape(p, at);
    PawnRuleWithinForest(b, p, at, PossibleMoves(p, at), l);
  }
}

=== FILE: pieces.dfy ===
/**
 * The piece model of lib/chess_pieces/: the six kinds as one closed
 * datatype, with the per-kind state the game reads (a pawn's move counter,
 * a king's moved flag), point values, the pawn's direction and back row,
 * and `move`.
 *
 * A piece does not store its position: the square that holds it is its
 * position, so the two can never disagree.
 */
module Pieces {
  import opened Util
  import opened MoveTreeNodes

  datatype Color = White | Black

  /** `change_turn`: white and black alternate. */
  function Opponent(c: Color): (o: Color)
    ensures o != c
  {
    if c == White then Black else White
  }

  /** Two turn changes give the turn back. */
  lemma OpponentInvolution(c: Color)
    ensures Opponent(Opponent(c)) == c
  {
  }

  /**
   * The kinds. A pawn counts its moves (0: never moved, 1: has just made its
   * first move); a king remembers whether it has moved, for castling.
   */
  datatype Kind = Pawn(moveCount: nat) | Knight | Bishop | Rook | Queen | King(moved: bool)

  datatype Piece = Piece(kind: Kind, color: Color)

  /** The kinds a pawn may be promoted to. */
  datatype Promotion = ToQueen | ToRook | ToBishop | ToKnight

  function PromotedKind(promo: Promotion): Kind
  {
    match promo
    case ToQueen => Queen
    case ToRook => Rook
    case ToBishop => Bishop
    case ToKnight => Knight
  }

  /** Point values: pawn 1, knight 3, bishop 3, rook 5, queen 9, king 10000. */
  function Points(k: Kind): nat
  {
    match k
    case Pawn(_) => 1
    case Knight => 3
    case Bishop => 3
    case Rook => 5
    case Queen => 9
    case King(_) => 10000
  }

  /** The values order the kinds pawn < knight = bishop < rook < queen < king. */
  lemma PointsOrder(n: nat, m: bool)
    ensures Points(Pawn(n)) < Points(Knight) == Points(Bishop) < Points(Rook) < Points(Queen) < Points(King(m))
    ensures Points(Pawn(n)) == 1 && Points(Knight) == 3 && Points(Bishop) == 3
    ensures Points(Rook) == 5 && Points(Queen) == 9 && Points(King(m)) == 10000
  {
  }

  /** A new pawn has not moved; a new king has not moved. */
  function NewPawn(c: Color): (p: Piece)
    ensures p.kind.Pawn? && !HasMoved(p) && p.color == c
  {
    Piece(Pawn(0), c)
  }

  function NewKing(c: Color): (p: Piece)
    ensures p.kind.King? && !p.kind.moved && p.color == c
  {
    Piece(King(false), c)
  }

  /** The pawn's `has_moved`: its counter is positive. */
  predicate HasMoved(p: Piece)
    requires p.kind.Pawn?
  {
    p.kind.moveCount > 0
  }

  /** Rows a pawn advances by: +1 for white, -1 for black. */
  function Direction(c: Color): (d: int)
    ensures d == 1 || d == -1
    ensures c == White <==> d == 1
  {
    if c == White then 1 else -1
  }

  /** The opponent's back row, where a pawn is promoted: 7 for white, 0 for black. */
  function BackRow(c: Color): (r: int)
    ensures r == 7 || r == 0
    ensures c == White <==> r == 7
  {
    if c == White then 7 else 0
  }

  /** A pawn walking in its direction from its own second row reaches the back row after six steps. */
  lemma BackRowIsSixStepsAway(c: Color)
    ensures BackRow(c) == (if c == White then 1 else 6) + 6 * Direction(c)
  {
  }

  predicate OnBoard(l: Loc)
  {
    0 <= l.row <= 7 && 0 <= l.col <= 7
  }

  /**
   * `moves_in_bounds`: keeps exactly the positions whose coordinates both
   * lie in 0..7, in their original order.
   */
  function MovesInBounds(ms: seq<Loc>): (r: seq<Loc>)
    ensures |r| <= |ms|
  {
    if ms == [] then []
    else if OnBoard(ms[0]) then [ms[0]] + MovesInBounds(ms[1..])
    else MovesInBounds(ms[1..])
  }

  /** `moves_in_bounds` keeps the on-board positions, all of them and only them, in order. */
  lemma {:induction false} MovesInBoundsSpec(ms: seq<Loc>)
    ensures forall l :: l in MovesInBounds(ms) <==> l in ms && OnBoard(l)
    ensures Subsequence(MovesInBounds(ms), ms)
  {
    if ms != [] {
      MovesInBoundsSpec(ms[1..]);
      var rest := MovesInBounds(ms[1..]);
      if OnBoard(ms[0]) {
        assert ([ms[0]] + rest)[1..] == rest;
      } else if rest != [] {
        assert rest[0] in rest;
      }
    }
  }

  lemma {:induction false} MovesInBoundsIdempotent(ms: seq<Loc>)
    ensures MovesInBounds(MovesInBounds(ms)) == MovesInBounds(ms)
  {
    if ms != [] {
      MovesInBoundsIdempotent(ms[1..]);
      if OnBoard(ms[0]) {
        assert ([ms[0]] + MovesInBounds(ms[1..]))[1..] == MovesInBounds(ms[1..]);
      }
    }
  }

  lemma {:induction false} MovesInBoundsAppend(a: seq<Loc>, b: seq<Loc>)
    ensures MovesInBounds(a + b) == MovesInBounds(a) + MovesInBounds(b)
  {
    if a == [] {
      assert a + b == b;
    } else {
      assert (a + b)[1..] == a[1..] + b;
      MovesInBoundsAppend(a[1..], b);
    }
  }

  /**
   * `move`. A pawn's counter goes up by one and, when it lands on the
   * opponent's back row, it is replaced by a new piece of the chosen kind
   * (a queen unless another is chosen); a king becomes "moved"; the other
   * kinds are unchanged. The colour is kept.
   */
  function MovePiece(p: Piece, to: Loc, promo: Promotion := ToQueen): (r: Piece)
    ensures r.color == p.color
    ensures p.kind.Pawn? && to.row == BackRow(p.color) ==> r.kind == PromotedKind(promo)
    ensures p.kind.Pawn? && to.row != BackRow(p.color) ==>
              r.kind.Pawn? && r.kind.moveCount == p.kind.moveCount + 1 && HasMoved(r)
    ensures p.kind.King? ==> r.kind == King(true)
    ensures !p.kind.Pawn? && !p.kind.King? ==> r == p
  {
    match p.kind
    case Pawn(n) =>
      if to.row == BackRow(p.color) then Piece(PromotedKind(promo), p.color)
      else Piece(Pawn(n + 1), p.color)
    case King(_) => Piece(King(true), p.color)
    case _ => p
  }

  /** Promotion without a choice yields a queen of the pawn's colour. */
  lemma PromotionDefaultsToQueen(c: Color, n: nat, to: Loc)
    requires to.row == BackRow(c)
    ensures MovePiece(Piece(Pawn(n), c), to) == Piece(Queen, c)
  {
  }

  /** After any move a king stays moved. */
  lemma KingStaysMoved(p: Piece, to: Loc, to': Loc)
    requires p.kind.King?
    ensures MovePiece(p, to).kind.moved && MovePiece(MovePiece(p, to), to').kind.moved
  {
  }
}

=== FILE: templates.dfy ===
/**
 * The move templates each kind builds at construction (`build_*_move_tree`):
 * trees of offsets relative to the piece, rooted at [0, 0].
 */
module Templates {
  import opened Util
  import opened MoveTreeNodes
  import opened MoveTrees
  import opened Pieces

  const Origin := Loc(0, 0)

  /** The node an accepted `add_child` argument contributes. */
  function ArgNode(a: Arg): Node
    requires !a.OtherArg?
  {
    if a.LocArg? then NewNode(a.l) else a.n
  }

  /** Repeated `add_child`, in order. */
  function AddChildren(n: Node, args: seq<Arg>): (r: Node)
    requires forall i :: 0 <= i < |args| ==> !args[i].OtherArg?
    ensures r.loc == n.loc
    ensures |r.children| == |n.children| + |args|
    ensures r.children[..|n.children|] == n.children
    ensures forall i :: 0 <= i < |args| ==> r.children[|n.children| + i] == ArgNode(args[i])
    decreases |args|
  {
    if args == [] then n
    else
      var n' := AddChild(n, args[0]).value;
      assert n'.children == n.children + [ArgNode(args[0])];
      AddChildren(n', args[1..])
  }

  function LocArgs(ls: seq<Loc>): (r: seq<Arg>)
    ensures |r| == |ls| && forall i :: 0 <= i < |ls| ==> r[i] == LocArg(ls[i])
  {
    seq(|ls|, i requires 0 <= i < |ls| => LocArg(ls[i]))
  }

  /** A root at the origin whose children are leaves at `ls`, added in order. */
  function Fan(ls: seq<Loc>): (n: Node)
    ensures n.loc == Origin && |n.children| == |ls|
    ensures forall i :: 0 <= i < |ls| ==> n.children[i] == NewNode(ls[i])
  {
    Node(Origin, seq(|ls|, i requires 0 <= i < |ls| => NewNode(ls[i])))
  }

  /** A fan lists its leaves, and nothing else, in the order they were added. */
  lemma FanListing(ls: seq<Loc>)
    ensures Locs(Fan(ls).children) == ls
    ensures ToA(MoveTree(Fan(ls))) == ls
  {
    ToAOneLevel(MoveTree(Fan(ls)));
  }

  /** The fan is what adding the locations one by one to a fresh root builds. */
  lemma FanIsAddChildren(ls: seq<Loc>)
    ensures Fan(ls) == AddChildren(NewNode(Origin), LocArgs(ls))
  {
    var n := AddChildren(NewNode(Origin), LocArgs(ls));
    assert forall i :: 0 <= i < |ls| ==> n.children[0 + i] == NewNode(ls[i]);
    assert n.children == Fan(ls).children;
  }

  // ------------------------------------------------- Ruby array builders

  /** `[x, y]` for every `y` of `ys`, in order. */
  function PairsWith(x: int, ys: seq<int>): (r: seq<Loc>)
    ensures |r| == |ys| && forall j :: 0 <= j < |ys| ==> r[j] == Loc(x, ys[j])
  {
    seq(|ys|, j requires 0 <= j < |ys| => Loc(x, ys[j]))
  }

  /** `xs.repeated_permutation(2)`: all ordered pairs, the first element varying slowest. */
  function RepeatedPermutation2(xs: seq<int>): seq<Loc>
  {
    RepeatedFrom(xs, xs)
  }

  function RepeatedFrom(firsts: seq<int>, xs: seq<int>): seq<Loc>
  {
    if firsts == [] then [] else PairsWith(firsts[0], xs) + RepeatedFrom(firsts[1..], xs)
  }

  /** `xs.permutation(2)`: ordered pairs of elements at distinct positions. */
  function Permutation2(xs: seq<int>): seq<Loc>
  {
    PermutationFrom(xs, 0)
  }

  function PermutationFrom(xs: seq<int>, i: nat): seq<Loc>
    requires i <= |xs|
    decreases |xs| - i
  {
    if i == |xs| then [] else PairsWith(xs[i], xs[..i] + xs[i + 1..]) + PermutationFrom(xs, i + 1)
  }

  /** `Array#delete(x)` on a list of locations. */
  function DeleteLoc(ls: seq<Loc>, x: Loc): seq<Loc>
  {
    if ls == [] then []
    else if ls[0] == x then DeleteLoc(ls[1..], x)
    else [ls[0]] + DeleteLoc(ls[1..], x)
  }

  /** `reject { |n| n.sum.zero? }` */
  function RejectZeroSum(ls: seq<Loc>): seq<Loc>
  {
    if ls == [] then []
    else if ls[0].row + ls[0].col == 0 then RejectZeroSum(ls[1..])
    else [ls[0]] + RejectZeroSum(ls[1..])
  }

  // --------------------------------------------------------------- king

  predicate Unit(l: Loc)
  {
    -1 <= l.row <= 1 && -1 <= l.col <= 1 && l != Origin
  }

  /** Lexicographic order on offsets, row first. */
  predicate LexLess(a: Loc, b: Loc)
  {
    a.row < b.row || (a.row == b.row && a.col < b.col)
  }

  predicate StrictlyLexSorted(ls: seq<Loc>)
  {
    forall i, j :: 0 <= i < j < |ls| ==> LexLess(ls[i], ls[j])
  }

  /** The eight squares around a piece in the order the source lists them. */
  function KingOffsets(): (r: seq<Loc>)
    ensures |r| == 8
  {
    [Loc(-1, -1), Loc(-1, 0), Loc(-1, 1), Loc(0, -1), Loc(0, 1), Loc(1, -1), Loc(1, 0), Loc(1, 1)]
  }

  /** The king's offsets are exactly the unit steps, each once, in lexicographic order. */
  lemma KingOffsetsAreTheNeighbours()
    ensures |KingOffsets()| == 8 && StrictlyLexSorted(KingOffsets())
    ensures forall l :: l in KingOffsets() <==> Unit(l)
  {
  }

  lemma {:induction false} DeleteLocAppend(a: seq<Loc>, b: seq<Loc>, x: Loc)
    ensures DeleteLoc(a + b, x) == DeleteLoc(a, x) + DeleteLoc(b, x)
  {
    if a != [] {
      assert (a + b)[0] == a[0];
      assert (a + b)[1..] == a[1..] + b;
      DeleteLocAppend(a[1..], b, x);
    } else {
      assert a + b == b;
    }
  }

  /** The source derives the offsets as `[-1, 0, 1].repeated_permutation(2)` less [0, 0]. */
  lemma KingOffsetsDerivation()
    ensures DeleteLoc(RepeatedPermutation2([-1, 0, 1]), Origin) == KingOffsets()
  {
    var xs := [-1, 0, 1];
    var a, b, c := PairsWith(-1, xs), PairsWith(0, xs), PairsWith(1, xs);
    assert RepeatedFrom(xs[2..], xs) == c + RepeatedFrom([], xs);
    assert RepeatedFrom(xs[1..], xs) == b + RepeatedFrom(xs[2..], xs);
    assert RepeatedPermutation2(xs) == a + (b + c);
    DeleteLocAppend(a, b + c, Origin);
    DeleteLocAppend(b, c, Origin);
    assert a == [Loc(-1, -1), Loc(-1, 0), Loc(-1, 1)];
    assert b == [Loc(0, -1), Loc(0, 0), Loc(0, 1)];
    assert c == [Loc(1, -1), Loc(1, 0), Loc(1, 1)];
  }

  /** `build_king_move_tree`: the eight neighbouring offsets as leaves of the root. */
  function KingTemplate(): MoveTree
  {
    MoveTree(Fan(KingOffsets()))
  }

  /** The king's template is one level deep and lists the eight neighbours. */
  lemma KingTemplateShape()
    ensures KingTemplate().root.loc == Origin && |KingTemplate().root.children| == 8
    ensures forall i :: 0 <= i < 8 ==> KingTemplate().root.children[i].children == []
    ensures ToA(KingTemplate()) == KingOffsets()
    ensures forall l :: l in ToA(KingTemplate()) <==> Unit(l)
  {
    FanListing(KingOffsets());
    KingOffsetsAreTheNeighbours();
  }

  // ------------------------------------------------------------- knight

  /** An L-shaped jump: one square one way and two the other. */
  predicate LShape(l: Loc)
  {
    ((l.row == 1 || l.row == -1) && (l.col == 2 || l.col == -2)) ||
    ((l.row == 2 || l.row == -2) && (l.col == 1 || l.col == -1))
  }

  /** The eight L-shaped jumps in the order the source lists them. */
  function KnightOffsets(): (r: seq<Loc>)
    ensures |r| == 8
  {
    [Loc(1, 2), Loc(1, -2), Loc(-1, 2), Loc(-1, -2), Loc(2, 1), Loc(2, -1), Loc(-2, 1), Loc(-2, -1)]
  }

  /** The knight's offsets are exactly the L-shaped jumps, each once. */
  lemma KnightOffsetsAreTheJumps()
    ensures |KnightOffsets()| == 8
    ensures forall i, j :: 0 <= i < j < 8 ==> KnightOffsets()[i] != KnightOffsets()[j]
    ensures forall l :: l in KnightOffsets() <==> LShape(l)
  {
  }

  lemma {:induction false} RejectZeroSumAppend(a: seq<Loc>, b: seq<Loc>)
    ensures RejectZeroSum(a + b) == RejectZeroSum(a) + RejectZeroSum(b)
  {
    if a != [] {
      assert (a + b)[0] == a[0];
      assert (a + b)[1..] == a[1..] + b;
      RejectZeroSumAppend(a[1..], b);
    } else {
      assert a + b == b;
    }
  }

  /** The zero-sum filter on three offsets of which exactly one, `x`, `y` or `z`, sums to zero. */
  lemma RejectThree(x: Loc, y: Loc, z: Loc, zero: nat)
    requires zero < 3
    requires (x.row + x.col == 0) == (zero == 0)
    requires (y.row + y.col == 0) == (zero == 1)
    requires (z.row + z.col == 0) == (zero == 2)
    ensures RejectZeroSum([x, y, z]) == if zero == 0 then [y, z] else if zero == 1 then [x, z] else [x, y]
  {
    assert [x, y, z][1..] == [y, z];
    assert [y, z][1..] == [z];
    assert RejectZeroSum([z]) == (if zero == 2 then [] else [z]) + RejectZeroSum([]);
  }

  /** The source derives the jumps as `[1, -1, 2, -2].permutation(2)` less the pairs summing to zero. */
  lemma KnightOffsetsDerivation()
    ensures RejectZeroSum(Permutation2([1, -1, 2, -2])) == KnightOffsets()
  {
    var a := [Loc(1, -1), Loc(1, 2), Loc(1, -2)];
    var b := [Loc(-1, 1), Loc(-1, 2), Loc(-1, -2)];
    var c := [Loc(2, 1), Loc(2, -1), Loc(2, -2)];
    var d := [Loc(-2, 1), Loc(-2, -1), Loc(-2, 2)];
    KnightPermutations();
    RejectZeroSumFour(a, b, c, d);
    assert RejectZeroSum(a) == [a[1], a[2]] by {
      assert a == [a[0], a[1], a[2]];
      RejectThree(a[0], a[1], a[2], 0);
    }
    assert RejectZeroSum(b) == [b[1], b[2]] by {
      assert b == [b[0], b[1], b[2]];
      RejectThree(b[0], b[1], b[2], 0);
    }
    assert RejectZeroSum(c) == [c[0], c[1]] by {
      assert c == [c[0], c[1], c[2]];
      RejectThree(c[0], c[1], c[2], 2);
    }
    assert RejectZeroSum(d) == [d[0], d[1]] by {
      assert d == [d[0], d[1], d[2]];
      RejectThree(d[0], d[1], d[2], 2);
    }
  }

  lemma RejectZeroSumFour(a: seq<Loc>, b: seq<Loc>, c: seq<Loc>, d: seq<Loc>)
    ensures RejectZeroSum(a + (b + (c + d))) == RejectZeroSum(a) + (RejectZeroSum(b) + (RejectZeroSum(c) + RejectZeroSum(d)))
  {
    RejectZeroSumAppend(c, d);
    RejectZeroSumAppend(b, c + d);
    RejectZeroSumAppend(a, b + (c + d));
  }

  lemma KnightPermutations()
    ensures Permutation2([1, -1, 2, -2]) ==
      [Loc(1, -1), Loc(1, 2), Loc(1, -2)] + ([Loc(-1, 1), Loc(-1, 2), Loc(-1, -2)] +
      ([Loc(2, 1), Loc(2, -1), Loc(2, -2)] + [Loc(-2, 1), Loc(-2, -1), Loc(-2, 2)]))
  {
    var xs := [1, -1, 2, -2];
    assert xs[..0] + xs[1..] == [-1, 2, -2];
    assert xs[..1] + xs[2..] == [1, 2, -2];
    assert xs[..2] + xs[3..] == [1, -1, -2];
    assert xs[..3] + xs[4..] == [1, -1, 2];
    assert PermutationFrom(xs, 4) == [];
    assert PermutationFrom(xs, 3) == PairsWith(-2, [1, -1, 2]) + PermutationFrom(xs, 4);
    assert PermutationFrom(xs, 2) == PairsWith(2, [1, -1, -2]) + PermutationFrom(xs, 3);
    assert PermutationFrom(xs, 1) == PairsWith(-1, [1, 2, -2]) + PermutationFrom(xs, 2);
    assert PermutationFrom(xs, 0) == PairsWith(1, [-1, 2, -2]) + PermutationFrom(xs, 1);
  }

  /** `build_knight_move_tree`: the eight L-shaped jumps as leaves of the root. */
  function KnightTemplate(): MoveTree
  {
    MoveTree(Fan(KnightOffsets()))
  }

  /** The knight's template is one level deep and lists the eight jumps. */
  lemma KnightTemplateShape()
    ensures KnightTemplate().root.loc == Origin && |KnightTemplate().root.children| == 8
    ensures forall i :: 0 <= i < 8 ==> KnightTemplate().root.children[i].children == []
    ensures ToA(KnightTemplate()) == KnightOffsets()
    ensures forall l :: l in ToA(KnightTemplate()) <==> LShape(l)
  {
    FanListing(KnightOffsets());
    KnightOffsetsAreTheJumps();
  }

  // --------------------------------------------------------------- rays

  /** The square one step from `l` in direction `d`. */
  function Shift(l: Loc, d: Loc): Loc
  {
    Loc(l.row + d.row, l.col + d.col)
  }

  /** The `n` squares reached by stepping `n` times by `dir` from `from`, nearest first. */
  function RayFrom(from: Loc, dir: Loc, n: nat): (r: seq<Loc>)
    ensures |r| == n
    decreases n
  {
    if n == 0 then [] else [Shift(from, dir)] + RayFrom(Shift(from, dir), dir, n - 1)
  }

  /**
   * A ray of `n` nodes stepping by `dir` away from `from` (which it does
   * not include): each node's only child is the next square along.
   */
  function RayNode(from: Loc, dir: Loc, n: nat): Node
    requires n >= 1
    decreases n
  {
    var next := Shift(from, dir);
    if n == 1 then Node(next, []) else Node(next, [RayNode(next, dir, n - 1)])
  }

  /** A ray node is a chain listing the ray's squares, nearest first. */
  lemma {:induction false} RayNodeChain(from: Loc, dir: Loc, n: nat)
    requires n >= 1
    ensures IsChain(RayNode(from, dir, n)) && RayNode(from, dir, n).loc == Shift(from, dir)
    ensures ChainLocs(RayNode(from, dir, n)) == RayFrom(from, dir, n)
    decreases n
  {
    if n > 1 {
      RayNodeChain(Shift(from, dir), dir, n - 1);
    }
  }

  /** The seven squares of a ray from the origin. */
  function RaySteps(dir: Loc): (r: seq<Loc>)
    ensures |r| == 7
  {
    RayFrom(Origin, dir, 7)
  }

  /** Step `k` of a ray is `k` times its direction. */
  lemma {:induction false} RayFromMultiples(from: Loc, dir: Loc, n: nat, i: nat)
    requires i < n
    ensures RayFrom(from, dir, n)[i] == Loc(from.row + (i + 1) * dir.row, from.col + (i + 1) * dir.col)
    decreases n
  {
    if i > 0 {
      RayFromMultiples(Shift(from, dir), dir, n - 1, i - 1);
    }
  }

  /** A tree whose root carries one seven-node ray per direction, in order. */
  function RayTemplate(dirs: seq<Loc>): (t: MoveTree)
    ensures t.root.loc == Origin && |t.root.children| == |dirs|
    ensures forall i :: 0 <= i < |dirs| ==> t.root.children[i] == RayNode(Origin, dirs[i], 7)
  {
    MoveTree(Node(Origin, seq(|dirs|, i requires 0 <= i < |dirs| => RayNode(Origin, dirs[i], 7))))
  }

  /** The ray template is what adding each direction's ray, in order, to a fresh root builds. */
  lemma RayTemplateIsAddChildren(dirs: seq<Loc>, args: seq<Arg>)
    requires |args| == |dirs| && forall i :: 0 <= i < |dirs| ==> args[i] == NodeArg(RayNode(Origin, dirs[i], 7))
    ensures RayTemplate(dirs).root == AddChildren(NewNode(Origin), args)
  {
    var n := AddChildren(NewNode(Origin), args);
    assert n.children == RayTemplate(dirs).root.children;
  }

  /** The four orthogonal directions in the order the rook adds them. */
  function RookDirections(): (r: seq<Loc>)
    ensures forall i :: 0 <= i < |r| ==> (r[i].row == 0) != (r[i].col == 0) && Unit(r[i])
  {
    [Loc(1, 0), Loc(-1, 0), Loc(0, 1), Loc(0, -1)]
  }

  /** The four diagonal directions in the order the bishop adds them. */
  function BishopDirections(): (r: seq<Loc>)
    ensures forall i :: 0 <= i < |r| ==> (r[i].row == 1 || r[i].row == -1) && (r[i].col == 1 || r[i].col == -1)
  {
    [Loc(1, 1), Loc(-1, 1), Loc(1, -1), Loc(-1, -1)]
  }

  /** The queen takes its directions as the king takes its offsets. */
  function QueenDirections(): seq<Loc>
  {
    KingOffsets()
  }

  /** The queen moves along every rook and every bishop direction, and no others. */
  lemma QueenIsRookAndBishop()
    ensures Origin !in QueenDirections()
    ensures forall l :: l in QueenDirections() <==> l in RookDirections() || l in BishopDirections()
  {
  }

  /** Each ray of a ray template is a chain starting one step out along its direction. */
  lemma RayTemplateShape(dirs: seq<Loc>)
    ensures Locs(RayTemplate(dirs).root.children) == dirs
    ensures forall i :: 0 <= i < |dirs| ==>
              IsChain(RayTemplate(dirs).root.children[i]) &&
              ChainLocs(RayTemplate(dirs).root.children[i]) == RaySteps(dirs[i])
  {
    var cs := RayTemplate(dirs).root.children;
    forall i | 0 <= i < |dirs|
      ensures IsChain(cs[i]) && cs[i].loc == dirs[i] && ChainLocs(cs[i]) == RaySteps(dirs[i])
    {
      RayNodeChain(Origin, dirs[i], 7);
      assert Shift(Origin, dirs[i]) == dirs[i];
    }
    assert Locs(cs) == dirs;
  }

  /** `build_rook_move_tree`: four orthogonal seven-node rays. */
  function RookTemplate(): MoveTree
  {
    RayTemplate(RookDirections())
  }

  /** `build_bishop_move_tree`: four diagonal seven-node rays. */
  function BishopTemplate(): MoveTree
  {
    RayTemplate(BishopDirections())
  }

  /** `build_queen_move_tree`: eight seven-node rays, in the king's offset order. */
  function QueenTemplate(): MoveTree
  {
    RayTemplate(QueenDirections())
  }

  /** The slider templates list their first steps in the source's order. */
  lemma SliderTemplateShapes()
    ensures Locs(RookTemplate().root.children) == [Loc(1, 0), Loc(-1, 0), Loc(0, 1), Loc(0, -1)]
    ensures Locs(BishopTemplate().root.children) == [Loc(1, 1), Loc(-1, 1), Loc(1, -1), Loc(-1, -1)]
    ensures Locs(QueenTemplate().root.children) == KingOffsets()
  {
    RayTemplateShape(RookDirections());
    RayTemplateShape(BishopDirections());
    RayTemplateShape(QueenDirections());
  }

  // --------------------------------------------------------------- pawn

  /**
   * `build_pawn_move_tree`: forward, whose only child is the double step,
   * then the two forward diagonals. The double step exists only while the
   * pawn has not moved: the source pops it from the template on the first
   * move, which a counter-indexed template expresses without mutation.
   */
  function PawnTemplate(c: Color, moveCount: nat): MoveTree
  {
    var d := Direction(c);
    var forward := NewNode(Loc(d, 0));
    var forward' := if moveCount == 0 then AddChild(forward, LocArg(Loc(2 * d, 0))).value else forward;
    MoveTree(AddChildren(NewNode(Origin), [NodeArg(forward'), LocArg(Loc(d, 1)), LocArg(Loc(d, -1))]))
  }

  /**
   * The pawn's template: forward, then right and left diagonals, all one row
   * ahead; the diagonals are leaves and the forward square carries the double
   * step exactly while the pawn is unmoved. Listed level by level, the double
   * step comes last.
   */
  lemma PawnTemplateShape(c: Color, moveCount: nat)
    ensures PawnTemplate(c, moveCount).root.loc == Origin
    ensures Locs(PawnTemplate(c, moveCount).root.children) ==
              [Loc(Direction(c), 0), Loc(Direction(c), 1), Loc(Direction(c), -1)]
    ensures PawnTemplate(c, moveCount).root.children[1].children == []
    ensures PawnTemplate(c, moveCount).root.children[2].children == []
    ensures moveCount == 0 ==> PawnTemplate(c, moveCount).root.children[0].children == [NewNode(Loc(2 * Direction(c), 0))]
    ensures moveCount > 0 ==> PawnTemplate(c, moveCount).root.children[0].children == []
    ensures ToA(PawnTemplate(c, moveCount)) == [Loc(Direction(c), 0), Loc(Direction(c), 1), Loc(Direction(c), -1)]
                                               + (if moveCount == 0 then [Loc(2 * Direction(c), 0)] else [])
  {
    var d := Direction(c);
    var forward := NewNode(Loc(d, 0));
    var forward' := if moveCount == 0 then AddChild(forward, LocArg(Loc(2 * d, 0))).value else forward;
    var args := [NodeArg(forward'), LocArg(Loc(d, 1)), LocArg(Loc(d, -1))];
    var t := PawnTemplate(c, moveCount);
    assert t == MoveTree(AddChildren(NewNode(Origin), args));
    var cs := t.root.children;
    assert cs[0 + 0] == ArgNode(args[0]) == forward';
    assert cs[0 + 1] == ArgNode(args[1]) == NewNode(Loc(d, 1));
    assert cs[0 + 2] == ArgNode(args[2]) == NewNode(Loc(d, -1));
    assert cs == [forward', NewNode(Loc(d, 1)), NewNode(Loc(d, -1))];
    assert forward'.children == if moveCount == 0 then [NewNode(Loc(2 * d, 0))] else [];
    ToATwoLevels(t);
    assert cs[1..] == [NewNode(Loc(d, 1)), NewNode(Loc(d, -1))];
    assert cs[2..] == [NewNode(Loc(d, -1))];
    assert ChildrenOf(cs[2..]) == [] + ChildrenOf(cs[3..]);
    assert ChildrenOf(cs[1..]) == [] + ChildrenOf(cs[2..]);
    assert ChildrenOf(cs) == forward'.children + ChildrenOf(cs[1..]);
  }

  /** The first move removes the double step; later moves remove nothing more. */
  lemma PawnTemplateAfterMoves(c: Color, n: nat)
    requires n >= 1
    ensures PawnTemplate(c, n) == PawnTemplate(c, 1)
    ensures |ToA(PawnTemplate(c, 0))| == 4 && |ToA(PawnTemplate(c, n))| == 3
  {
    PawnTemplateShape(c, 0);
    PawnTemplateShape(c, n);
  }

  /** The template of a piece, by kind. */
  function Template(p: Piece): MoveTree
  {
    match p.kind
    case Pawn(n) => PawnTemplate(p.color, n)
    case Knight => KnightTemplate()
    case Bishop => BishopTemplate()
    case Rook => RookTemplate()
    case Queen => QueenTemplate()
    case King(_) => KingTemplate()
  }

  /** The templates of a king and of a knight are fans: every child of the root is a leaf. */
  lemma FanTemplateLeaves(p: Piece)
    requires p.kind.King? || p.kind.Knight?
    ensures forall i :: 0 <= i < |Template(p).root.children| ==> Template(p).root.children[i].children == []
  {
    var ls := if p.kind.King? then KingOffsets() else KnightOffsets();
    assert Template(p).root == Fan(ls);
  }

  /** Every template is rooted at the origin: offsets are relative to the piece. */
  lemma TemplateRootAtOrigin(p: Piece)
    ensures Template(p).root.loc == Origin
  {
  }
}

=== FILE: util.dfy ===
/**
 * Shared vocabulary: optional values, results that carry an error, and the
 * "subsequence" relation used to say that a filter keeps order.
 */
module Util {

  datatype Option<T> = None | Some(value: T)

  datatype Result<T, E> = Success(value: T) | Failure(error: E)

  /** `a` is obtained from `b` by deleting elements, keeping the order of the rest. */
  predicate Subsequence<T(==)>(a: seq<T>, b: seq<T>)
    decreases |b|
  {
    if a == [] then true
    else if b == [] then false
    else if a[0] == b[0] then Subsequence(a[1..], b[1..])
    else Subsequence(a, b[1..])
  }

  /** Position, from `k` on, of the first element satisfying `f`, if any. */
  function FirstWhere<T>(xs: seq<T>, f: T -> bool, k: nat): (r: Option<nat>)
    requires k <= |xs|
    ensures r.Some? ==> k <= r.value < |xs| && f(xs[r.value])
    ensures r.Some? ==> forall j :: k <= j < r.value ==> !f(xs[j])
    ensures r.None? ==> forall j :: k <= j < |xs| ==> !f(xs[j])
    decreases |xs| - k
  {
    if k == |xs| then None
    else if f(xs[k]) then Some(k)
    else FirstWhere(xs, f, k + 1)
  }

  /**
   * Each element's key with the non-empty row `f` gives it, in order,
   * elements whose row is empty dropped.
   */
  function Tabulate<K, P, V>(xs: seq<(K, P)>, f: ((K, P)) -> seq<V>): (r: seq<(K, seq<V>)>)
    ensures forall e :: e in r ==> e.1 != [] && exists x :: x in xs && e.0 == x.0 && e.1 == f(x)
    ensures r == [] <==> forall i :: 0 <= i < |xs| ==> f(xs[i]) == []
    ensures forall x :: x in xs && f(x) != [] ==> (x.0, f(x)) in r
  {
    if xs == [] then []
    else
      var rest := Tabulate(xs[1..], f);
      assert forall i :: 1 <= i < |xs| ==> xs[i] == xs[1..][i - 1];
      assert forall x :: x in xs[1..] ==> x in xs;
      if f(xs[0]) == [] then rest else [(xs[0].0, f(xs[0]))] + rest
  }

  /** The table is non-empty as soon as one key has a non-empty row. */
  lemma TabulateHasRow<K, P, V>(xs: seq<(K, P)>, f: ((K, P)) -> seq<V>, x: (K, P))
    requires x in xs && f(x) != []
    ensures Tabulate(xs, f) != []
  {
    var i :| 0 <= i < |xs| && xs[i] == x;
    assert f(xs[i]) != [];
  }
}
